=== FILE: README.md ===
# LauKle renderer: mesh combinatorics in Dafny

This project models the integer and index-level core of the LauKle renderer, a small C# software rasteriser:

- the `Mesh<V>` container and its tools in `Rendering/Mesh.cs`:
  - clone;
  - vertex transforms;
  - topology conversion: triangles to wireframe lines, and any mesh to a point cloud;
  - vertex welding by grid cell;
  - concatenation;
  - the `Manifold` surface grid and the unit cube;
- the scene-side `MeshTools`: `Concat`, `Join`, the recovery of quads and edges from triangle pairs, and the combinatorial skeleton of Catmull–Clark subdivision;
- `MyManifold.SurfaceDiscrete` and `MyManifold.Cube`;
- `QuadMesh<V>` and its hiding `Clone`;
- the control-point bookkeeping of `BezierCurve`:
  - the indexer;
  - `CountOfSegments`;
  - `GetPointsInSegment` with its wrap-around `LoopIndex`;
  - which points `GetPoint` selects;
- `MeshManipulator.Adjust`: the node grid, the 8-neighbour graph and the start-node lookup;
- the `int3x4` matrix type with C# `int` semantics.

Modules:

- `Outcomes`: the .NET exceptions the code can throw, and `Result<T>`, which is either a value or the exception raised.
- `Linq`: `First`, `IndexOf`, `Where`, `Aggregate` as the code uses them.
- `Arithmetic`: monotonicity of multiplication and uniqueness of quotient and remainder, shared by the index computations.
- `Int32`: C# `int`, meaning wrapping arithmetic, division and remainder truncated toward zero, checked `/` and `%` that throw, and bitwise operators on the two's complement pattern.
- `Meshes`: the contents of `Rendering/Mesh.cs`, apart from the `Manifold` class.
- `Manifolds`: the `Manifold` class, that is `Surface` and `Cube`.
- `MyManifold`: the `MyManifold` subclass.
- `SceneMeshTools`: the scene-side `MeshTools`.
- `QuadMeshes`: `QuadMesh<V>`.
- `Bezier`: `BezierCurve`.
- `MeshManipulator`: `Node`, `Graph<N>` and `Adjust`.
- `Int3x4Matrix`: `int3x4`.

Vertices are an abstract type `V`. Everything that is floating-point geometry becomes a parameter:

- the position a generating function returns;
- the cell a vertex is welded into (`key: V -> K`);
- the new vertex a subdivision step computes for a face slot.

What is proved is the index structure around those parameters:

- which vertex every index refers to;
- which exception is raised, and when;
- how many faces, edges and indices come out;
- that indices stay in range.

## Model

| member | source | states |
|---|---|---|
| Meshes.Clone | Classes/UH2021/LauKle/Renderer/Rendering/Mesh.cs:42-47 | the clone has the same vertices, indices and topology |
| Meshes.Transform | Classes/UH2021/LauKle/Renderer/Rendering/Mesh.cs:54-63 | one output vertex per input vertex, each the image of the vertex at the same position; indices and topology are kept |
| Meshes.TransformReferenced | Classes/UH2021/LauKle/Renderer/Rendering/Mesh.cs:54-63 | a transform keeps the indices in range, and the vertex each index refers to becomes its image |
| Meshes.TransformCompose | Classes/UH2021/LauKle/Renderer/Rendering/Mesh.cs:65-68 | transforming twice is transforming once by the composed function |
| Meshes.LineIndices | Classes/UH2021/LauKle/Renderer/Rendering/Mesh.cs:116-129 | the index array is twice as long; each whole triangle gives its three edges as six indices; the slots beyond the last whole triangle stay 0 |
| Meshes.ToTriangles | Classes/UH2021/LauKle/Renderer/Rendering/Mesh.cs:91-102 | conversion to triangles succeeds exactly for a triangle mesh, and yields an equal mesh |
| Meshes.ToLines | Classes/UH2021/LauKle/Renderer/Rendering/Mesh.cs:105-133 | conversion to lines succeeds exactly for line and triangle meshes |
| Meshes.ConvertTo | Classes/UH2021/LauKle/Renderer/Rendering/Mesh.cs:87-147 | every case of the topology switch: same-topology clones, triangles to wireframe, anything to the point cloud 0..n-1, NotImplementedException for lines or points to triangles (also via points to lines), ArgumentException for an unnamed topology |
| Meshes.LineIndicesEntry | Classes/UH2021/LauKle/Renderer/Rendering/Mesh.cs:119-129 | slot s of the six slots of triangle t holds corner 0,1,1,2,2,0 of that triangle |
| Meshes.WireframeInRange | Classes/UH2021/LauKle/Renderer/Rendering/Mesh.cs:116-131 | the wireframe of an in-range mesh is in range exactly when the index count is a multiple of 3 or the mesh has a vertex (the zero padding refers to vertex 0) |
| Meshes.WireframeLinesAreTriangleEdges | Classes/UH2021/LauKle/Renderer/Rendering/Mesh.cs:119-129 | line e of triangle t joins corner e to the next corner cyclically |
| Meshes.Wireframe | Classes/UH2021/LauKle/Renderer/Rendering/Mesh.cs:113-133 | the triangles-to-lines case keeps the vertex array, has Lines topology and twice as many indices |
| Meshes.PointCloud | Classes/UH2021/LauKle/Renderer/Rendering/Mesh.cs:136-143 | conversion to points keeps the vertex array, has Points topology and one index per vertex, index v being v, so every index is in range |
| Meshes.Scan | Classes/UH2021/LauKle/Renderer/Rendering/Mesh.cs:157-173 | the dictionary maps each cell seen to a representative of that cell, every vertex is mapped to the representative of its cell, and representatives and cells are in one-to-one correspondence |
| Meshes.Weld | Classes/UH2021/LauKle/Renderer/Rendering/Mesh.cs:152-180 | IndexOutOfRangeException exactly when some index is outside the vertex array; otherwise the indices stay in range, no two new vertices share a cell, each index refers to a vertex of the same cell as before, and there are no more vertices than before |
| Meshes.FirstPositionsSnoc | Classes/UH2021/LauKle/Renderer/Rendering/Mesh.cs:161-173 | adding a vertex adds its position to the first-of-cell positions exactly when its cell is new |
| Meshes.LastIsFirstInCell | Classes/UH2021/LauKle/Renderer/Rendering/Mesh.cs:166-170 | a vertex is the first of its cell exactly when the dictionary does not yet contain its cell |
| Meshes.ScanKeepsFirstOccurrences | Classes/UH2021/LauKle/Renderer/Rendering/Mesh.cs:161-173 | the new vertex list is the first vertex of each cell, in order of first occurrence |
| Meshes.WeldRepresentative | Classes/UH2021/LauKle/Renderer/Rendering/Mesh.cs:172-177 | after welding, each index refers to the first vertex of the original mesh that lies in the same cell |
| Meshes.ScanDistinct | Classes/UH2021/LauKle/Renderer/Rendering/Mesh.cs:161-173 | on vertices that are all in different cells, the scan keeps every vertex and maps each one to itself |
| Meshes.WeldIdempotent | Classes/UH2021/LauKle/Renderer/Rendering/Mesh.cs:152-180 | welding a welded mesh changes nothing |
| Meshes.Concat | Classes/UH2021/LauKle/Renderer/Rendering/Mesh.cs:182-190 | the vertices are the first mesh's followed by the second's; the first mesh's indices come first unchanged, then each of the second mesh's indices moved by the first mesh's vertex count; the result is a triangle mesh whatever the inputs were |
| Meshes.ConcatReferenced | Classes/UH2021/LauKle/Renderer/Rendering/Mesh.cs:182-190 | the concatenation keeps indices in range and describes the first mesh's geometry followed by the second's |
| Meshes.ConcatAssociative | Classes/UH2021/LauKle/Renderer/Rendering/Mesh.cs:182-190 | concatenation is associative |
| Manifolds.GridCoordinates | Classes/UH2021/LauKle/Renderer/Rendering/Mesh.cs:434 | the row-major vertex number i*(slices+1)+j gives back its row and column |
| Manifolds.CellOfNumber | Classes/UH2021/LauKle/Renderer/Rendering/Mesh.cs:438-448 | every group of six indices belongs to exactly one cell (i, j) of the grid |
| Manifolds.CellInGrid | Classes/UH2021/LauKle/Renderer/Rendering/Mesh.cs:441-447 | the six indices a cell emits lie inside the (slices+1)*(stacks+1) vertex array |
| Manifolds.GridIndices | Classes/UH2021/LauKle/Renderer/Rendering/Mesh.cs:428-448 | 6*slices*stacks indices, all 0 when there is no cell |
| Manifolds.GridIndicesCell | Classes/UH2021/LauKle/Renderer/Rendering/Mesh.cs:438-448 | cell (i, j) emits two triangles sharing the diagonal from (i, j) to (i+1, j+1), at group i*slices+j |
| Manifolds.GridIndicesInRange | Classes/UH2021/LauKle/Renderer/Rendering/Mesh.cs:438-448 | every index of a grid with at least one cell is a valid vertex number |
| Manifolds.GridVertices | Classes/UH2021/LauKle/Renderer/Rendering/Mesh.cs:427-434 | vertex i*(slices+1)+j is generated from column j and row i |
| Manifolds.Surface | Classes/UH2021/LauKle/Renderer/Rendering/Mesh.cs:425-451 | OverflowException exactly when an array size is negative; otherwise the counts, the vertex placement and the two triangles of each cell; indices in range for non-negative counts |
| Manifolds.SurfaceOfNegativeCounts | Classes/UH2021/LauKle/Renderer/Rendering/Mesh.cs:427-448 | with slices = stacks = -1 both array sizes are non-negative, so the call returns a mesh with no vertices and six indices 0 that are out of range |
| Manifolds.CubeTable | Classes/UH2021/LauKle/Renderer/Rendering/Mesh.cs:497-511 | every cube index is a corner number, and every corner is used |
| Manifolds.Cube | Classes/UH2021/LauKle/Renderer/Rendering/Mesh.cs:483-513 | 8 translated corners in table order and exactly the 36-index table, all in range, that use every corner |
| MyManifold.SurfaceDiscrete | Classes/UH2021/LauKle/Renderer/Scene/Tools/MyManifold.cs:10-36 | OverflowException exactly when an array size is negative; otherwise the grid of `Surface`: vertex i*(slices+1)+j generated from the integer pair (j, i), and cell (i, j) giving at group i*slices+j the two triangles on the (i, j)-(i+1, j+1) diagonal |
| MyManifold.Cube | Classes/UH2021/LauKle/Renderer/Scene/Tools/MyManifold.cs:48-78 | a triangle mesh whose vertex c is the translated corner c of the unit cube, with the 36-index table of the base cube, in range, using every corner |
| SceneMeshTools.Concat | Classes/UH2021/LauKle/Renderer/Scene/Tools/MeshTools.cs:10-17 | the same mesh as the rendering-side `Concat`, whose contract states the vertex and index layout |
| SceneMeshTools.Join | Classes/UH2021/LauKle/Renderer/Scene/Tools/MeshTools.cs:19-22 | InvalidOperationException exactly for no meshes; a single mesh is returned unchanged |
| SceneMeshTools.JoinStep | Classes/UH2021/LauKle/Renderer/Scene/Tools/MeshTools.cs:19-22 | joining folds from the left: the join of the prefix, concatenated with the last mesh |
| SceneMeshTools.JoinConcatenates | Classes/UH2021/LauKle/Renderer/Scene/Tools/MeshTools.cs:19-22 | joining in-range meshes gives all their vertices in order, in range, describing each mesh's geometry in turn |
| SceneMeshTools.FirstOutside | Classes/UH2021/LauKle/Renderer/Scene/Tools/MeshTools.cs:35-39 | the first corner of one triangle that the other lacks, or 3 when there is none |
| SceneMeshTools.FirstUnshared | Classes/UH2021/LauKle/Renderer/Scene/Tools/MeshTools.cs:35-41 | `First` on the unshared corners throws InvalidOperationException exactly when every corner is shared; otherwise it finds that corner, and `IndexOf` finds its position |
| SceneMeshTools.QuadOf | Classes/UH2021/LauKle/Renderer/Scene/Tools/MeshTools.cs:32-43 | a triangle pair yields a quad unless one triangle's corners all lie in the other (InvalidOperationException); the quad is the unshared corner of the first triangle, its successor, the unshared corner of the second, and its second successor |
| SceneMeshTools.EdgesOfFace | Classes/UH2021/LauKle/Renderer/Scene/Tools/MeshTools.cs:67-68 | one edge per corner, each starting at its corner and ending where the next edge starts, cyclically |
| SceneMeshTools.AddEdge | Classes/UH2021/LauKle/Renderer/Scene/Tools/MeshTools.cs:45-55 | a guarded add: the edge is then present in some orientation, nothing else is added, and no edge is ever listed twice in either orientation |
| SceneMeshTools.AddEdges | Classes/UH2021/LauKle/Renderer/Scene/Tools/MeshTools.cs:45-55 | the four guarded adds cover every edge of the face and keep the list free of duplicates in either orientation |
| SceneMeshTools.AddFaceCovers | Classes/UH2021/LauKle/Renderer/Scene/Tools/MeshTools.cs:43-55 | after a face is added, every edge of every face so far is listed |
| SceneMeshTools.AddFaceFromFaces | Classes/UH2021/LauKle/Renderer/Scene/Tools/MeshTools.cs:43-55 | after a face is added, every listed edge is an edge of some face |
| SceneMeshTools.AddFace | Classes/UH2021/LauKle/Renderer/Scene/Tools/MeshTools.cs:43-55 | one loop step: the face is appended and the edge-list invariants hold |
| SceneMeshTools.FacesExtend | Classes/UH2021/LauKle/Renderer/Scene/Tools/MeshTools.cs:30-43 | the face list stays equal to the quads of the triangle pairs read so far |
| SceneMeshTools.FacesAndEdgesUpTo | Classes/UH2021/LauKle/Renderer/Scene/Tools/MeshTools.cs:30-56 | after n pairs: InvalidOperationException exactly when some pair has no quad; otherwise face p is the quad of pair p, and the edges are exactly the face edges, each listed once |
| SceneMeshTools.GetFacesAndEdges | Classes/UH2021/LauKle/Renderer/Scene/Tools/MeshTools.cs:24-59 | the same over all \|indices\|/6 pairs; trailing indices that do not fill a pair are ignored |
| SceneMeshTools.SurfacePairIsCellQuad | Classes/UH2021/LauKle/Renderer/Scene/Tools/MeshTools.cs:32-43 | the two triangles of a surface cell give back that cell's quad, its corners in cyclic order |
| SceneMeshTools.PairOfCell | Classes/UH2021/LauKle/Renderer/Scene/Tools/MeshTools.cs:32-43 | a pair of six indices equal to a cell's triangles has that cell's quad |
| SceneMeshTools.SurfaceFaces | Classes/UH2021/LauKle/Renderer/Scene/Tools/MeshTools.cs:24-59 | on a surface grid, face recovery succeeds with slices*stacks faces, and face i*slices+j is cell (i, j)'s quad |
| SceneMeshTools.FacesInvolvingPoint | Classes/UH2021/LauKle/Renderer/Scene/Tools/MeshTools.cs:61-62 | exactly the faces that contain the point |
| SceneMeshTools.EdgesInvolvingPoint | Classes/UH2021/LauKle/Renderer/Scene/Tools/MeshTools.cs:64-65 | exactly the edges with the point at either end |
| SceneMeshTools.InvolvingPointKeepsOrder | Classes/UH2021/LauKle/Renderer/Scene/Tools/MeshTools.cs:61-65 | both filters distribute over concatenation, so they keep the input order |
| SceneMeshTools.FacesOfEdge | Classes/UH2021/LauKle/Renderer/Scene/Tools/MeshTools.cs:91-93 | exactly the faces that contain both ends of the edge |
| SceneMeshTools.FacesOfEdgeKeepsOrder | Classes/UH2021/LauKle/Renderer/Scene/Tools/MeshTools.cs:91-93 | the faces of an edge are taken in face order, once per face: over a concatenated face list they are the first list's followed by the second's, and a single face contributes itself exactly when it holds both ends |
| SceneMeshTools.SubIndices | Classes/UH2021/LauKle/Renderer/Scene/Tools/MeshTools.cs:136-151 | 24 indices, all inside the face's own block of nine new vertices |
| SceneMeshTools.Emit | Classes/UH2021/LauKle/Renderer/Scene/Tools/MeshTools.cs:121-152 | nine vertices and 24 indices per face; face f's indices are its sub-quads over the block 9f..9f+8; all indices in range |
| SceneMeshTools.EmittedIndexInRange | Classes/UH2021/LauKle/Renderer/Scene/Tools/MeshTools.cs:136-151 | every emitted index refers to an emitted vertex |
| SceneMeshTools.PassedVertexCheck | Classes/UH2021/LauKle/Renderer/Scene/Tools/MeshTools.cs:100-107 | if no index fails the vertex pass, every index is in range |
| SceneMeshTools.EmitAndWeld | Classes/UH2021/LauKle/Renderer/Scene/Tools/MeshTools.cs:121-154 | welding the emitted mesh always succeeds, with 24 indices per face, at most nine vertices per face, in range, in distinct cells |
| SceneMeshTools.DiagonalPair | Classes/UH2021/LauKle/Renderer/Scene/Tools/MeshTools.cs:32-43 | the triangles (a,b,c) and (d,c,b) of four distinct vertices give the quad a,b,d,c |
| SceneMeshTools.SubPairIsSubQuad | Classes/UH2021/LauKle/Renderer/Scene/Tools/MeshTools.cs:138-151 | each triangle pair a face emits gives back one of the four sub-quads of the 3 x 3 block |
| SceneMeshTools.EmittedPair | Classes/UH2021/LauKle/Renderer/Scene/Tools/MeshTools.cs:123-151 | pair 4f+q of the emitted indices is sub-quad q of face f |
| SceneMeshTools.EmitFaces | Classes/UH2021/LauKle/Renderer/Scene/Tools/MeshTools.cs:24-59 | the next iteration's face recovery on the emitted mesh succeeds with four faces per old face, each a sub-quad |
| SceneMeshTools.VertexPass | Classes/UH2021/LauKle/Renderer/Scene/Tools/MeshTools.cs:100-119 | the vertex pass finds no failing index exactly when every index is a vertex with a face and an edge around it, and otherwise stops at the first failing position |
| SceneMeshTools.Subdivide | Classes/UH2021/LauKle/Renderer/Scene/Tools/MeshTools.cs:75-154 | one step succeeds exactly when face recovery succeeds, every face corner is a vertex, every edge lies on two faces and every index is a vertex with a face and an edge around it; otherwise InvalidOperationException when face recovery fails, IndexOutOfRangeException for a corner outside the vertices or an edge on fewer than two faces (`correctFaces[1]`), and in the vertex pass the exception of the first failing index: IndexOutOfRangeException when it is out of range, InvalidOperationException when it has no face or no edge to average; on success 24 indices per recovered face, in range, in distinct cells |
| SceneMeshTools.CatmullClark | Classes/UH2021/LauKle/Renderer/Scene/Tools/MeshTools.cs:70-155 | zero iterations return the mesh; one iteration is one `Subdivide` step, and a failing first step's exception is the result; a negative count returns no value (the model stops after the first step with `NeverReturns`); n > 0 successful iterations multiply the whole-pair index count by 4^n |
| SceneMeshTools.SubdividedCount | Classes/UH2021/LauKle/Renderer/Scene/Tools/MeshTools.cs:154 | the index count after n steps is 4^n times the whole-pair index count |
| QuadMeshes.New | Classes/UH2021/LauKle/Renderer/Scene/Structs/QuadMesh.cs:14-18 | the base mesh is built from the given arrays and topology, and the face table is stored as given |
| QuadMeshes.CloneTable | Classes/UH2021/LauKle/Renderer/Scene/Structs/QuadMesh.cs:24 | same shape, same rows; a well-shaped table stays well-shaped |
| QuadMeshes.Clone | Classes/UH2021/LauKle/Renderer/Scene/Structs/QuadMesh.cs:20-26 | the copy has the same vertices, indices, topology and face table |
| QuadMeshes.CloneIsCopy | Classes/UH2021/LauKle/Renderer/Scene/Structs/QuadMesh.cs:20-26 | the copy equals the original, so cloning is idempotent |
| QuadMeshes.CloneThroughMesh | Classes/UH2021/LauKle/Renderer/Scene/Structs/QuadMesh.cs:20 | through a `Mesh<V>` reference the hiding `new Clone` is not called: the result is a plain mesh with the same base |
| QuadMeshes.CloneThroughQuadMesh | Classes/UH2021/LauKle/Renderer/Scene/Structs/QuadMesh.cs:20-26 | through a `QuadMesh<V>` reference the face table is kept |
| QuadMeshes.CloneDependsOnStaticType | Classes/UH2021/LauKle/Renderer/Scene/Structs/QuadMesh.cs:20 | the two static types give different results for the same object |
| Bezier.Empty | Classes/UH2021/LauKle/Renderer/Scene/BezierCurve.cs:17-20 | a new curve has no points |
| Bezier.CountOfSegments | Classes/UH2021/LauKle/Renderer/Scene/BezierCurve.cs:14 | the number of whole groups of three points, which is the truncated quotient |
| Bezier.Get | Classes/UH2021/LauKle/Renderer/Scene/BezierCurve.cs:27-29 | the point at the index, or ArgumentOutOfRangeException exactly outside the list |
| Bezier.Set | Classes/UH2021/LauKle/Renderer/Scene/BezierCurve.cs:30 | ArgumentOutOfRangeException exactly outside the list; the count is kept |
| Bezier.GetAfterSet | Classes/UH2021/LauKle/Renderer/Scene/BezierCurve.cs:27-31 | reading back a written index gives the written point, and other indices are unchanged |
| Bezier.Clamp | Classes/UH2021/LauKle/Renderer/Scene/BezierCurve.cs:35 | `Math.Clamp` throws ArgumentException exactly when min > max; otherwise the value is moved into [min, max] and kept when inside |
| Bezier.LoopIndex | Classes/UH2021/LauKle/Renderer/Scene/BezierCurve.cs:45-48 | DivideByZeroException exactly on an empty curve |
| Bezier.LoopIndexRange | Classes/UH2021/LauKle/Renderer/Scene/BezierCurve.cs:45-48 | without overflow, an index in (-Count, Count] wraps into the list: unchanged inside it, Count to 0, negative i to i + Count |
| Bezier.LoopIndexBelow | Classes/UH2021/LauKle/Renderer/Scene/BezierCurve.cs:45-48 | C#'s `%` keeps the dividend's sign, so an index below -Count gives a non-positive result |
| Bezier.SegmentReads | Classes/UH2021/LauKle/Renderer/Scene/BezierCurve.cs:36-42 | ArgumentOutOfRangeException, and nothing else, when one of points 3s..3s+2 is outside the list; on success four points, the first three being points 3s..3s+2 and the fourth a point of the curve |
| Bezier.GetPointsInSegment | Classes/UH2021/LauKle/Renderer/Scene/BezierCurve.cs:33-43 | ArgumentException when the curve has fewer than three points; only ArgumentException or ArgumentOutOfRangeException is thrown; on success the first three points are those of the clamped segment |
| Bezier.PointsInSegment | Classes/UH2021/LauKle/Renderer/Scene/BezierCurve.cs:33-43 | ArgumentException exactly when there are fewer than three points (the clamp range is empty); otherwise the clamped segment's three points and the next one, wrapping to point 0 after the last |
| Bezier.LastSegmentWraps | Classes/UH2021/LauKle/Renderer/Scene/BezierCurve.cs:33-48 | when the count is a multiple of 3, the last segment's fourth point is point 0 |
| Bezier.ReadFour | Classes/UH2021/LauKle/Renderer/Scene/BezierCurve.cs:72 | four consecutive points, or ArgumentOutOfRangeException exactly when they do not fit |
| Bezier.ClampUnit | Classes/UH2021/LauKle/Renderer/Scene/BezierCurve.cs:67 | the parameter moved into [0, 1], and kept when inside |
| Bezier.Selection | Classes/UH2021/LauKle/Renderer/Scene/BezierCurve.cs:59-72 | the only exception `GetPoint` can raise before evaluating is ArgumentOutOfRangeException |
| Bezier.SegmentOfRange | Classes/UH2021/LauKle/Renderer/Scene/BezierCurve.cs:66-70 | below t = 1 the selected segment is a segment number, and 0 when there are none |
| Bezier.SelectionAtEnd | Classes/UH2021/LauKle/Renderer/Scene/BezierCurve.cs:62-65 | at t >= 1 the last four points are read with local parameter 1, and this fails exactly with fewer than four points |
| Bezier.SelectionBelowOne | Classes/UH2021/LauKle/Renderer/Scene/BezierCurve.cs:66-72 | below t = 1 the segment's four points are read with a local parameter in [0, 1), and this fails exactly when they run past the end |
| Bezier.SelectionAlwaysInRange | Classes/UH2021/LauKle/Renderer/Scene/BezierCurve.cs:59-72 | every t < 1 reads inside the list exactly when there are at least 4 points and the count is not a multiple of 3 |
| MeshManipulator.NewNode | Classes/UH2021/LauKle/Renderer/Scene/MeshManipulator.cs:24-29 | the node keeps its coordinates and position, starts with a zero direction and is not visited |
| MeshManipulator.HashDependsOnCellOnly | Classes/UH2021/LauKle/Renderer/Scene/MeshManipulator.cs:31-34 | `GetHashCode` combines only the grid coordinates: nodes of the same cell hash alike, whatever their position, direction and visited flag |
| MeshManipulator.Get | Classes/UH2021/LauKle/Renderer/Scene/MeshManipulator.cs:46-48 | the stored adjacency list, or KeyNotFoundException exactly for a missing node |
| MeshManipulator.Put | Classes/UH2021/LauKle/Renderer/Scene/MeshManipulator.cs:49 | the node's list is replaced and every other node's lookup is unchanged |
| MeshManipulator.Clear | Classes/UH2021/LauKle/Renderer/Scene/MeshManipulator.cs:52 | every lookup afterwards throws KeyNotFoundException |
| MeshManipulator.Keep | Classes/UH2021/LauKle/Renderer/Scene/MeshManipulator.cs:74-97 | a neighbour is added exactly when it is inside the grid |
| MeshManipulator.Neighbours | Classes/UH2021/LauKle/Renderer/Scene/MeshManipulator.cs:74-98 | a node's adjacency list has at most eight entries, and every entry passes `IsValid`, that is lies inside the grid |
| MeshManipulator.NeighbourMembership | Classes/UH2021/LauKle/Renderer/Scene/MeshManipulator.cs:76-98 | a node's adjacency list holds exactly the in-grid cells one king move away |
| MeshManipulator.NeighboursSymmetric | Classes/UH2021/LauKle/Renderer/Scene/MeshManipulator.cs:76-98 | adjacency is symmetric and no node is its own neighbour |
| MeshManipulator.NeighbourCount | Classes/UH2021/LauKle/Renderer/Scene/MeshManipulator.cs:82-97 | the list length is the number of in-grid cells of the node's 3 x 3 block, less one |
| MeshManipulator.NeighbourCountByPosition | Classes/UH2021/LauKle/Renderer/Scene/MeshManipulator.cs:70-97 | corners have 3 neighbours, other boundary nodes 5 and interior nodes 8, so the boundary set is exactly the nodes with fewer than 8 |
| MeshManipulator.Cells | Classes/UH2021/LauKle/Renderer/Scene/MeshManipulator.cs:66-67 | exactly the valid grid coordinates |
| MeshManipulator.Boundary | Classes/UH2021/LauKle/Renderer/Scene/MeshManipulator.cs:70-71 | exactly the grid nodes in the first or last row or column |
| MeshManipulator.BuildGraph | Classes/UH2021/LauKle/Renderer/Scene/MeshManipulator.cs:76-98 | one entry per grid node, holding its neighbour list |
| MeshManipulator.GraphClosed | Classes/UH2021/LauKle/Renderer/Scene/MeshManipulator.cs:76-98 | every neighbour is itself a key of the graph and lists the node back |
| MeshManipulator.VertexReads | Classes/UH2021/LauKle/Renderer/Scene/MeshManipulator.cs:66-69 | without overflow, every vertex read is in range exactly when the mesh has at least (stacks+1)*(slices+1) vertices |
| MeshManipulator.VertexIndexNoWrap | Classes/UH2021/LauKle/Renderer/Scene/MeshManipulator.cs:69 | the wrapped `j + i * (slices + 1)` is the surface grid's vertex number |
| MeshManipulator.VertexIndexInjective | Classes/UH2021/LauKle/Renderer/Scene/MeshManipulator.cs:69 | different nodes read different vertices |
| MeshManipulator.Grid | Classes/UH2021/LauKle/Renderer/Scene/MeshManipulator.cs:60-72 | node (i, j) has its own coordinates and the position of the vertex it reads |
| MeshManipulator.AdjustSetup | Classes/UH2021/LauKle/Renderer/Scene/MeshManipulator.cs:57-98 | OverflowException exactly when stacks + 1 or slices + 1 wraps negative, IndexOutOfRangeException when a vertex read fails; without that wrap, success exactly when every vertex read is in range, and then the node grid (node (i, j) with its coordinates and the position of vertex j + i*(slices+1)), the full neighbour graph, the boundary set and an empty queue |
| MeshManipulator.Adjust | Classes/UH2021/LauKle/Renderer/Scene/MeshManipulator.cs:57-119 | the method never returns normally: Overflow for a wrapped dimension, InvalidOperationException from `First` on the never-filled queue exactly when the setup succeeds |
| MeshManipulator.AdjustOutcome | Classes/UH2021/LauKle/Renderer/Scene/MeshManipulator.cs:57-101 | without overflow, the exception is IndexOutOfRange exactly when the mesh has too few vertices, and InvalidOperation otherwise |
| Int32.Wrap | Classes/UH2021/LauKle/Renderer/GMath/types/int3x4.cs:55-57 | the int32 congruent to the exact result modulo 2^32, equal to it when it fits |
| Int32.CheckedDiv | Classes/UH2021/LauKle/Renderer/GMath/types/int3x4.cs:58 | DivideByZeroException for a zero divisor, OverflowException for int.MinValue / -1; otherwise the quotient truncated toward zero |
| Int32.CheckedRem | Classes/UH2021/LauKle/Renderer/GMath/types/int3x4.cs:59 | the same exceptions as `/`; the remainder is smaller than the divisor in magnitude and has the dividend's sign |
| Int32.DivRemIdentity | Classes/UH2021/LauKle/Renderer/GMath/types/int3x4.cs:58-59 | quotient times divisor plus remainder is the dividend, and the quotient is no larger than the dividend in magnitude |
| Int32.NegInvolutive | Classes/UH2021/LauKle/Renderer/GMath/types/int3x4.cs:51 | wrapping negation is its own inverse, also at int.MinValue |
| Int32.BitNotIsNegMinusOne | Classes/UH2021/LauKle/Renderer/GMath/types/int3x4.cs:53 | the bitwise complement of x is -x - 1 |
| Int32.BitNotInvolutive | Classes/UH2021/LauKle/Renderer/GMath/types/int3x4.cs:53 | complementing twice gives the value back |
| Int32.XorSelfIsZero | Classes/UH2021/LauKle/Renderer/GMath/types/int3x4.cs:62 | x ^ x is 0 |
| Int3x4Matrix.New | Classes/UH2021/LauKle/Renderer/GMath/types/int3x4.cs:23-36 | each of the twelve arguments lands in its own field: argument m<r><c> is entry (r, c) |
| Int3x4Matrix.Fill | Classes/UH2021/LauKle/Renderer/GMath/types/int3x4.cs:37 | the broadcast constructor, also used by the implicit conversion, puts the value in every entry |
| Int3x4Matrix.Row | Classes/UH2021/LauKle/Renderer/GMath/types/int3x4.cs:15-22 | rows 0 to 2 are the matrix rows; any other row, negative ones included, is the zero vector |
| Int3x4Matrix.RowsDetermine | Classes/UH2021/LauKle/Renderer/GMath/types/int3x4.cs:15-22 | two matrices with the same three rows are equal |
| Int3x4Matrix.SubEntry | Classes/UH2021/LauKle/Renderer/GMath/types/int3x4.cs:38-48 | entry (r, c) of every explicit cast to a smaller matrix is entry (r, c) of the matrix |
| Int3x4Matrix.SubCorners | Classes/UH2021/LauKle/Renderer/GMath/types/int3x4.cs:38-48 | the full-size cast is the matrix, the 1x1 cast is entry 00, and the column cast reads down column 0 |
| Int3x4Matrix.Sub | Classes/UH2021/LauKle/Renderer/GMath/types/int3x4.cs:38-48 | the cast to an R x C matrix has R*C entries (their placement is `SubEntry`) |
| Int3x4Matrix.Map1 | Classes/UH2021/LauKle/Renderer/GMath/types/int3x4.cs:51-54 | the unary operators `-`, `+`, `~` and `!` (`Negate`, `Plus`, `Complement`, `LogicalNot`) apply their int operation to each of the twelve entries and to nothing else |
| Int3x4Matrix.Zip | Classes/UH2021/LauKle/Renderer/GMath/types/int3x4.cs:55-68 | the binary operators `+`, `*`, `-`, `&`, `\|`, `^` and the six comparisons (`Add` … `Greater`) combine the two entries at the same position, for each of the twelve positions; `/` and `%` go through `CheckedFrom` instead |
| Int3x4Matrix.OperatorsCommute | Classes/UH2021/LauKle/Renderer/GMath/types/int3x4.cs:55-62 | `+`, `*`, `&`, `\|` and `^` are commutative, also when entries wrap |
| Int3x4Matrix.MasksComplementary | Classes/UH2021/LauKle/Renderer/GMath/types/int3x4.cs:63-68 | comparisons give 0/1 entries that are 1 exactly where the relation holds; `==` and `!=` add up to all ones, and so do `<` and `>=`, and `<=` and `>` |
| Int3x4Matrix.LogicalNotTwice | Classes/UH2021/LauKle/Renderer/GMath/types/int3x4.cs:54 | `!` is 1 exactly on zero entries, so `!!a` is `a != 0` |
| Int3x4Matrix.UnaryInvolutions | Classes/UH2021/LauKle/Renderer/GMath/types/int3x4.cs:51-57 | `-(-a) == a` and `~~a == a`, also at int.MinValue; unary `+` is the identity; `a - b == a + (-b)` |
| Int3x4Matrix.ComplementIsNegMinusOne | Classes/UH2021/LauKle/Renderer/GMath/types/int3x4.cs:53 | every entry of `~a` is minus the entry, minus one |
| Int3x4Matrix.CheckedFrom | Classes/UH2021/LauKle/Renderer/GMath/types/int3x4.cs:58-59 | the arguments are evaluated in field order: success exactly when every entry succeeds, and otherwise the exception of the first failing entry |
| Int3x4Matrix.Divide | Classes/UH2021/LauKle/Renderer/GMath/types/int3x4.cs:58 | any zero divisor entry makes `/` throw; it succeeds exactly when every entry divides, giving the truncated quotients |
| Int3x4Matrix.Remainder | Classes/UH2021/LauKle/Renderer/GMath/types/int3x4.cs:59 | any zero divisor entry makes `%` throw; it succeeds exactly when every entry divides, giving the truncated remainders |
| Int3x4Matrix.DivideFirstFailure | Classes/UH2021/LauKle/Renderer/GMath/types/int3x4.cs:58 | a zero divisor before any int.MinValue / -1 entry gives DivideByZeroException |
| Int3x4Matrix.DivideRemainder | Classes/UH2021/LauKle/Renderer/GMath/types/int3x4.cs:58-59 | `/` and `%` fail together, and when they succeed `(a / b) * b + a % b == a` under wrapping arithmetic |

## Left out

- Floating point throughout is not modelled:
  - positions, the `float4x4` transform overload and its homogeneous divide;
  - `Sphere`, `Generative`, `Extrude`, `Revolution`, `Lofted` (parameterisations of `Surface`);
  - `ComputeNormals`.
  
  Positions are abstract values, and generating functions are parameters.
- Meshes.Weld: the cell of a vertex is the parameter `key`, not the float quantisation `(int3)(p / epsilon)`, because that needs IEEE rounding. The cell-level behaviour, first vertex per cell in order, is modelled exactly.
- The 32-bit overflow of array sizes and index arithmetic in `Surface`, `Concat` and the subdivision emission is not modelled. Indices are unbounded integers there. `Surface` does model the OverflowException of a negative array size.
- SceneMeshTools.GetFacesAndEdges: the `HashSet` of edges is modelled as a duplicate-free list in insertion order. .NET does not document the enumeration order of a `HashSet`, but its `ToList` gives this order when nothing is removed.
- SceneMeshTools.Subdivide: the new vertex positions (face points, edge points and the averaged old positions, all float averages) come from the `point` parameter. The exceptions the averaging can raise are modelled:
  - the two-faces-per-edge lookup;
  - `Aggregate` on an empty sequence;
  - out-of-range vertex reads.
  
  The in-place update of the input mesh's vertex positions is not modelled.
- SceneMeshTools.CatmullClark: with a negative iteration count the model takes the first step and then stops with the `NeverReturns` outcome. The later steps are not followed, so the model does not say how the call ends: an InvalidOperationException or IndexOutOfRangeException from a later step (for example once welding has collapsed a face), or a stack overflow before the counter wraps around 2^32.
- `DooSabin` (`Rendering/Mesh.cs:362-417`) and the duplicate `GetFacesAndEdges`/`CatmullClark` in `Rendering/Mesh.cs:220-351` are left out. The duplicate is the same code as the scene-side version, so it is modelled once.
- Manifolds.Cube: the triangle winding (which side each face faces) is geometric and not stated.
- Bezier: `Eval` and the curve point `GetPoint` returns are float polynomials and are left out. The parameter `t` is an exact real, so the rounding of `(int)t` on floats near segment boundaries is not modelled. Neither are NaN and the infinities: `GetPoint(float.NaN)` fails `t >= 1` and then casts NaN to `int`, whose result C# leaves unspecified, and an exact real has no such value. What `GetPoint` reads and with which local parameter is modelled by `Selection`.
- Bezier.PointsInSegment: requires `2 * Count <= int.MaxValue`, because the wrap-around of `segmentIndex * 3 + 3 + Count` near 2^31 points is not modelled.
- Bezier.LastSegmentWraps: requires `2 * Count <= int.MaxValue` for the same reason.
- Bezier.GetPointsInSegment: its own contract does not say which point comes fourth, because near 2^31 points `LoopIndex` wraps. `PointsInSegment` states the fourth point under `2 * Count <= int.MaxValue`.
- Bezier.SegmentReads: the fourth point is only said to be a point of the curve, for the same reason.
- MeshManipulator.Adjust: the traversal loop (`while (queue.Count > 0)`) and `UpdateNodePosition` are left out. `First` on the never-filled queue throws before the loop, so the loop is unreachable.
- MeshManipulator.Hash: a node's identity is taken as its grid coordinates. `HashCode.Combine` is a parameter, because its values are seeded per process.
- Allocation failures (an array larger than memory) are not modelled.
- `int3x4`: the implicit conversion to `float3x4` (floating point) and `ToString` (string formatting) are left out.
- Int3x4Matrix.Divide: the exact exception for a divisor matrix with both a zero and an int.MinValue / -1 entry is stated only through `CheckedFrom` and `DivideFirstFailure`: the first failing entry decides.

=== FILE: arithmetic.dfy ===
/** Facts about integer multiplication and Euclidean division shared by
    the index computations of the mesh, grid and matrix modules. */
module Arithmetic {
  lemma MulMonotone(size: nat, x: nat, y: nat)
    requires x <= y
    ensures size * x <= size * y
  {
  }

  lemma MulSucc(size: nat, b: nat)
    ensures size * b + size == size * (b + 1)
  {
  }

  lemma MulAssoc(a: int, b: int, c: int)
    ensures a * b * c == a * (b * c)
  {
  }

  /** Euclidean division has one quotient and one remainder. */
  lemma DivModUnique(k: int, w: int, q: int, r: int)
    requires w > 0 && 0 <= r < w && k == q * w + r
    ensures k / w == q && k % w == r
  {
    var q', r' := k / w, k % w;
    assert (q - q') * w == r' - r;
    if q > q' {
      MulMonotone(w, 1, q - q');
      assert false;
    } else if q < q' {
      MulMonotone(w, 1, q' - q);
      assert false;
    }
  }

}

=== FILE: bezier.dfy ===
/** `BezierCurve`: a list of control points read as consecutive cubic
    segments that share their end points (points 3s .. 3s + 3 form segment
    s). Only the index arithmetic is modelled: which control points a
    segment or a curve parameter reads, and when the reads fall outside
    the list. The point type `P` is abstract and the curve parameter is an
    exact real. */
module Bezier {
  import opened Outcomes
  import opened Int32

  datatype Curve<P> = Curve(points: seq<P>)

  /** `new BezierCurve()`: no control points. */
  function Empty<P>(): (c: Curve<P>)
    ensures Count(c) == 0
  {
    Curve([])
  }

  function Count<P>(c: Curve<P>): nat {
    |c.points|
  }

  /** `CountOfSegments`: `Count / 3`; the count is never negative, so C#'s
      truncating division and Dafny's agree. */
  function CountOfSegments<P>(c: Curve<P>): (n: nat)
    ensures 3 * n <= Count(c) < 3 * n + 3
    ensures n == TruncDiv(Count(c), 3)
  {
    Count(c) / 3
  }

  /** The indexer getter: `List<T>` throws ArgumentOutOfRangeException
      outside `0 .. Count - 1`. */
  function Get<P>(c: Curve<P>, index: int): (r: Result<P>)
    ensures r.Ok? <==> 0 <= index < Count(c)
    ensures r.Ok? ==> r.value == c.points[index]
    ensures r.Throws? ==> r.error == ArgumentOutOfRange
  {
    if 0 <= index < |c.points| then Ok(c.points[index]) else Throws(ArgumentOutOfRange)
  }

  /** The indexer setter, with the same bounds check. */
  function Set<P>(c: Curve<P>, index: int, value: P): (r: Result<Curve<P>>)
    ensures r.Ok? <==> 0 <= index < Count(c)
    ensures r.Throws? ==> r.error == ArgumentOutOfRange
    ensures r.Ok? ==> Count(r.value) == Count(c)
  {
    if 0 <= index < |c.points| then Ok(Curve(c.points[index := value])) else Throws(ArgumentOutOfRange)
  }

  /** Writing a point and reading it back gives the point; every other
      point is untouched. */
  lemma GetAfterSet<P>(c: Curve<P>, index: int, value: P, other: int)
    requires 0 <= index < Count(c)
    ensures Set(c, index, value).Ok?
    ensures Get(Set(c, index, value).value, index) == Ok(value)
    ensures other != index ==> Get(Set(c, index, value).value, other) == Get(c, other)
  {
  }

  /** `Math.Clamp(value, min, max)` on ints: ArgumentException when
      `min > max`, otherwise the value moved to the nearest bound. */
  function Clamp(value: int, min: int, max: int): (r: Result<int>)
    ensures r.Throws? <==> min > max
    ensures r.Throws? ==> r.error == ArgumentError
    ensures r.Ok? ==> min <= r.value <= max
    ensures r.Ok? && min <= value <= max ==> r.value == value
    ensures r.Ok? && value < min ==> r.value == min
    ensures r.Ok? && value > max ==> r.value == max
  {
    if min > max then Throws(ArgumentError)
    else if value < min then Ok(min)
    else if value > max then Ok(max)
    else Ok(value)
  }

  /** `LoopIndex(i)`: `(i + Count) % Count`, with the addition wrapping
      as an unchecked int and C#'s remainder; an empty list divides by
      zero. */
  function LoopIndex<P>(c: Curve<P>, i: int): (r: Result<int>)
    ensures r.Throws? <==> Count(c) == 0
    ensures r.Throws? ==> r.error == DivideByZero
  {
    if |c.points| == 0 then Throws(DivideByZero)
    else Ok(TruncRem(Wrap(i + |c.points|), |c.points|))
  }

  /** `LoopIndex` lands inside the list for every index from `-Count` on
      (as long as `i + Count` does not wrap), and leaves an index that is
      already inside unchanged; it takes an in-list index one past the end
      back to the start. */
  lemma LoopIndexRange<P>(c: Curve<P>, i: int)
    requires Count(c) > 0 && 0 <= i + Count(c) <= MaxValue
    ensures LoopIndex(c, i).Ok?
    ensures 0 <= LoopIndex(c, i).value < Count(c)
    ensures 0 <= i < Count(c) ==> LoopIndex(c, i).value == i
    ensures i == Count(c) ==> LoopIndex(c, i).value == 0
    ensures i < 0 ==> LoopIndex(c, i).value == i + Count(c)
  {
    var n := Count(c);
    var x := i + n;
    assert Wrap(x) == x;
    if i <= n {
      ModCases(x, n);
    }
  }

  /** The remainder of a value in `0 .. 2n` by `n`. */
  lemma ModCases(x: int, n: int)
    requires 0 < n && 0 <= x <= 2 * n
    ensures x % n == if x < n then x else if x < 2 * n then x - n else 0
  {
    var q, m := x / n, x % n;
    assert x == q * n + m && 0 <= m < n;
    MulBounds(q, n);
    assert q == 0 || q == 1 || q == 2;
  }

  lemma MulBounds(q: int, n: int)
    requires n > 0
    ensures q >= 3 ==> q * n >= 3 * n
    ensures q < 0 ==> q * n <= -n
  {
  }

  /** An index below `-Count` (without wrap-around) stays negative or
      zero, so the read that follows it fails unless it is exactly 0. */
  lemma LoopIndexBelow<P>(c: Curve<P>, i: int)
    requires Count(c) > 0 && i + Count(c) < 0 && MinValue <= i + Count(c)
    ensures LoopIndex(c, i).Ok? && LoopIndex(c, i).value <= 0
  {
    assert Wrap(i + Count(c)) == i + Count(c);
  }

  /** The four control points of segment `s`, read in array-initializer
      order: points `3s`, `3s + 1`, `3s + 2` and `LoopIndex(3s + 3)`. */
  function SegmentReads<P>(c: Curve<P>, s: int32): (r: Result<seq<P>>)
    requires 0 <= 3 * s + 3 <= MaxValue
    ensures !(0 <= s && 3 * s + 2 < Count(c)) ==> r == Throws(ArgumentOutOfRange)
    ensures r.Throws? ==> r.error == ArgumentOutOfRange
    ensures r.Ok? ==> |r.value| == 4 && 3 * s + 3 <= Count(c)
                      && r.value[..3] == c.points[3 * s .. 3 * s + 3] && r.value[3] in c.points
  {
    var p0 :- Get(c, 3 * s);
    var p1 :- Get(c, 3 * s + 1);
    var p2 :- Get(c, 3 * s + 2);
    // the reads above succeeded, so the list is not empty and the
    // remainder cannot divide by zero
    var last := LoopIndex(c, 3 * s + 3).value;
    var p3 :- Get(c, last);
    Ok([p0, p1, p2, p3])
  }

  /** `GetPointsInSegment(segmentIndex)`: the segment index is clamped to
      `0 .. CountOfSegments - 1` and the segment's four points are read.
      Fewer than three points leave no segment, and `Math.Clamp` rejects
      the empty range. */
  function GetPointsInSegment<P>(c: Curve<P>, segmentIndex: int32): (r: Result<seq<P>>)
    requires Count(c) <= MaxValue
    ensures Count(c) < 3 ==> r == Throws(ArgumentError)
    ensures r.Throws? ==> r.error == ArgumentError || r.error == ArgumentOutOfRange
    ensures r.Ok? ==> Count(c) >= 3 && |r.value| == 4
                      && var s := ClampedSegment(c, segmentIndex);
                         r.value[..3] == c.points[3 * s .. 3 * s + 3]
  {
    var s :- Clamp(segmentIndex, 0, CountOfSegments(c) - 1);
    SegmentReads(c, s)
  }

  /** The segment `GetPointsInSegment` actually reads. */
  function ClampedSegment<P>(c: Curve<P>, segmentIndex: int): nat
    requires Count(c) >= 3
  {
    var n := CountOfSegments(c);
    if segmentIndex < 0 then 0 else if segmentIndex > n - 1 then n - 1 else segmentIndex
  }

  /** `GetPointsInSegment` succeeds exactly when the curve has a segment,
      and then returns the clamped segment's three own points and the next
      segment's first point, which for the last segment of a curve whose
      count is a multiple of 3 wraps round to point 0. */
  lemma PointsInSegment<P>(c: Curve<P>, segmentIndex: int32)
    requires 2 * Count(c) <= MaxValue
    ensures GetPointsInSegment(c, segmentIndex).Ok? <==> Count(c) >= 3
    ensures Count(c) < 3 ==> GetPointsInSegment(c, segmentIndex) == Throws(ArgumentError)
    ensures Count(c) >= 3 ==>
              var s := ClampedSegment(c, segmentIndex);
              var next := if 3 * s + 3 < Count(c) then 3 * s + 3 else 0;
              GetPointsInSegment(c, segmentIndex).value
                == [c.points[3 * s], c.points[3 * s + 1], c.points[3 * s + 2], c.points[next]]
  {
    var n := CountOfSegments(c);
    if Count(c) >= 3 {
      var s := ClampedSegment(c, segmentIndex);
      assert Clamp(segmentIndex, 0, n - 1) == Ok(s);
      LoopIndexRange(c, 3 * s + 3);
    }
  }

  /** For a curve whose count is a multiple of 3 the last segment closes
      the curve: its fourth point is point 0. */
  lemma LastSegmentWraps<P>(c: Curve<P>, segmentIndex: int32)
    requires 3 <= Count(c) && 2 * Count(c) <= MaxValue && Count(c) % 3 == 0
    requires segmentIndex >= CountOfSegments(c) - 1
    ensures GetPointsInSegment(c, segmentIndex).Ok?
    ensures GetPointsInSegment(c, segmentIndex).value[3] == c.points[0]
  {
    PointsInSegment(c, segmentIndex);
  }

  /** The four consecutive points from `i`, each read through the list
      indexer as `_points[i + k]` is. */
  function ReadFour<P>(c: Curve<P>, i: int): (r: Result<seq<P>>)
    ensures r.Ok? <==> 0 <= i && i + 3 < Count(c)
    ensures r.Throws? ==> r.error == ArgumentOutOfRange
    ensures r.Ok? ==> r.value == c.points[i .. i + 4]
  {
    var p0 :- Get(c, i);
    var p1 :- Get(c, i + 1);
    var p2 :- Get(c, i + 2);
    var p3 :- Get(c, i + 3);
    Ok([p0, p1, p2, p3])
  }

  /** `Math.Clamp(t, 0, 1)` on the curve parameter. */
  function ClampUnit(t: real): (r: real)
    ensures 0.0 <= r <= 1.0
    ensures 0.0 <= t <= 1.0 ==> r == t
  {
    if t < 0.0 then 0.0 else if t > 1.0 then 1.0 else t
  }

  /** The control-point selection of `GetPoint(t)`: from `t >= 1` on the
      last four points at local parameter 1; below 1 the clamped parameter
      is scaled by the segment count, its integer part (a truncating cast
      of a non-negative value) picks segment `s` and points `3s .. 3s + 3`,
      and the fraction is the local parameter handed to `Eval`. */
  function Selection<P>(c: Curve<P>, t: real): (r: Result<(seq<P>, real)>)
    ensures r.Throws? ==> r.error == ArgumentOutOfRange
  {
    if t >= 1.0 then
      var ps :- ReadFour(c, Count(c) - 4);
      Ok((ps, 1.0))
    else
      var i := SegmentOf(c, t);
      var ps :- ReadFour(c, 3 * i);
      Ok((ps, Scaled(c, t) - i as real))
  }

  /** The clamped parameter scaled by the segment count. */
  function Scaled<P>(c: Curve<P>, t: real): real {
    ClampUnit(t) * CountOfSegments(c) as real
  }

  /** The segment a parameter below 1 selects: the integer part of the
      scaled parameter. */
  function SegmentOf<P>(c: Curve<P>, t: real): int {
    Scaled(c, t).Floor
  }

  /** The integer part of `u n` for `u` in `[0, 1)` is a segment number. */
  lemma ScaledFloor(u: real, n: nat)
    requires 0.0 <= u < 1.0
    ensures 0 <= (u * n as real).Floor
    ensures n > 0 ==> (u * n as real).Floor < n
    ensures n == 0 ==> (u * n as real).Floor == 0
  {
    var x := u * n as real;
    assert 0.0 <= x by {
      assert u * n as real >= 0.0 * n as real;
    }
    if n > 0 {
      assert x < n as real by {
        assert (1.0 - u) * n as real > 0.0;
      }
    }
  }

  /** The parameter `(n - 1) / n` falls in the last of `n` segments. */
  lemma LastSegmentParameter(n: nat)
    requires n > 0
    ensures var t := (n - 1) as real / n as real;
            0.0 <= t < 1.0 && (t * n as real).Floor == n - 1
  {
    var t := (n - 1) as real / n as real;
    assert t * n as real == (n - 1) as real;
  }

  lemma SegmentOfRange<P>(c: Curve<P>, t: real)
    requires t < 1.0
    ensures 0 <= SegmentOf(c, t)
    ensures CountOfSegments(c) > 0 ==> SegmentOf(c, t) < CountOfSegments(c)
    ensures CountOfSegments(c) == 0 ==> SegmentOf(c, t) == 0
  {
    ScaledFloor(ClampUnit(t), CountOfSegments(c));
  }

  /** `GetPoint(t)` with `t >= 1` reads exactly the last four control
      points; with fewer than four it reads outside the list. */
  lemma SelectionAtEnd<P>(c: Curve<P>, t: real)
    requires t >= 1.0
    ensures Selection(c, t).Ok? <==> Count(c) >= 4
    ensures Selection(c, t).Ok? ==> Selection(c, t).value == (c.points[Count(c) - 4 ..], 1.0)
  {
    if Count(c) >= 4 {
      assert c.points[Count(c) - 4 .. Count(c) - 4 + 4] == c.points[Count(c) - 4 ..];
    }
  }

  /** `GetPoint(t)` with `t < 1` reads points `3s .. 3s + 3` of the
      segment `s` the parameter falls in, with local parameter in
      `[0, 1)`; the read succeeds exactly when `3s + 3` is inside the
      list. */
  lemma SelectionBelowOne<P>(c: Curve<P>, t: real)
    requires t < 1.0
    ensures var s := SegmentOf(c, t);
            && 0 <= s
            && (Selection(c, t).Ok? <==> 3 * s + 3 < Count(c))
            && (Selection(c, t).Ok? ==>
                  Selection(c, t).value.0 == c.points[3 * s .. 3 * s + 4]
                  && 0.0 <= Selection(c, t).value.1 < 1.0)
  {
    SegmentOfRange(c, t);
    var x, i := Scaled(c, t), SegmentOf(c, t);
    assert 0.0 <= x - i as real < 1.0;
    var rd := ReadFour(c, 3 * i);
    assert Selection(c, t) == if rd.Ok? then Ok((rd.value, x - i as real)) else Throws(rd.error);
  }

  /** Every parameter below 1 selects four points inside the list exactly
      when the curve has at least four points and its count is not a
      multiple of 3: otherwise the last segment (or, with no whole segment,
      segment 0) reads one point past the end. */
  lemma SelectionAlwaysInRange<P>(c: Curve<P>)
    ensures (forall t: real :: t < 1.0 ==> Selection(c, t).Ok?)
            <==> Count(c) >= 4 && Count(c) % 3 != 0
  {
    var n := CountOfSegments(c);
    if Count(c) >= 4 && Count(c) % 3 != 0 {
      forall t: real | t < 1.0 ensures Selection(c, t).Ok? {
        SelectionBelowOne(c, t);
        SegmentOfRange(c, t);
      }
    } else if n == 0 {
      SelectionBelowOne(c, 0.0);
      SegmentOfRange(c, 0.0);
    } else {
      var t: real := (n - 1) as real / n as real;
      LastSegmentParameter(n);
      assert ClampUnit(t) == t;
      assert Scaled(c, t) == t * n as real;
      SelectionBelowOne(c, t);
      assert SegmentOf(c, t) == n - 1;
    }
  }
}

=== FILE: int32.dfy ===
/** C# `int`: 32-bit two's complement integers with unchecked (wrapping)
    arithmetic, division and remainder that truncate toward zero, and
    bitwise operators on the two's complement bit pattern. */
module Int32 {
  import opened Outcomes

  const Modulus: int := 0x1_0000_0000
  const MinValue: int := -0x8000_0000
  const MaxValue: int := 0x7FFF_FFFF

  type int32 = x: int | -0x8000_0000 <= x < 0x8000_0000

  /** The int32 congruent to `x` modulo 2^32: what an unchecked C#
      operation keeps of its mathematical result. */
  function Wrap(x: int): (r: int32)
    ensures (r - x) % Modulus == 0
    ensures MinValue <= x <= MaxValue ==> r == x
  {
    var m := x % Modulus;
    if m > MaxValue then m - Modulus else m
  }

  /** Two integers congruent modulo 2^32 wrap to the same int32. */
  lemma WrapCongruent(x: int, y: int)
    requires (x - y) % Modulus == 0
    ensures Wrap(x) == Wrap(y)
  {
    var k := (x - y) / Modulus;
    assert x == y + k * Modulus;
    assert x % Modulus == y % Modulus;
  }

  function Add(a: int32, b: int32): int32 { Wrap(a + b) }
  function Sub(a: int32, b: int32): int32 { Wrap(a - b) }
  function Mul(a: int32, b: int32): int32 { Wrap(a * b) }
  function Neg(a: int32): int32 { Wrap(-(a as int)) }

  /** Unchecked negation is its own inverse, also at int.MinValue, which it
      maps to itself. */
  lemma {:induction false} NegInvolutive(a: int32)
    ensures Neg(Neg(a)) == a
    ensures Neg(MinValue) == MinValue
  {
    var n := Neg(a);
    assert (n + a) % Modulus == 0;
    WrapCongruent(-n, a);
  }

  /** Wrapping subtraction is the addition of the wrapped negation. */
  lemma {:induction false} SubIsAddNeg(a: int32, b: int32)
    ensures Sub(a, b) == Add(a, Neg(b))
  {
    var n := Neg(b);
    assert (n + b) % Modulus == 0;
    assert ((a + n) - (a - b)) % Modulus == 0;
    WrapCongruent(a + n, a - b);
  }

  function Abs(x: int): nat { if x < 0 then -x else x }

  /** C# integer division: the quotient rounded toward zero. */
  function TruncDiv(a: int, b: int): int
    requires b != 0
  {
    var q := Abs(a) / Abs(b);
    if (a < 0) == (b < 0) then q else -q
  }

  /** C# remainder: what is left after truncating division; it takes the
      sign of the dividend. */
  function TruncRem(a: int, b: int): (r: int)
    requires b != 0
    ensures Abs(r) < Abs(b)
    ensures r != 0 ==> (r < 0 <==> a < 0)
  {
    var q := Abs(a) / Abs(b);
    var m := Abs(a) % Abs(b);
    assert Abs(a) == q * Abs(b) + m;
    if a < 0 then -m else m
  }

  /** Truncating division and remainder split the dividend exactly, and the
      quotient never rounds away from zero. */
  lemma DivRemIdentity(a: int, b: int)
    requires b != 0
    ensures a == TruncDiv(a, b) * b + TruncRem(a, b)
    ensures Abs(TruncDiv(a, b)) <= Abs(a)
    ensures Abs(TruncDiv(a, b) * b) <= Abs(a)
  {
    var x, y := Abs(a), Abs(b);
    NatDivMod(x, y);
    SignedDivision(a, b, x / y, x % y, TruncDiv(a, b), TruncRem(a, b));
  }

  /** Truncating division assembled from the division of the magnitudes:
      quotient `q` and remainder `m`, given the dividend's and the
      divisor's signs. */
  lemma SignedDivision(a: int, b: int, q: int, m: int, d: int, r: int)
    requires b != 0 && 0 <= m && Abs(a) == q * Abs(b) + m && 0 <= q <= q * Abs(b) <= Abs(a)
    requires d == if (a < 0) == (b < 0) then q else -q
    requires r == if a < 0 then -m else m
    ensures a == d * b + r
    ensures Abs(d) <= Abs(a) && Abs(d * b) <= Abs(a)
  {
    SignedProduct(q, b);
  }

  /** Division of naturals: quotient times divisor plus remainder, and
      neither the quotient nor its product exceeds the dividend. */
  lemma NatDivMod(x: nat, y: nat)
    requires y > 0
    ensures x == (x / y) * y + x % y
    ensures 0 <= x / y <= (x / y) * y <= x && 0 <= x % y < y
  {
    var q, d := x / y, y - 1;
    assert q * y == q * d + q;
  }

  /** `q b` and `(-q) b` in terms of `q |b|`. */
  lemma SignedProduct(q: int, b: int)
    ensures b < 0 ==> q * b == -(q * Abs(b)) && (-q) * b == q * Abs(b)
    ensures b >= 0 ==> q * b == q * Abs(b) && (-q) * b == -(q * Abs(b))
  {
  }

  /** Only int.MinValue / -1 leaves the int32 range. */
  lemma QuotientFits(a: int32, b: int32)
    requires b != 0 && !(a == MinValue && b == -1)
    ensures MinValue <= TruncDiv(a, b) <= MaxValue
  {
    var q := Abs(a) / Abs(b);
    if Abs(b) >= 2 {
      HalfQuotient(Abs(a), Abs(b));
    } else {
      assert Abs(b) == 1;
      assert q == Abs(a);
    }
  }

  lemma HalfQuotient(x: nat, y: nat)
    requires y >= 2
    ensures 2 * (x / y) <= x
  {
    var q := x / y;
    assert x == q * y + x % y;
    assert q * y >= q * 2;
  }

  /** `a / b` on C# ints: DivideByZeroException for a zero divisor,
      OverflowException for int.MinValue / -1 (whose quotient 2^31 does not
      fit), otherwise the truncated quotient. */
  function CheckedDiv(a: int32, b: int32): (r: Result<int32>)
    ensures r.Throws? <==> b == 0 || (a == MinValue && b == -1)
    ensures b == 0 ==> r == Throws(DivideByZero)
    ensures b != 0 && r.Throws? ==> r.error == Overflow
    ensures r.Ok? ==> a == r.value * b + TruncRem(a, b)
  {
    if b == 0 then Throws(DivideByZero)
    else if a == MinValue && b == -1 then Throws(Overflow)
    else
      QuotientFits(a, b);
      DivRemIdentity(a, b);
      Ok(TruncDiv(a, b))
  }

  /** `a % b` on C# ints: DivideByZeroException for a zero divisor and, as
      on .NET, OverflowException for int.MinValue % -1; otherwise the
      remainder with the sign of the dividend. */
  function CheckedRem(a: int32, b: int32): (r: Result<int32>)
    ensures r.Throws? <==> b == 0 || (a == MinValue && b == -1)
    ensures b == 0 ==> r == Throws(DivideByZero)
    ensures b != 0 && r.Throws? ==> r.error == Overflow
    ensures r.Ok? ==> Abs(r.value) < Abs(b) && (r.value != 0 ==> (r.value < 0 <==> a < 0))
    ensures r.Ok? ==> a == TruncDiv(a, b) * b + r.value
  {
    if b == 0 then Throws(DivideByZero)
    else if a == MinValue && b == -1 then Throws(Overflow)
    else
      DivRemIdentity(a, b);
      Ok(TruncRem(a, b))
  }

  /** 0/1 result of the comparison operators on matrix types. */
  function Mask(b: bool): int32 { if b then 1 else 0 }

  // ---------------------------------------------------------------------
  // Bitwise operators, defined bit by bit on the unsigned 32-bit pattern.

  function Pow2(n: nat): (r: nat)
    ensures r >= 1
  {
    if n == 0 then 1 else 2 * Pow2(n - 1)
  }

  lemma Pow2Of32()
    ensures Pow2(32) == Modulus
  {
    assert Pow2(8) == 0x100;
    assert Pow2(16) == 0x1_0000;
    assert Pow2(24) == 0x100_0000;
  }

  /** The two's complement bit pattern of `x`, read as an unsigned number. */
  function Unsigned(x: int32): (u: nat)
    ensures u < Modulus
    ensures Wrap(u) == x
  {
    if x < 0 then x + Modulus else x
  }

  /** Combines the lowest `n` bits of `u` and `v` position by position. */
  function BitOp(u: nat, v: nat, n: nat, op: (bool, bool) -> bool): nat
  {
    if n == 0 then 0
    else 2 * BitOp(u / 2, v / 2, n - 1, op) + (if op(u % 2 == 1, v % 2 == 1) then 1 else 0)
  }

  function AndBit(p: bool, q: bool): bool { p && q }
  function OrBit(p: bool, q: bool): bool { p || q }
  function XorBit(p: bool, q: bool): bool { p != q }
  function NotBit(p: bool, q: bool): bool { !p }

  function BitAnd(a: int32, b: int32): int32 { Wrap(BitOp(Unsigned(a), Unsigned(b), 32, AndBit)) }
  function BitOr(a: int32, b: int32): int32 { Wrap(BitOp(Unsigned(a), Unsigned(b), 32, OrBit)) }
  function BitXor(a: int32, b: int32): int32 { Wrap(BitOp(Unsigned(a), Unsigned(b), 32, XorBit)) }
  function BitNot(a: int32): int32 { Wrap(BitOp(Unsigned(a), Unsigned(a), 32, NotBit)) }

  /** A bitwise operator built from a symmetric bit operation is symmetric. */
  lemma {:induction false} BitOpCommutes(u: nat, v: nat, n: nat, op: (bool, bool) -> bool)
    requires forall p, q :: op(p, q) == op(q, p)
    ensures BitOp(u, v, n, op) == BitOp(v, u, n, op)
  {
    if n > 0 {
      BitOpCommutes(u / 2, v / 2, n - 1, op);
    }
  }

  lemma BitAndCommutes(a: int32, b: int32)
    ensures BitAnd(a, b) == BitAnd(b, a)
  {
    BitOpCommutes(Unsigned(a), Unsigned(b), 32, AndBit);
  }

  lemma BitOrCommutes(a: int32, b: int32)
    ensures BitOr(a, b) == BitOr(b, a)
  {
    BitOpCommutes(Unsigned(a), Unsigned(b), 32, OrBit);
  }

  lemma BitXorCommutes(a: int32, b: int32)
    ensures BitXor(a, b) == BitXor(b, a)
  {
    BitOpCommutes(Unsigned(a), Unsigned(b), 32, XorBit);
  }

  lemma {:induction false} BitOpSelfXor(u: nat, n: nat)
    ensures BitOp(u, u, n, XorBit) == 0
  {
    if n > 0 {
      BitOpSelfXor(u / 2, n - 1);
    }
  }

  /** Every value cancels itself under exclusive or. */
  lemma XorSelfIsZero(a: int32)
    ensures BitXor(a, a) == 0
  {
    BitOpSelfXor(Unsigned(a), 32);
  }

  lemma {:induction false} BitOpComplement(u: nat, n: nat)
    requires u < Pow2(n)
    ensures BitOp(u, u, n, NotBit) == Pow2(n) - 1 - u
  {
    if n > 0 {
      BitOpComplement(u / 2, n - 1);
    }
  }

  /** Bitwise complement is the two's complement identity ~x == -x - 1. */
  lemma {:induction false} BitNotIsNegMinusOne(a: int32)
    ensures BitNot(a) == -(a as int) - 1
  {
    var u := Unsigned(a);
    Pow2Of32();
    BitOpComplement(u, 32);
    var c: int := Modulus - 1 - u;
    assert BitNot(a) == Wrap(c);
    var d: int := c - (-(a as int) - 1);
    assert d == 0 || d == Modulus;
    assert d % Modulus == 0;
    WrapCongruent(c, -(a as int) - 1);
  }

  /** Complementing twice gives the value back. */
  lemma BitNotInvolutive(a: int32)
    ensures BitNot(BitNot(a)) == a
  {
    BitNotIsNegMinusOne(a);
    BitNotIsNegMinusOne(BitNot(a));
  }
}

=== FILE: int3x4.dfy ===
/** `GMath.int3x4`: a 3 x 4 matrix of C# ints with element-wise operators,
    0/1 comparison masks, a row indexer that answers 0 outside rows 0..2,
    and casts to its top-left submatrices. Entry (r, c) is `_m<r><c>`,
    stored at position `4 r + c`. */
module Int3x4Matrix {
  import opened Outcomes
  import opened Int32
  import Arithmetic

  type Mat = s: seq<int32> | |s| == 12 witness [0, 0, 0, 0, 0, 0, 0, 0, 0, 0, 0, 0]

  /** `int4`, the type of a row. */
  type Int4 = s: seq<int32> | |s| == 4 witness [0, 0, 0, 0]

  /** Entry `_m<r><c>`. */
  function At(m: Mat, r: nat, c: nat): int32
    requires r < 3 && c < 4
  {
    m[4 * r + c]
  }

  /** The twelve-argument constructor, arguments in row order. */
  function New(m00: int32, m01: int32, m02: int32, m03: int32,
               m10: int32, m11: int32, m12: int32, m13: int32,
               m20: int32, m21: int32, m22: int32, m23: int32): (m: Mat)
    ensures At(m, 0, 0) == m00 && At(m, 0, 1) == m01 && At(m, 0, 2) == m02 && At(m, 0, 3) == m03
    ensures At(m, 1, 0) == m10 && At(m, 1, 1) == m11 && At(m, 1, 2) == m12 && At(m, 1, 3) == m13
    ensures At(m, 2, 0) == m20 && At(m, 2, 1) == m21 && At(m, 2, 2) == m22 && At(m, 2, 3) == m23
  {
    [m00, m01, m02, m03, m10, m11, m12, m13, m20, m21, m22, m23]
  }

  /** `int3x4(int v)` and the implicit conversion from `int`: every entry
      is `v`. */
  function Fill(v: int32): (m: Mat)
    ensures forall r, c :: 0 <= r < 3 && 0 <= c < 4 ==> At(m, r, c) == v
  {
    seq(12, _ => v)
  }

  /** The row getter: rows 0, 1 and 2 as `int4`; any other row is the
      `int4` converted from 0. */
  function Row(m: Mat, row: int32): (v: Int4)
    ensures 0 <= row < 3 ==> forall c :: 0 <= c < 4 ==> v[c] == At(m, row, c)
    ensures !(0 <= row < 3) ==> v == [0, 0, 0, 0]
  {
    if row == 0 then [m[0], m[1], m[2], m[3]]
    else if row == 1 then [m[4], m[5], m[6], m[7]]
    else if row == 2 then [m[8], m[9], m[10], m[11]]
    else [0, 0, 0, 0]
  }

  /** A matrix is determined by its three rows. */
  lemma RowsDetermine(a: Mat, b: Mat)
    requires Row(a, 0) == Row(b, 0) && Row(a, 1) == Row(b, 1) && Row(a, 2) == Row(b, 2)
    ensures a == b
  {
    forall k | 0 <= k < 12 ensures a[k] == b[k] {
      var r, c := k / 4, k % 4;
      assert k == 4 * r + c;
      assert Row(a, r)[c] == a[k] && Row(b, r)[c] == b[k];
    }
  }

  /** The explicit casts to `int<R>x<C>`: the top-left R x C block, in row
      order. */
  function Sub(m: Mat, rows: nat, cols: nat): (s: seq<int32>)
    requires 1 <= rows <= 3 && 1 <= cols <= 4
    ensures |s| == rows * cols
  {
    seq(rows * cols, k requires 0 <= k < rows * cols => m[4 * (k / cols) + k % cols])
  }

  /** Entry (r, c) of a cast is entry (r, c) of the matrix. */
  lemma SubEntry(m: Mat, rows: nat, cols: nat, r: nat, c: nat)
    requires 1 <= rows <= 3 && 1 <= cols <= 4 && r < rows && c < cols
    ensures cols * r + c < rows * cols
    ensures Sub(m, rows, cols)[cols * r + c] == At(m, r, c)
  {
    var k := cols * r + c;
    assert k < rows * cols by {
      assert cols * r + cols <= cols * rows by {
        if r + 1 < rows {
          assert cols * (rows - r - 1) >= 0;
        }
      }
    }
    assert k == r * cols + c;
    Arithmetic.DivModUnique(k, cols, r, c);
  }

  /** Casting to the full size gives the matrix back; the 1 x 1 cast is
      `_m00` and the column casts read down column 0. */
  lemma SubCorners(m: Mat)
    ensures Sub(m, 3, 4) == m
    ensures Sub(m, 1, 1) == [At(m, 0, 0)]
    ensures Sub(m, 3, 1) == [At(m, 0, 0), At(m, 1, 0), At(m, 2, 0)]
    ensures Sub(m, 2, 2) == [At(m, 0, 0), At(m, 0, 1), At(m, 1, 0), At(m, 1, 1)]
  {
    forall k | 0 <= k < 12 ensures Sub(m, 3, 4)[k] == m[k] {
      assert 4 * (k / 4) + k % 4 == k;
    }
  }

  // ---------------------------------------------------------------------
  // Element-wise operators

  function Map1(a: Mat, f: int32 -> int32): (m: Mat)
    ensures forall k :: 0 <= k < 12 ==> m[k] == f(a[k])
  {
    seq(12, k requires 0 <= k < 12 => f(a[k]))
  }

  function Zip(a: Mat, b: Mat, f: (int32, int32) -> int32): (m: Mat)
    ensures forall k :: 0 <= k < 12 ==> m[k] == f(a[k], b[k])
  {
    seq(12, k requires 0 <= k < 12 => f(a[k], b[k]))
  }

  /** An element-wise operator built from a symmetric entry operator is
      symmetric. */
  lemma ZipCommutes(a: Mat, b: Mat, f: (int32, int32) -> int32)
    requires forall x, y :: f(x, y) == f(y, x)
    ensures Zip(a, b, f) == Zip(b, a, f)
  {
  }

  function Negate(a: Mat): Mat { Map1(a, Int32.Neg) }
  function Plus(a: Mat): Mat { Map1(a, x => x) }
  function Complement(a: Mat): Mat { Map1(a, Int32.BitNot) }
  function IsZero(x: int32): int32 { Mask(x == 0) }
  function LogicalNot(a: Mat): Mat { Map1(a, IsZero) }

  function Add(a: Mat, b: Mat): Mat { Zip(a, b, Int32.Add) }
  function Subtract(a: Mat, b: Mat): Mat { Zip(a, b, Int32.Sub) }
  function Multiply(a: Mat, b: Mat): Mat { Zip(a, b, Int32.Mul) }
  function And(a: Mat, b: Mat): Mat { Zip(a, b, BitAnd) }
  function Or(a: Mat, b: Mat): Mat { Zip(a, b, BitOr) }
  function Xor(a: Mat, b: Mat): Mat { Zip(a, b, BitXor) }

  function EqAt(x: int32, y: int32): int32 { Mask(x == y) }
  function NeAt(x: int32, y: int32): int32 { Mask(x != y) }
  function LtAt(x: int32, y: int32): int32 { Mask(x < y) }
  function LeAt(x: int32, y: int32): int32 { Mask(x <= y) }
  function GeAt(x: int32, y: int32): int32 { Mask(x >= y) }
  function GtAt(x: int32, y: int32): int32 { Mask(x > y) }

  function Equal(a: Mat, b: Mat): Mat { Zip(a, b, EqAt) }
  function NotEqual(a: Mat, b: Mat): Mat { Zip(a, b, NeAt) }
  function Less(a: Mat, b: Mat): Mat { Zip(a, b, LtAt) }
  function LessOrEqual(a: Mat, b: Mat): Mat { Zip(a, b, LeAt) }
  function GreaterOrEqual(a: Mat, b: Mat): Mat { Zip(a, b, GeAt) }
  function Greater(a: Mat, b: Mat): Mat { Zip(a, b, GtAt) }

  /** `+`, `*`, `&`, `|` and `^` do not depend on the operand order, also
      when the entries wrap. */
  lemma OperatorsCommute(a: Mat, b: Mat)
    ensures Add(a, b) == Add(b, a)
    ensures Multiply(a, b) == Multiply(b, a)
    ensures And(a, b) == And(b, a)
    ensures Or(a, b) == Or(b, a)
    ensures Xor(a, b) == Xor(b, a)
  {
    forall x: int32, y: int32 ensures BitAnd(x, y) == BitAnd(y, x) && BitOr(x, y) == BitOr(y, x)
                                   && BitXor(x, y) == BitXor(y, x) {
      BitAndCommutes(x, y);
      BitOrCommutes(x, y);
      BitXorCommutes(x, y);
    }
    ZipCommutes(a, b, BitAnd);
    ZipCommutes(a, b, BitOr);
    ZipCommutes(a, b, BitXor);
  }

  /** The comparison operators answer with 0/1 masks: every entry of a
      comparison is 0 or 1, `==` and `!=` are complementary, and so are
      `<` and `>=`, and `<=` and `>`. */
  lemma MasksComplementary(a: Mat, b: Mat)
    ensures forall k :: 0 <= k < 12 ==> Equal(a, b)[k] in {0, 1} && Less(a, b)[k] in {0, 1}
    ensures forall k :: 0 <= k < 12 ==> (Equal(a, b)[k] == 1 <==> a[k] == b[k])
    ensures forall k :: 0 <= k < 12 ==> (Less(a, b)[k] == 1 <==> a[k] < b[k])
    ensures Add(Equal(a, b), NotEqual(a, b)) == Fill(1)
    ensures Add(Less(a, b), GreaterOrEqual(a, b)) == Fill(1)
    ensures Add(LessOrEqual(a, b), Greater(a, b)) == Fill(1)
  {
    assert Add(Equal(a, b), NotEqual(a, b)) == Fill(1);
    assert Add(Less(a, b), GreaterOrEqual(a, b)) == Fill(1);
    assert Add(LessOrEqual(a, b), Greater(a, b)) == Fill(1);
  }

  /** `!` maps 0 to 1 and everything else to 0, so `!!a` is the mask of
      the nonzero entries, `a != 0`. */
  lemma LogicalNotTwice(a: Mat)
    ensures forall k :: 0 <= k < 12 ==> (LogicalNot(a)[k] == 1 <==> a[k] == 0)
    ensures LogicalNot(LogicalNot(a)) == NotEqual(a, Fill(0))
  {
    assert LogicalNot(LogicalNot(a)) == NotEqual(a, Fill(0));
  }

  /** Negation and bitwise complement undo themselves, also at
      int.MinValue, and subtraction is addition of the negation. */
  lemma UnaryInvolutions(a: Mat, b: Mat)
    ensures Negate(Negate(a)) == a
    ensures Complement(Complement(a)) == a
    ensures Plus(a) == a
    ensures Subtract(a, b) == Add(a, Negate(b))
  {
    forall k | 0 <= k < 12 ensures Negate(Negate(a))[k] == a[k] && Complement(Complement(a))[k] == a[k]
                                   && Subtract(a, b)[k] == Add(a, Negate(b))[k] {
      NegInvolutive(a[k]);
      BitNotInvolutive(a[k]);
      SubIsAddNeg(a[k], b[k]);
    }
  }

  /** Entry `k` of `~a` is `-a[k] - 1`. */
  lemma ComplementIsNegMinusOne(a: Mat)
    ensures forall k :: 0 <= k < 12 ==> Complement(a)[k] == -(a[k] as int) - 1
  {
    forall k | 0 <= k < 12 ensures Complement(a)[k] == -(a[k] as int) - 1 {
      BitNotIsNegMinusOne(a[k]);
    }
  }

  // ---------------------------------------------------------------------
  // Division and remainder

  /** Entries `k .. 11` of an element-wise checked operator, computed in
      argument order: the first entry that throws decides the exception. */
  function CheckedFrom(a: Mat, b: Mat, op: (int32, int32) -> Result<int32>, k: nat): (r: Result<seq<int32>>)
    requires k <= 12
    ensures r.Ok? <==> forall j :: k <= j < 12 ==> op(a[j], b[j]).Ok?
    ensures r.Ok? ==> |r.value| == 12 - k && forall j :: k <= j < 12 ==> r.value[j - k] == op(a[j], b[j]).value
    ensures r.Throws? ==> exists j :: k <= j < 12 && op(a[j], b[j]) == Throws(r.error)
                                     && forall i :: k <= i < j ==> op(a[i], b[i]).Ok?
    decreases 12 - k
  {
    if k == 12 then Ok([])
    else
      var x := op(a[k], b[k]);
      if x.Throws? then Throws(x.error)
      else
        var rest := CheckedFrom(a, b, op, k + 1);
        if rest.Throws? then Throws(rest.error) else Ok([x.value] + rest.value)
  }

  /** `a / b` entry by entry: DivideByZeroException at the first zero
      divisor, OverflowException at the first int.MinValue / -1, in entry
      order. */
  function Divide(a: Mat, b: Mat): (r: Result<Mat>)
    ensures r.Ok? <==> forall k :: 0 <= k < 12 ==> CheckedDiv(a[k], b[k]).Ok?
    ensures (exists k :: 0 <= k < 12 && b[k] == 0) ==> r.Throws?
    ensures r.Throws? ==> r.error == DivideByZero || r.error == Overflow
    ensures r.Ok? ==> forall k :: 0 <= k < 12 ==> r.value[k] == TruncDiv(a[k], b[k])
  {
    var s :- CheckedFrom(a, b, CheckedDiv, 0);
    Ok(s)
  }

  /** `a % b` entry by entry, with the same exceptions as `/`. */
  function Remainder(a: Mat, b: Mat): (r: Result<Mat>)
    ensures r.Ok? <==> forall k :: 0 <= k < 12 ==> CheckedRem(a[k], b[k]).Ok?
    ensures (exists k :: 0 <= k < 12 && b[k] == 0) ==> r.Throws?
    ensures r.Throws? ==> r.error == DivideByZero || r.error == Overflow
    ensures r.Ok? ==> forall k :: 0 <= k < 12 ==> r.value[k] == TruncRem(a[k], b[k])
  {
    var s :- CheckedFrom(a, b, CheckedRem, 0);
    Ok(s)
  }

  /** The first failing entry decides: a zero divisor before any
      int.MinValue / -1 gives DivideByZeroException. */
  lemma DivideFirstFailure(a: Mat, b: Mat, k: nat)
    requires k < 12 && b[k] == 0
    requires forall i :: 0 <= i < k ==> CheckedDiv(a[i], b[i]).Ok?
    ensures Divide(a, b) == Throws(DivideByZero)
  {
    var r := CheckedFrom(a, b, CheckedDiv, 0);
    var j :| 0 <= j < 12 && CheckedDiv(a[j], b[j]) == Throws(r.error)
             && forall i :: 0 <= i < j ==> CheckedDiv(a[i], b[i]).Ok?;
  }

  /** `/` and `%` fail together, and when they succeed they split every
      entry exactly: `(a / b) * b + a % b == a`, with the int arithmetic
      unchecked. */
  lemma DivideRemainder(a: Mat, b: Mat)
    ensures Divide(a, b).Ok? <==> Remainder(a, b).Ok?
    ensures Divide(a, b).Ok? ==> Add(Multiply(Divide(a, b).value, b), Remainder(a, b).value) == a
  {
    if Divide(a, b).Ok? {
      var q, r := Divide(a, b).value, Remainder(a, b).value;
      forall k | 0 <= k < 12 ensures Int32.Add(Int32.Mul(q[k], b[k]), r[k]) == a[k] {
        DivRemIdentity(a[k], b[k]);
        assert Int32.Mul(q[k], b[k]) == q[k] * b[k];
      }
    }
  }
}

=== FILE: linq.dfy ===
/** The few System.Linq and List<T> operations the mesh code relies on,
    over immutable sequences. */
module Linq {
  import opened Outcomes

  /** `Enumerable.First(predicate)`: the first element satisfying `p`, or
      InvalidOperationException when there is none. */
  function First<T>(s: seq<T>, p: T -> bool): (r: Result<T>)
    ensures r.Ok? <==> exists i :: 0 <= i < |s| && p(s[i])
    ensures r.Ok? ==> exists i :: 0 <= i < |s| && s[i] == r.value && p(s[i])
                                  && forall j :: 0 <= j < i ==> !p(s[j])
    ensures r.Throws? ==> r.error == InvalidOperation
  {
    if |s| == 0 then Throws(InvalidOperation)
    else if p(s[0]) then Ok(s[0])
    else
      var r := First(s[1..], p);
      assert forall i :: 1 <= i < |s| ==> s[i] == s[1..][i - 1];
      r
  }

  /** `List<T>.IndexOf`: the position of the first occurrence of `x`, or -1. */
  function IndexOf<T(==)>(s: seq<T>, x: T): (r: int)
    ensures -1 <= r < |s|
    ensures r == -1 <==> x !in s
    ensures r >= 0 ==> s[r] == x && forall j :: 0 <= j < r ==> s[j] != x
  {
    if |s| == 0 then -1
    else if s[0] == x then 0
    else
      var r := IndexOf(s[1..], x);
      assert forall j :: 1 <= j < |s| ==> s[j] == s[1..][j - 1];
      if r == -1 then -1 else r + 1
  }

  /** `Enumerable.Where(p).ToList()`: the elements satisfying `p`, in order. */
  function Where<T>(s: seq<T>, p: T -> bool): (r: seq<T>)
    ensures |r| <= |s|
    ensures forall i :: 0 <= i < |r| ==> r[i] in s && p(r[i])
    ensures forall i :: 0 <= i < |s| && p(s[i]) ==> s[i] in r
  {
    if |s| == 0 then []
    else
      var rest := Where(s[1..], p);
      assert forall i :: 1 <= i < |s| ==> s[i] == s[1..][i - 1];
      if p(s[0]) then [s[0]] + rest else rest
  }

  /** Filtering distributes over concatenation, so `Where` keeps the
      relative order of the elements it keeps. */
  lemma {:induction false} WhereAppend<T>(a: seq<T>, b: seq<T>, p: T -> bool)
    ensures Where(a + b, p) == Where(a, p) + Where(b, p)
    decreases |a|
  {
    if |a| == 0 {
      assert a + b == b;
    } else {
      assert (a + b)[1..] == a[1..] + b;
      WhereAppend(a[1..], b, p);
    }
  }

  /** A singleton is kept exactly when it satisfies the predicate. */
  lemma WhereSingleton<T>(x: T, p: T -> bool)
    ensures Where([x], p) == if p(x) then [x] else []
  {
    assert [x][1..] == [];
  }

  /** `Enumerable.Aggregate(func)` without a seed: a left fold starting at
      the first element; InvalidOperationException on an empty sequence.
      A single element is returned as it is, without calling `f`. */
  function Aggregate<T>(s: seq<T>, f: (T, T) -> T): (r: Result<T>)
    ensures r.Throws? <==> |s| == 0
    ensures r.Throws? ==> r.error == InvalidOperation
    ensures |s| == 1 ==> r == Ok(s[0])
    decreases |s|
  {
    if |s| == 0 then Throws(InvalidOperation)
    else if |s| == 1 then Ok(s[0])
    else Ok(f(Aggregate(s[..|s| - 1], f).value, s[|s| - 1]))
  }
}

=== FILE: manifold.dfy ===
/** `Rendering.Manifold<V>`: meshes built from a parametric grid, and the
    unit cube.

    The C# `Surface` evaluates `generating(j / (float)slices, i /
    (float)stacks)` at grid column `j` and row `i`; the floating-point
    parameter mapping is not modelled, so the vertex built at column `j`,
    row `i` is given as `vertexAt(j, i)`. */
module Manifolds {
  import opened Outcomes
  import opened Arithmetic
  import opened Meshes

  /** Position of grid vertex (row `i`, column `j`) in the vertex array. */
  function GridIndex(slices: int, i: int, j: int): int {
    i * (slices + 1) + j
  }

  /** The six indices cell (i, j) contributes: two triangles sharing the
      diagonal from (i, j) to (i + 1, j + 1). */
  function CellTriangles(slices: int, i: int, j: int): seq<int> {
    [GridIndex(slices, i, j), GridIndex(slices, i + 1, j), GridIndex(slices, i + 1, j + 1),
     GridIndex(slices, i, j), GridIndex(slices, i + 1, j + 1), GridIndex(slices, i, j + 1)]
  }

  /** Row and column of a position inside a row of width `w`. */
  lemma GridCoordinates(w: int, i: int, j: int)
    requires w > 0 && i >= 0 && 0 <= j < w
    ensures (i * w + j) / w == i && (i * w + j) % w == j
  {
    DivModUnique(i * w + j, w, i, j);
  }

  /** A cell number below `slices * stacks` lies in one of the `stacks` rows. */
  lemma RowInGrid(slices: int, stacks: int, c: int)
    requires slices > 0 && 0 <= c < slices * stacks
    ensures 0 <= c / slices < stacks
  {
    if c / slices >= stacks {
      MulMonotone(slices, stacks, c / slices);
      assert false;
    }
  }

  /** Cells are numbered row by row. */
  function CellNumber(slices: int, i: int, j: int): int {
    i * slices + j
  }

  /** Every number below `slices * stacks` is a cell's number. */
  lemma CellOfNumber(slices: int, stacks: int, c: int)
    requires slices > 0 && 0 <= c < slices * stacks
    ensures 0 <= c / slices < stacks && 0 <= c % slices < slices
    ensures c == CellNumber(slices, c / slices, c % slices)
  {
    RowInGrid(slices, stacks, c);
  }

  /** Cell (i, j) of the grid has a number below `slices * stacks`, from
      which its row and column can be read back. */
  lemma CellNumberInGrid(slices: int, stacks: int, i: int, j: int)
    requires 0 <= i < stacks && 0 <= j < slices
    ensures 0 <= CellNumber(slices, i, j) < slices * stacks
    ensures CellNumber(slices, i, j) / slices == i && CellNumber(slices, i, j) % slices == j
  {
    MulMonotone(slices, i + 1, stacks);
    GridCoordinates(slices, i, j);
  }

  /** Every corner of cell (i, j) is a vertex of the
      (slices + 1) x (stacks + 1) grid. */
  lemma CellInGrid(slices: int, stacks: int, i: int, j: int)
    requires 0 <= i < stacks && 0 <= j < slices
    ensures forall k :: 0 <= k < 6 ==>
              0 <= CellTriangles(slices, i, j)[k] < (slices + 1) * (stacks + 1)
  {
    MulMonotone(slices + 1, i + 1, stacks);
    assert (i + 1) * (slices + 1) <= stacks * (slices + 1);
    assert stacks * (slices + 1) + slices < (slices + 1) * (stacks + 1);
  }

  /** The six indices of cell number `c`, cells numbered row by row. */
  function CellBlock(slices: int): nat -> seq<int>
    requires slices > 0
  {
    c => CellTriangles(slices, c / slices, c % slices)
  }

  /** The index array the two loops of `Surface` fill: six indices per
      cell, cells in row-major order; an array whose length is positive
      only because both counts are negative stays all zeros. */
  function GridIndices(slices: int, stacks: int): (r: seq<int>)
    requires slices * stacks >= 0
    ensures |r| == 6 * slices * stacks
    ensures !(slices >= 1 && stacks >= 1) ==> forall k :: 0 <= k < |r| ==> r[k] == 0
  {
    if slices >= 1 && stacks >= 1 then
      Blocks(slices * stacks, 6, CellBlock(slices))
    else
      seq(6 * slices * stacks, _ => 0)
  }

  /** Cell (i, j) owns the six entries from `6 * (i * slices + j)`. */
  lemma GridIndicesCell(slices: int, stacks: int, i: int, j: int)
    requires 0 <= i < stacks && 0 <= j < slices
    ensures 0 <= CellNumber(slices, i, j) < slices * stacks
    ensures Group(GridIndices(slices, stacks), 6, CellNumber(slices, i, j)) == CellTriangles(slices, i, j)
  {
    CellNumberInGrid(slices, stacks, i, j);
    BlocksGroup(slices * stacks, 6, CellBlock(slices), CellNumber(slices, i, j));
  }

  /** Every entry of the grid's index array names a grid vertex. */
  lemma GridIndicesInRange(slices: int, stacks: int, k: int)
    requires slices >= 1 && stacks >= 1 && 0 <= k < 6 * slices * stacks
    ensures 0 <= GridIndices(slices, stacks)[k] < (slices + 1) * (stacks + 1)
  {
    var n := slices * stacks;
    MulAssoc(6, slices, stacks);
    var c: int, o: int := k / 6, k % 6;
    BlocksEntry(n, 6, CellBlock(slices), k);
    RowInGrid(slices, stacks, c);
    var i: int, j: int := c / slices, c % slices;
    CellInGrid(slices, stacks, i, j);
    assert GridIndices(slices, stacks)[k] == CellTriangles(slices, i, j)[o];
  }

  /** The vertex array of `Surface`: grid vertex (i, j) at
      `i * (slices + 1) + j`; an array with no grid to fill keeps the
      default vertex. */
  function GridVertices<V>(slices: int, stacks: int, vertexAt: (int, int) -> V, dflt: V): (r: seq<V>)
    requires (slices + 1) * (stacks + 1) >= 0
    ensures |r| == (slices + 1) * (stacks + 1)
    ensures forall i, j :: 0 <= i <= stacks && 0 <= j <= slices ==>
              0 <= GridIndex(slices, i, j) < |r| && r[GridIndex(slices, i, j)] == vertexAt(j, i)
  {
    var n := (slices + 1) * (stacks + 1);
    var r := seq(n, k requires 0 <= k < n =>
      if slices >= 0 && stacks >= 0 then vertexAt(k % (slices + 1), k / (slices + 1)) else dflt);
    forall i, j | 0 <= i <= stacks && 0 <= j <= slices
      ensures 0 <= GridIndex(slices, i, j) < |r| && r[GridIndex(slices, i, j)] == vertexAt(j, i)
    {
      GridVertexInGrid(slices, stacks, i, j);
    }
    r
  }

  /** Grid vertex (i, j) has a position inside the vertex array, from
      which its row and column can be read back. */
  lemma GridVertexInGrid(slices: int, stacks: int, i: int, j: int)
    requires 0 <= i <= stacks && 0 <= j <= slices
    ensures 0 <= GridIndex(slices, i, j) < (slices + 1) * (stacks + 1)
    ensures GridIndex(slices, i, j) / (slices + 1) == i && GridIndex(slices, i, j) % (slices + 1) == j
  {
    GridCoordinates(slices + 1, i, j);
    MulMonotone(slices + 1, i, stacks);
    assert (slices + 1) * (stacks + 1) == (slices + 1) * stacks + slices + 1;
  }

  /** `Manifold.Surface` (and `MyManifold.SurfaceDiscrete`): a
      (slices + 1) x (stacks + 1) grid of vertices, row by row, and two
      triangles per cell. A negative array length throws
      OverflowException, as `new T[n]` does. */
  function Surface<V>(slices: int, stacks: int, vertexAt: (int, int) -> V, dflt: V): (r: Result<Mesh<V>>)
    ensures r.Throws? <==> (slices + 1) * (stacks + 1) < 0 || slices * stacks * 6 < 0
    ensures r.Throws? ==> r.error == Overflow
    ensures r.Ok? ==> |r.value.vertices| == (slices + 1) * (stacks + 1)
                      && |r.value.indices| == 6 * slices * stacks
                      && r.value.topology == Triangles
    ensures r.Ok? && slices >= 0 && stacks >= 0 ==> IndicesInRange(r.value)
    ensures r.Ok? ==> forall i, j :: 0 <= i <= stacks && 0 <= j <= slices ==>
              r.value.vertices[GridIndex(slices, i, j)] == vertexAt(j, i)
    ensures r.Ok? ==> forall i, j :: 0 <= i < stacks && 0 <= j < slices ==>
              0 <= CellNumber(slices, i, j) < slices * stacks
              && Group(r.value.indices, 6, CellNumber(slices, i, j)) == CellTriangles(slices, i, j)
  {
    if (slices + 1) * (stacks + 1) < 0 then Throws(Overflow)
    else if slices * stacks * 6 < 0 then Throws(Overflow)
    else
      var m := Mesh(GridVertices(slices, stacks, vertexAt, dflt), GridIndices(slices, stacks));
      assert slices >= 0 && stacks >= 0 ==> IndicesInRange(m) by {
        if slices >= 1 && stacks >= 1 {
          forall k | 0 <= k < |m.indices| ensures 0 <= m.indices[k] < |m.vertices| {
            GridIndicesInRange(slices, stacks, k);
          }
        } else if slices >= 0 && stacks >= 0 {
          assert |m.indices| == 0;
        }
      }
      forall i, j | 0 <= i < stacks && 0 <= j < slices
        ensures 0 <= CellNumber(slices, i, j) < slices * stacks
        ensures Group(m.indices, 6, CellNumber(slices, i, j)) == CellTriangles(slices, i, j)
      {
        GridIndicesCell(slices, stacks, i, j);
      }
      Ok(m)
  }

  /** Negative counts that multiply to non-negative lengths build a mesh
      without a grid: `Surface(-1, -1, ...)` has no vertex and six zero
      indices, none of which is in range. */
  lemma SurfaceOfNegativeCounts<V>(vertexAt: (int, int) -> V, dflt: V)
    ensures Surface(-1, -1, vertexAt, dflt).Ok?
    ensures |Surface(-1, -1, vertexAt, dflt).value.vertices| == 0
    ensures Surface(-1, -1, vertexAt, dflt).value.indices == [0, 0, 0, 0, 0, 0]
    ensures !IndicesInRange(Surface(-1, -1, vertexAt, dflt).value)
  {
    var m := Surface(-1, -1, vertexAt, dflt).value;
    assert m.indices[0] == 0;
  }

  // ---------------------------------------------------------------------
  // Cube

  /** The corners of the unit cube, in the order `Cube` lists them. */
  const CubeCorners: seq<(int, int, int)> :=
    [(0, 0, 0), (1, 0, 0), (1, 1, 0), (0, 1, 0), (0, 1, 1), (1, 1, 1), (1, 0, 1), (0, 0, 1)]

  /** The index table of `Cube`: two triangles per face, faces front, top,
      right, left, back, bottom. */
  const CubeIndices: seq<int> :=
    [0, 2, 1, 0, 3, 2,
     2, 3, 4, 2, 4, 5,
     1, 2, 5, 1, 5, 6,
     0, 7, 4, 0, 4, 3,
     5, 4, 7, 5, 7, 6,
     0, 6, 7, 0, 1, 6]

  /** The cube table names every corner and nothing else. */
  lemma CubeTable()
    ensures forall k :: 0 <= k < |CubeIndices| ==> 0 <= CubeIndices[k] < 8
    ensures forall c :: 0 <= c < 8 ==> c in CubeIndices
  {
    assert CubeIndices[0] == 0 && CubeIndices[2] == 1 && CubeIndices[1] == 2 && CubeIndices[4] == 3;
    assert CubeIndices[8] == 4 && CubeIndices[11] == 5 && CubeIndices[17] == 6 && CubeIndices[19] == 7;
  }

  /** `Manifold.Cube`: the unit cube's 8 corners and 12 triangles, moved by
      the translation `translate` (the float transform itself is not
      modelled). `corner` builds the vertex at a corner position. */
  function Cube<V>(corner: ((int, int, int)) -> V, translate: V -> V): (r: Mesh<V>)
    ensures |r.vertices| == 8 && r.indices == CubeIndices && r.topology == Triangles
    ensures IndicesInRange(r)
    ensures forall c :: 0 <= c < 8 ==> c in r.indices
    ensures forall c :: 0 <= c < 8 ==> r.vertices[c] == translate(corner(CubeCorners[c]))
  {
    var m := Mesh(seq(8, c requires 0 <= c < 8 => corner(CubeCorners[c])), CubeIndices);
    CubeTable();
    Transform(m, translate)
  }
}

/** `Renderer.Scene.MyManifold<V>`: the integer-parameter surface and the
    same cube table. */
module MyManifold {
  import opened Outcomes
  import opened Meshes
  import Manifolds

  /** `SurfaceDiscrete`: the grid of `Manifold.Surface`, with the vertex at
      row `i`, column `j` built from `generating(j, i)` evaluated on the
      integer column and row. */
  function SurfaceDiscrete<P, V>(slices: int, stacks: int, generating: (int, int) -> P,
                                 vertex: P -> V, dflt: V): (r: Result<Mesh<V>>)
    ensures r.Throws? <==> (slices + 1) * (stacks + 1) < 0 || slices * stacks * 6 < 0
    ensures r.Throws? ==> r.error == Overflow
    ensures r.Ok? ==> |r.value.vertices| == (slices + 1) * (stacks + 1)
                      && |r.value.indices| == 6 * slices * stacks
                      && r.value.topology == Triangles
    ensures r.Ok? ==> forall i, j :: 0 <= i <= stacks && 0 <= j <= slices ==>
              r.value.vertices[Manifolds.GridIndex(slices, i, j)] == vertex(generating(j, i))
    ensures r.Ok? ==> forall i, j :: 0 <= i < stacks && 0 <= j < slices ==>
              0 <= Manifolds.CellNumber(slices, i, j) < slices * stacks
              && Group(r.value.indices, 6, Manifolds.CellNumber(slices, i, j))
                 == Manifolds.CellTriangles(slices, i, j)
    ensures r.Ok? && slices >= 0 && stacks >= 0 ==> IndicesInRange(r.value)
  {
    Manifolds.Surface(slices, stacks, (j, i) => vertex(generating(j, i)), dflt)
  }

  /** `MyManifold.Cube`: the corners and the table of `Manifold.Cube`. */
  function Cube<V>(corner: ((int, int, int)) -> V, translate: V -> V): (r: Mesh<V>)
    ensures |r.vertices| == 8 && r.indices == Manifolds.CubeIndices && IndicesInRange(r)
    ensures r.topology == Triangles
    ensures forall c :: 0 <= c < 8 ==> c in r.indices
    ensures forall c :: 0 <= c < 8 ==> r.vertices[c] == translate(corner(Manifolds.CubeCorners[c]))
  {
    Manifolds.Cube(corner, translate)
  }
}

=== FILE: mesh.dfy ===
/** `Rendering.Mesh<V>` and the index algebra of `Rendering.MeshTools`:
    vertex transforms, topology conversion, welding and concatenation.

    Vertices are values of an abstract type `V`; only how they are copied,
    dropped and referenced by indices is modelled. */
module Meshes {
  import opened Outcomes
  import opened Arithmetic
  import Linq

  /** The `Topology` enum. Points = 0, Lines = 1, Triangles = 2; a C# enum
      variable can also hold any other integer, which `Unnamed` carries. */
  datatype TopologyValue = Points | Lines | Triangles | Unnamed(code: int)

  type Topology = t: TopologyValue | t.Unnamed? ==> !(0 <= t.code <= 2) witness Triangles

  /** A mesh: vertex array, index array and topology. The constructor's
      topology argument defaults to Triangles, as in C#. */
  datatype Mesh<V> = Mesh(vertices: seq<V>, indices: seq<int>, topology: Topology := Triangles)

  /** Every index names a vertex of the mesh. */
  ghost predicate IndicesInRange<V>(m: Mesh<V>) {
    forall k :: 0 <= k < |m.indices| ==> 0 <= m.indices[k] < |m.vertices|
  }

  /** The vertex each index refers to, in index order: the geometry the
      mesh describes, independent of how its vertex array is laid out. */
  function Referenced<V>(m: Mesh<V>): (r: seq<V>)
    requires IndicesInRange(m)
    ensures |r| == |m.indices|
  {
    seq(|m.indices|, k requires 0 <= k < |m.indices| => m.vertices[m.indices[k]])
  }

  /** `0, 1, ..., n - 1`. */
  function Range(n: nat): (r: seq<int>)
    ensures |r| == n
    ensures forall i :: 0 <= i < n ==> r[i] == i
  {
    seq(n, i => i)
  }

  /** The `size` consecutive elements starting at `size * g`. */
  function Group<T>(s: seq<T>, size: nat, g: nat): seq<T>
    requires size * g + size <= |s|
  {
    s[size * g .. size * g + size]
  }

  /** `Mesh.Clone`: a new mesh whose arrays are copies. With immutable
      sequences the copy is equal to the original. */
  function Clone<V>(m: Mesh<V>): (r: Mesh<V>)
    ensures r.vertices == m.vertices && r.indices == m.indices && r.topology == m.topology
  {
    Mesh(m.vertices, m.indices, m.topology)
  }

  /** `MeshTools.Transform<V, T>`: vertex `i` of the result is `f` applied
      to vertex `i`; the index array and the topology are kept. */
  function Transform<V, T>(m: Mesh<V>, f: V -> T): (r: Mesh<T>)
    ensures |r.vertices| == |m.vertices|
    ensures forall i :: 0 <= i < |m.vertices| ==> r.vertices[i] == f(m.vertices[i])
    ensures r.indices == m.indices && r.topology == m.topology
  {
    Mesh(seq(|m.vertices|, i requires 0 <= i < |m.vertices| => f(m.vertices[i])), m.indices, m.topology)
  }

  /** Transforming keeps the connectivity: the transformed mesh refers, index
      by index, to the images of the vertices the original referred to. */
  lemma TransformReferenced<V, T>(m: Mesh<V>, f: V -> T)
    requires IndicesInRange(m)
    ensures IndicesInRange(Transform(m, f))
    ensures forall k :: 0 <= k < |m.indices| ==> Referenced(Transform(m, f))[k] == f(Referenced(m)[k])
  {
  }

  /** Two transforms in a row are one transform by the composed function. */
  lemma TransformCompose<V, T, U>(m: Mesh<V>, f: V -> T, g: T -> U)
    ensures Transform(Transform(m, f), g) == Transform(m, x => g(f(x)))
  {
    var a := Transform(Transform(m, f), g);
    var b := Transform(m, x => g(f(x)));
    assert a.vertices == b.vertices;
  }

  // ---------------------------------------------------------------------
  // ConvertTo

  /** Position, inside one triangle, of the corner written at slot `s` of
      its six line indices: edges (0,1), (1,2), (2,0). */
  function LineCorner(s: nat): nat
    requires s < 6
  {
    [0, 1, 1, 2, 2, 0][s]
  }

  /** The six line indices emitted for triangle `t`: its edges (0,1),
      (1,2) and (2,0). */
  function TriangleLines(indices: seq<int>, t: nat): seq<int>
    requires 3 * t + 3 <= |indices|
  {
    [indices[3 * t], indices[3 * t + 1], indices[3 * t + 1],
     indices[3 * t + 2], indices[3 * t + 2], indices[3 * t]]
  }

  /** `count` blocks of `size` entries laid end to end, block `b` being
      `block(b)`: the shape of every index array the mesh builders fill
      with a running `index++`. */
  function Blocks<T>(count: nat, size: nat, block: nat -> seq<T>): (r: seq<T>)
    requires forall b :: 0 <= b < count ==> |block(b)| == size
    ensures |r| == size * count
  {
    if count == 0 then [] else Blocks(count - 1, size, block) + block(count - 1)
  }

  /** Block `b` occupies entries `size * b .. size * b + size - 1`. */
  lemma {:induction false} BlocksGroup<T>(count: nat, size: nat, block: nat -> seq<T>, b: nat)
    requires forall b :: 0 <= b < count ==> |block(b)| == size
    requires b < count
    ensures size * b + size <= size * count
    ensures Group(Blocks(count, size, block), size, b) == block(b)
  {
    var prev := Blocks(count - 1, size, block);
    assert Blocks(count, size, block) == prev + block(count - 1);
    MulSucc(size, b);
    if b < count - 1 {
      BlocksGroup(count - 1, size, block, b);
      MulMonotone(size, b + 1, count - 1);
    }
    SliceOfAppend(prev, block(count - 1), size * b, size * b + size);
  }

  /** A slice of `a + b` inside `a` is a slice of `a`; the slice past `a`
      is `b`. */
  lemma SliceOfAppend<T>(a: seq<T>, b: seq<T>, i: nat, j: nat)
    requires i <= j <= |a| + |b|
    ensures j <= |a| ==> (a + b)[i .. j] == a[i .. j]
    ensures i == |a| && j == |a| + |b| ==> (a + b)[i .. j] == b
  {
  }

  /** Entry `k` of a block layout is entry `k % size` of block `k / size`. */
  lemma BlocksEntry<T>(count: nat, size: nat, block: nat -> seq<T>, k: nat)
    requires forall b :: 0 <= b < count ==> |block(b)| == size
    requires k < size * count
    ensures size > 0 && k / size < count
    ensures Blocks(count, size, block)[k] == block(k / size)[k % size]
  {
    var b := k / size;
    var o := k % size;
    assert k == size * b + o;
    assert b < count by {
      if b >= count { MulMonotone(size, count, b); }
    }
    BlocksGroup(count, size, block, b);
    assert Group(Blocks(count, size, block), size, b)[o] == Blocks(count, size, block)[k];
  }

  /** Triangle `t`'s six line indices, or six zeros past the last whole
      triangle. */
  function LinesOf(indices: seq<int>): (lines: nat -> seq<int>)
    ensures forall t :: |lines(t)| == 6
  {
    (t: nat) => if 3 * t + 3 <= |indices| then TriangleLines(indices, t) else [0, 0, 0, 0, 0, 0]
  }

  /** The line list of a triangle list, as the triangles-to-lines branch of
      `ConvertTo` fills its array of `2 * |indices|` entries: six per whole
      triangle, and the entries past the last whole triangle left at the
      array default 0. */
  function LineIndices(indices: seq<int>): (r: seq<int>)
    ensures |r| == 2 * |indices|
    ensures forall t :: 0 <= t < |indices| / 3 ==> Group(r, 6, t) == TriangleLines(indices, t)
    ensures forall k :: 6 * (|indices| / 3) <= k < |r| ==> r[k] == 0
  {
    var n := |indices|;
    WholeTriangles(n);
    var blocks := Blocks(n / 3, 6, LinesOf(indices));
    var tail := seq(2 * n - 6 * (n / 3), _ => 0);
    LineBlocksGroups(indices, blocks, tail);
    blocks + tail
  }

  /** Block `t` of the whole-triangle blocks, followed by anything, is
      triangle `t`'s lines. */
  lemma LineBlocksGroups(indices: seq<int>, blocks: seq<int>, tail: seq<int>)
    requires blocks == Blocks(|indices| / 3, 6, LinesOf(indices))
    ensures forall t :: 0 <= t < |indices| / 3 ==> Group(blocks + tail, 6, t) == TriangleLines(indices, t)
  {
    forall t | 0 <= t < |indices| / 3 ensures Group(blocks + tail, 6, t) == TriangleLines(indices, t) {
      LineBlockGroup(indices, blocks, tail, t);
    }
  }

  lemma LineBlockGroup(indices: seq<int>, blocks: seq<int>, tail: seq<int>, t: nat)
    requires blocks == Blocks(|indices| / 3, 6, LinesOf(indices))
    requires t < |indices| / 3
    ensures 6 * t + 6 <= |blocks + tail|
    ensures Group(blocks + tail, 6, t) == TriangleLines(indices, t)
  {
    var n := |indices|;
    WholeTriangles(n);
    MulMonotone(3, t + 1, n / 3);
    BlocksGroup(n / 3, 6, LinesOf(indices), t);
    SliceOfAppend(blocks, tail, 6 * t, 6 * t + 6);
  }

  /** The whole triangles of `n` indices take at most `n` indices. */
  lemma WholeTriangles(n: nat)
    ensures 3 * (n / 3) <= n && 6 * (n / 3) <= 2 * n
  {
  }

  /** The wireframe of a triangle mesh: same vertices, line indices. */
  function Wireframe<V>(m: Mesh<V>): (r: Mesh<V>)
    ensures r.vertices == m.vertices && r.topology == Lines
    ensures |r.indices| == 2 * |m.indices|
  {
    Mesh(m.vertices, LineIndices(m.indices), Lines)
  }

  /** Every vertex once, as a point: indices `0 .. n - 1`. */
  function PointCloud<V>(m: Mesh<V>): (r: Mesh<V>)
    ensures r.vertices == m.vertices && r.topology == Points
    ensures |r.indices| == |m.vertices| && IndicesInRange(r)
    ensures forall v :: 0 <= v < |m.vertices| ==> r.indices[v] == v
  {
    Mesh(m.vertices, Range(|m.vertices|), Points)
  }

  /** `ConvertTo(Topology.Triangles)`: only a triangle mesh converts (to a
      clone); lines and points are unimplemented. */
  function ToTriangles<V>(m: Mesh<V>): (r: Result<Mesh<V>>)
    ensures r.Ok? <==> m.topology == Triangles
    ensures r.Ok? ==> r.value == m
  {
    match m.topology
    case Triangles => Ok(Clone(m))
    case Lines => Throws(NotImplemented)
    case Points => Throws(NotImplemented)
    case Unnamed(_) => Throws(ArgumentError)
  }

  /** `ConvertTo(Topology.Lines)`: points go through a triangle
      reconstruction first, lines are cloned, triangles become their
      wireframe. */
  function ToLines<V>(m: Mesh<V>): (r: Result<Mesh<V>>)
    ensures r.Ok? <==> m.topology == Lines || m.topology == Triangles
  {
    match m.topology
    case Points =>
      // reconstructs a triangle mesh first; that conversion is not
      // implemented for points, so its exception is what the call throws
      var tri := ToTriangles(m);
      Throws(tri.error)
    case Lines => Ok(Clone(m))
    case Triangles => Ok(Wireframe(m))
    case Unnamed(_) => Throws(ArgumentError)
  }

  /** `MeshTools.ConvertTo`: changes the topology. Triangles to lines emits
      every triangle's three edges, anything converts to points, a mesh
      already in the target topology is cloned, the conversions the source
      leaves unimplemented throw NotImplementedException, and an enum value
      outside the three names throws ArgumentException. */
  function ConvertTo<V>(m: Mesh<V>, target: Topology): (r: Result<Mesh<V>>)
    ensures r.Ok? ==> r.value.vertices == m.vertices && r.value.topology == target
    ensures target == m.topology && (target == Triangles || target == Lines) ==> r == Ok(m)
    ensures m.topology == Triangles && target == Lines ==> r == Ok(Wireframe(m))
    ensures target == Points ==> r.Ok? && r.value.indices == Range(|m.vertices|)
    ensures ((target == Triangles && (m.topology == Lines || m.topology == Points))
             || (target == Lines && m.topology == Points)) ==> r == Throws(NotImplemented)
    ensures target.Unnamed? || (m.topology.Unnamed? && target != Points) ==> r == Throws(ArgumentError)
  {
    match target
    case Triangles => ToTriangles(m)
    case Lines => ToLines(m)
    case Points => Ok(PointCloud(m))
    case Unnamed(_) => Throws(ArgumentError)
  }

  /** Entry `6 t + s` of the line list is corner `LineCorner(s)` of
      triangle `t`. */
  lemma LineIndicesEntry(indices: seq<int>, t: nat, s: nat)
    requires t < |indices| / 3 && s < 6
    ensures 6 * t + s < |LineIndices(indices)| && 3 * t + 3 <= |indices|
    ensures LineIndices(indices)[6 * t + s] == indices[3 * t + LineCorner(s)]
  {
    var n := |indices|;
    WholeTriangles(n);
    MulMonotone(3, t + 1, n / 3);
    MulMonotone(6, t + 1, n / 3);
    var r := LineIndices(indices);
    var g := Group(r, 6, t);
    assert g == TriangleLines(indices, t);
    assert g[s] == r[6 * t + s];
    TriangleLinesCorner(indices, t, s);
  }

  lemma TriangleLinesCorner(indices: seq<int>, t: nat, s: nat)
    requires 3 * t + 3 <= |indices| && s < 6
    ensures TriangleLines(indices, t)[s] == indices[3 * t + LineCorner(s)]
  {
  }

  /** A line-list entry written for a whole triangle is one of the
      triangle's corners, so it stays below any bound the corners keep. */
  lemma LineEntryBelow(indices: seq<int>, bound: int, k: nat)
    requires forall i :: 0 <= i < |indices| ==> 0 <= indices[i] < bound
    requires k < 6 * (|indices| / 3)
    ensures k < |LineIndices(indices)| && 0 <= LineIndices(indices)[k] < bound
  {
    var t, s := k / 6, k % 6;
    assert k == 6 * t + s;
    LineIndicesEntry(indices, t, s);
  }

  /** The wireframe of a well-formed triangle mesh is well formed, unless
      a trailing partial triangle leaves 0 entries in a mesh without
      vertices. */
  lemma WireframeInRange<V>(m: Mesh<V>)
    requires IndicesInRange(m)
    ensures IndicesInRange(Wireframe(m)) <==> |m.indices| % 3 == 0 || |m.vertices| > 0
  {
    var n := |m.indices|;
    var r := LineIndices(m.indices);
    assert Wireframe(m).indices == r;
    if n % 3 == 0 || |m.vertices| > 0 {
      forall k | 0 <= k < |r| ensures 0 <= r[k] < |m.vertices| {
        if k < 6 * (n / 3) {
          LineEntryBelow(m.indices, |m.vertices|, k);
        }
      }
    } else {
      assert r[|r| - 1] == 0;
    }
  }

  /** The corner after corner `e` of a triangle, going round. */
  function NextCorner(e: nat): nat
    requires e < 3
  {
    if e == 2 then 0 else e + 1
  }

  /** In any sequence whose block `t` of six is triangle `t`'s lines,
      slots `2e` and `2e + 1` of the block hold edge `e`. */
  lemma EdgeSlots(r: seq<int>, indices: seq<int>, t: nat, e: nat)
    requires 3 * t + 3 <= |indices| && 6 * t + 6 <= |r| && e < 3
    requires Group(r, 6, t) == TriangleLines(indices, t)
    ensures r[6 * t + 2 * e] == indices[3 * t + e]
    ensures r[6 * t + 2 * e + 1] == indices[3 * t + NextCorner(e)]
  {
    var g := Group(r, 6, t);
    assert g[2 * e] == r[6 * t + 2 * e] && g[2 * e + 1] == r[6 * t + 2 * e + 1];
    if e == 0 {
      assert g[0] == indices[3 * t] && g[1] == indices[3 * t + 1];
    } else if e == 1 {
      assert g[2] == indices[3 * t + 1] && g[3] == indices[3 * t + 2];
    } else {
      assert g[4] == indices[3 * t + 2] && g[5] == indices[3 * t];
    }
  }

  /** Each line of the wireframe joins two corners of one triangle of the
      source mesh: line `3t + e` is edge `e` of triangle `t`, from corner
      `e` to the next corner round. */
  lemma WireframeLinesAreTriangleEdges<V>(m: Mesh<V>, t: nat, e: nat)
    requires t < |m.indices| / 3 && e < 3
    ensures 6 * t + 2 * e + 1 < |Wireframe(m).indices|
    ensures Wireframe(m).indices[6 * t + 2 * e] == m.indices[3 * t + e]
    ensures Wireframe(m).indices[6 * t + 2 * e + 1] == m.indices[3 * t + NextCorner(e)]
  {
    var r := LineIndices(m.indices);
    assert Group(r, 6, t) == TriangleLines(m.indices, t);
    EdgeSlots(r, m.indices, t, e);
  }

  // ---------------------------------------------------------------------
  // Weld

  /** The state of `Weld`'s first loop: the dictionary from cell to new
      vertex index, the kept vertices, and the new index of every old
      vertex (`mappedVertices`). */
  datatype WeldTable<V, K> = WeldTable(cells: map<K, nat>, reps: seq<V>, mapped: seq<nat>)

  /** No two vertices fall in the same cell. */
  ghost predicate DistinctKeys<V, K>(vs: seq<V>, key: V -> K) {
    forall a, b :: 0 <= a < b < |vs| ==> key(vs[a]) != key(vs[b])
  }

  /** The cell of every vertex, in order. */
  function Keys<V, K>(vs: seq<V>, key: V -> K): (r: seq<K>)
    ensures |r| == |vs|
    ensures forall i :: 0 <= i < |vs| ==> r[i] == key(vs[i])
  {
    seq(|vs|, i requires 0 <= i < |vs| => key(vs[i]))
  }

  /** `Weld`'s first loop over `vs`: a vertex whose cell is new is appended
      to the kept vertices; every vertex is mapped to the kept vertex of its
      cell. */
  function Scan<V, K(==)>(vs: seq<V>, key: V -> K): (t: WeldTable<V, K>)
    ensures |t.mapped| == |vs| && |t.reps| <= |vs|
    ensures forall i :: 0 <= i < |vs| ==> key(vs[i]) in t.cells && t.mapped[i] == t.cells[key(vs[i])]
    ensures forall c :: c in t.cells ==> t.cells[c] < |t.reps| && key(t.reps[t.cells[c]]) == c
    ensures forall m :: 0 <= m < |t.reps| ==> key(t.reps[m]) in t.cells && t.cells[key(t.reps[m])] == m
    decreases |vs|
  {
    if |vs| == 0 then WeldTable(map[], [], [])
    else
      var init := vs[..|vs| - 1];
      var t := Scan(init, key);
      var v := vs[|vs| - 1];
      assert forall i :: 0 <= i < |init| ==> vs[i] == init[i];
      if key(v) in t.cells then
        WeldTable(t.cells, t.reps, t.mapped + [t.cells[key(v)]])
      else
        WeldTable(t.cells[key(v) := |t.reps|], t.reps + [v], t.mapped + [|t.reps|])
  }

  /** `MeshTools.Weld`: keeps the first vertex of every cell, in input
      order, and redirects every index to the kept vertex of its cell. An
      index outside the vertex array throws IndexOutOfRangeException. */
  function Weld<V, K(==)>(m: Mesh<V>, key: V -> K): (r: Result<Mesh<V>>)
    ensures r.Throws? <==> !IndicesInRange(m)
    ensures r.Throws? ==> r.error == IndexOutOfRange
    ensures r.Ok? ==> IndicesInRange(r.value) && r.value.topology == m.topology
    ensures r.Ok? ==> |r.value.indices| == |m.indices| && |r.value.vertices| <= |m.vertices|
    ensures r.Ok? ==> DistinctKeys(r.value.vertices, key)
    ensures r.Ok? ==> forall k :: 0 <= k < |m.indices| ==>
              key(r.value.vertices[r.value.indices[k]]) == key(m.vertices[m.indices[k]])
  {
    var t := Scan(m.vertices, key);
    if exists k :: 0 <= k < |m.indices| && !(0 <= m.indices[k] < |m.vertices|) then
      Throws(IndexOutOfRange)
    else
      var r := Mesh(t.reps, seq(|m.indices|, k requires 0 <= k < |m.indices| => t.mapped[m.indices[k]]), m.topology);
      assert DistinctKeys(r.vertices, key) by {
        forall a, b | 0 <= a < b < |t.reps| ensures key(t.reps[a]) != key(t.reps[b]) {
          assert t.cells[key(t.reps[a])] == a;
        }
      }
      Ok(r)
  }

  /** Position of the first vertex in cell `c`, or -1. */
  function FirstInCell<V, K(==)>(vs: seq<V>, key: V -> K, c: K): int {
    Linq.IndexOf(Keys(vs, key), c)
  }

  /** Positions of the vertices that are the first of their cell, in order. */
  function FirstPositions<V, K(==)>(vs: seq<V>, key: V -> K): seq<int> {
    Linq.Where(Range(|vs|), IsFirstInCell(vs, key))
  }

  /** `Where` only looks at the predicate on the elements it filters. */
  lemma {:induction false} WhereCongruent<T>(s: seq<T>, p: T -> bool, q: T -> bool)
    requires forall i :: 0 <= i < |s| ==> p(s[i]) == q(s[i])
    ensures Linq.Where(s, p) == Linq.Where(s, q)
    decreases |s|
  {
    if |s| > 0 {
      WhereCongruent(s[1..], p, q);
    }
  }

  lemma RangeSnoc(n: nat)
    ensures Range(n + 1) == Range(n) + [n]
  {
  }

  /** Extending the vertex list does not move earlier first positions. */
  lemma {:induction false} FirstInCellPrefix<V, K>(vs: seq<V>, key: V -> K, i: nat)
    requires i < |vs| - 1
    ensures FirstInCell(vs, key, key(vs[i])) == FirstInCell(vs[..|vs| - 1], key, key(vs[i]))
  {
    var init := vs[..|vs| - 1];
    var a := Keys(vs, key);
    var b := Keys(init, key);
    var c := key(vs[i]);
    assert b[i] == c;
    var x := Linq.IndexOf(a, c);
    var y := Linq.IndexOf(b, c);
    assert 0 <= y <= i;
    assert a[y] == c;
    assert 0 <= x <= y;
    assert b[x] == a[x];
  }

  /** Whether vertex `i` is the first of its cell. */
  function IsFirstInCell<V, K(==)>(vs: seq<V>, key: V -> K): int -> bool {
    i => 0 <= i < |vs| && FirstInCell(vs, key, key(vs[i])) == i
  }

  /** Appending a vertex appends its position to the first positions
      exactly when it is the first of its cell. */
  lemma FirstPositionsSnoc<V, K>(vs: seq<V>, key: V -> K)
    requires |vs| > 0
    ensures var n := |vs| - 1;
            IsFirstInCell(vs, key)(n) ==> FirstPositions(vs, key) == FirstPositions(vs[..n], key) + [n]
    ensures var n := |vs| - 1;
            !IsFirstInCell(vs, key)(n) ==> FirstPositions(vs, key) == FirstPositions(vs[..n], key)
  {
    var n := |vs| - 1;
    var init := vs[..n];
    var P := IsFirstInCell(vs, key);
    var Q := IsFirstInCell(init, key);
    assert FirstPositions(vs, key) == Linq.Where(Range(n + 1), P);
    assert FirstPositions(init, key) == Linq.Where(Range(n), Q);
    RangeSnoc(n);
    Linq.WhereAppend(Range(n), [n], P);
    forall i | 0 <= i < |Range(n)| ensures P(Range(n)[i]) == Q(Range(n)[i]) {
      FirstInCellPrefix(vs, key, i);
    }
    WhereCongruent(Range(n), P, Q);
    Linq.WhereSingleton(n, P);
    if !P(n) {
      assert Linq.Where([n], P) == [];
      assert Linq.Where(Range(n), Q) + [] == Linq.Where(Range(n), Q);
    }
  }

  /** The last vertex is the first of its cell exactly when the scan of the
      vertices before it has not met its cell. */
  lemma LastIsFirstInCell<V, K>(vs: seq<V>, key: V -> K)
    requires |vs| > 0
    requires PickedAt(Scan(vs[..|vs| - 1], key).reps, vs[..|vs| - 1], FirstPositions(vs[..|vs| - 1], key))
    ensures var n := |vs| - 1;
            IsFirstInCell(vs, key)(n) <==> key(vs[n]) !in Scan(vs[..n], key).cells
  {
    if key(vs[|vs| - 1]) in Scan(vs[..|vs| - 1], key).cells {
      SeenCellNotFirst(vs, key);
    } else {
      FreshCellFirst(vs, key);
    }
  }

  /** A last vertex whose cell the scan has met comes after that cell's
      first vertex. */
  lemma SeenCellNotFirst<V, K>(vs: seq<V>, key: V -> K)
    requires |vs| > 0
    requires PickedAt(Scan(vs[..|vs| - 1], key).reps, vs[..|vs| - 1], FirstPositions(vs[..|vs| - 1], key))
    requires key(vs[|vs| - 1]) in Scan(vs[..|vs| - 1], key).cells
    ensures !IsFirstInCell(vs, key)(|vs| - 1)
  {
    var n := |vs| - 1;
    var init := vs[..n];
    var t := Scan(init, key);
    var c := key(vs[n]);
    var j := t.cells[c];
    var i := FirstPositions(init, key)[j];
    assert 0 <= i < n && init[i] == t.reps[j];
    PrefixEntry(vs, n, i);
    assert Keys(vs, key)[i] == c;
  }

  /** A last vertex whose cell the scan has not met is the first of its
      cell. */
  lemma FreshCellFirst<V, K>(vs: seq<V>, key: V -> K)
    requires |vs| > 0
    requires key(vs[|vs| - 1]) !in Scan(vs[..|vs| - 1], key).cells
    ensures IsFirstInCell(vs, key)(|vs| - 1)
  {
    var n := |vs| - 1;
    var t := Scan(vs[..n], key);
    var ks := Keys(vs, key);
    forall i | 0 <= i < n ensures ks[i] != key(vs[n]) {
      PrefixEntry(vs, n, i);
    }
  }

  /** One more vertex adds a kept vertex exactly when its cell is new. */
  lemma ScanSnoc<V, K>(vs: seq<V>, key: V -> K)
    requires |vs| > 0
    ensures var n := |vs| - 1;
            key(vs[n]) in Scan(vs[..n], key).cells ==> Scan(vs, key).reps == Scan(vs[..n], key).reps
    ensures var n := |vs| - 1;
            key(vs[n]) !in Scan(vs[..n], key).cells ==> Scan(vs, key).reps == Scan(vs[..n], key).reps + [vs[n]]
  {
  }

  /** Kept vertices `reps` picked from `vs` at positions `p`. */
  ghost predicate PickedAt<V>(reps: seq<V>, vs: seq<V>, p: seq<int>) {
    |reps| == |p| && forall m :: 0 <= m < |p| ==> 0 <= p[m] < |vs| && reps[m] == vs[p[m]]
  }

  /** Picks from a prefix are picks from the whole; appending the last
      vertex and its position keeps the two in step. */
  lemma PickedAtSnoc<V>(vs: seq<V>, reps0: seq<V>, p0: seq<int>, reps: seq<V>, p: seq<int>)
    requires |vs| > 0 && PickedAt(reps0, vs[..|vs| - 1], p0)
    requires (reps == reps0 + [vs[|vs| - 1]] && p == p0 + [|vs| - 1]) || (reps == reps0 && p == p0)
    ensures PickedAt(reps, vs, p)
  {
    var init := vs[..|vs| - 1];
    forall m | 0 <= m < |p| ensures 0 <= p[m] < |vs| && reps[m] == vs[p[m]] {
      if m < |p0| {
        assert p[m] == p0[m] && reps[m] == reps0[m] == init[p0[m]];
      }
    }
  }

  /** The kept vertices are exactly the first vertex of every cell, in the
      order those first vertices appear in the input. */
  lemma {:induction false} ScanKeepsFirstOccurrences<V, K>(vs: seq<V>, key: V -> K)
    ensures PickedAt(Scan(vs, key).reps, vs, FirstPositions(vs, key))
    decreases |vs|
  {
    if |vs| > 0 {
      ScanKeepsFirstOccurrences(vs[..|vs| - 1], key);
      ScanKeepsStep(vs, key);
    }
  }

  /** The inductive step: picks from the scan of all but the last vertex
      extend to picks from the scan of all vertices. */
  lemma ScanKeepsStep<V, K>(vs: seq<V>, key: V -> K)
    requires |vs| > 0
    requires PickedAt(Scan(vs[..|vs| - 1], key).reps, vs[..|vs| - 1], FirstPositions(vs[..|vs| - 1], key))
    ensures PickedAt(Scan(vs, key).reps, vs, FirstPositions(vs, key))
  {
    var init := vs[..|vs| - 1];
    ScanSnoc(vs, key);
    FirstPositionsSnoc(vs, key);
    LastIsFirstInCell(vs, key);
    PickedAtSnoc(vs, Scan(init, key).reps, FirstPositions(init, key), Scan(vs, key).reps, FirstPositions(vs, key));
  }

  /** Every index of the welded mesh points at the first vertex of the cell
      its old vertex was in. */
  lemma WeldRepresentative<V, K>(m: Mesh<V>, key: V -> K, k: nat)
    requires Weld(m, key).Ok? && k < |m.indices|
    ensures var c := key(m.vertices[m.indices[k]]);
            0 <= FirstInCell(m.vertices, key, c) < |m.vertices|
            && Weld(m, key).value.vertices[Weld(m, key).value.indices[k]]
               == m.vertices[FirstInCell(m.vertices, key, c)]
  {
    var vs := m.vertices;
    var w := Weld(m, key).value;
    var t := Scan(vs, key);
    var c := key(vs[m.indices[k]]);
    var f := FirstInCell(vs, key, c);
    assert Keys(vs, key)[m.indices[k]] == c;
    assert 0 <= f < |vs| && key(vs[f]) == c;
    ScanKeepsFirstOccurrences(vs, key);
    var p := FirstPositions(vs, key);
    assert f in Range(|vs|);
    var P := IsFirstInCell(vs, key);
    assert P(f);
    assert f in p;
    var j :| 0 <= j < |p| && p[j] == f;
    assert t.reps[j] == vs[f];
    assert t.cells[key(t.reps[j])] == j;
    assert w.indices[k] == t.mapped[m.indices[k]] == t.cells[c];
  }

  /** Scanning vertices that already lie in distinct cells keeps them all
      and maps every vertex to itself. */
  lemma {:induction false} ScanDistinct<V, K>(vs: seq<V>, key: V -> K)
    requires DistinctKeys(vs, key)
    ensures Scan(vs, key).reps == vs
    ensures Scan(vs, key).mapped == Range(|vs|)
    decreases |vs|
  {
    if |vs| > 0 {
      DistinctPrefix(vs, key);
      ScanDistinct(vs[..|vs| - 1], key);
      ScanDistinctStep(vs, key);
    }
  }

  /** Dropping the last vertex keeps the cells distinct. */
  lemma DistinctPrefix<V, K>(vs: seq<V>, key: V -> K)
    requires |vs| > 0 && DistinctKeys(vs, key)
    ensures DistinctKeys(vs[..|vs| - 1], key)
  {
    var init := vs[..|vs| - 1];
    forall a, b | 0 <= a < b < |init| ensures key(init[a]) != key(init[b]) {
      assert init[a] == vs[a] && init[b] == vs[b];
    }
  }

  /** A vertex whose cell is new is kept and mapped to the next slot. */
  lemma ScanSnocFresh<V, K>(vs: seq<V>, key: V -> K)
    requires |vs| > 0 && key(vs[|vs| - 1]) !in Scan(vs[..|vs| - 1], key).cells
    ensures var t := Scan(vs[..|vs| - 1], key);
            Scan(vs, key).reps == t.reps + [vs[|vs| - 1]] && Scan(vs, key).mapped == t.mapped + [|t.reps|]
  {
  }

  /** The inductive step of `ScanDistinct`: a last vertex in a cell of its
      own is kept and mapped to itself. */
  lemma ScanDistinctStep<V, K>(vs: seq<V>, key: V -> K)
    requires |vs| > 0 && DistinctKeys(vs, key)
    requires Scan(vs[..|vs| - 1], key).reps == vs[..|vs| - 1]
    requires Scan(vs[..|vs| - 1], key).mapped == Range(|vs| - 1)
    ensures Scan(vs, key).reps == vs
    ensures Scan(vs, key).mapped == Range(|vs|)
  {
    LastCellFresh(vs, key);
    ScanSnocFresh(vs, key);
    RangeSnoc(|vs| - 1);
    PrefixSnoc(vs);
  }

  /** When the scan of distinct vertices keeps them all, the last vertex's
      cell is not among the cells met before it. */
  lemma LastCellFresh<V, K>(vs: seq<V>, key: V -> K)
    requires |vs| > 0 && DistinctKeys(vs, key)
    requires Scan(vs[..|vs| - 1], key).reps == vs[..|vs| - 1]
    ensures key(vs[|vs| - 1]) !in Scan(vs[..|vs| - 1], key).cells
  {
    var n := |vs| - 1;
    var t := Scan(vs[..n], key);
    forall c | c in t.cells ensures c != key(vs[n]) {
      PrefixEntry(vs, n, t.cells[c]);
    }
  }

  lemma PrefixEntry<T>(s: seq<T>, n: nat, j: nat)
    requires j < n <= |s|
    ensures s[..n][j] == s[j]
  {
  }

  lemma PrefixSnoc<T>(s: seq<T>)
    requires |s| > 0
    ensures s[..|s| - 1] + [s[|s| - 1]] == s
  {
  }

  /** Welding is idempotent: a welded mesh has one vertex per cell, so
      welding it again changes nothing. */
  lemma WeldIdempotent<V, K>(m: Mesh<V>, key: V -> K)
    requires Weld(m, key).Ok?
    ensures Weld(Weld(m, key).value, key) == Weld(m, key)
  {
    var w := Weld(m, key).value;
    ScanDistinct(w.vertices, key);
    var w2 := Weld(w, key).value;
    assert w2.indices == w.indices;
  }

  // ---------------------------------------------------------------------
  // Concat

  /** `moved` is `indices` with every entry moved by `d`. */
  ghost predicate MovedBy(moved: seq<int>, indices: seq<int>, d: int) {
    |moved| == |indices| && forall k :: 0 <= k < |indices| ==> moved[k] == indices[k] + d
  }

  /** Every index moved by `d`. */
  function Shift(indices: seq<int>, d: int): (r: seq<int>)
    ensures MovedBy(r, indices, d)
  {
    seq(|indices|, k requires 0 <= k < |indices| => indices[k] + d)
  }

  /** `MeshTools.Concat`: the second mesh's vertices follow the first's and
      its indices are moved past the first mesh's vertices. The mesh is
      built with the constructor's default topology, Triangles, whatever
      the topologies of the inputs. */
  function Concat<V>(m1: Mesh<V>, m2: Mesh<V>): (r: Mesh<V>)
    ensures r.vertices == m1.vertices + m2.vertices
    ensures |r.indices| == |m1.indices| + |m2.indices| && r.indices[..|m1.indices|] == m1.indices
    ensures MovedBy(r.indices[|m1.indices|..], m2.indices, |m1.vertices|)
    ensures r.topology == Triangles
  {
    Mesh(m1.vertices + m2.vertices, m1.indices + Shift(m2.indices, |m1.vertices|))
  }

  /** Concatenation keeps the geometry of both meshes: the result refers,
      index by index, to the vertices the first mesh referred to, then to
      those the second referred to. */
  lemma ConcatReferenced<V>(m1: Mesh<V>, m2: Mesh<V>)
    requires IndicesInRange(m1) && IndicesInRange(m2)
    ensures IndicesInRange(Concat(m1, m2))
    ensures Referenced(Concat(m1, m2)) == Referenced(m1) + Referenced(m2)
  {
    var r := Concat(m1, m2);
    var n1 := |m1.indices|;
    forall k | 0 <= k < |r.indices|
      ensures 0 <= r.indices[k] < |r.vertices|
      ensures r.vertices[r.indices[k]] == (Referenced(m1) + Referenced(m2))[k]
    {
      if k < n1 {
        assert r.indices[k] == r.indices[..n1][k];
      } else {
        assert r.indices[n1 + (k - n1)] == m2.indices[k - n1] + |m1.vertices|;
      }
    }
  }

  /** Moving two runs of indices is moving their concatenation. */
  lemma ShiftAppend(x: seq<int>, y: seq<int>, d: int)
    ensures Shift(x + y, d) == Shift(x, d) + Shift(y, d)
  {
  }

  /** Two moves in a row are one move by their sum. */
  lemma ShiftShift(x: seq<int>, d1: int, d2: int)
    ensures Shift(Shift(x, d1), d2) == Shift(x, d1 + d2)
  {
  }

  /** The index layout of a three-way concatenation does not depend on the
      grouping. */
  lemma ShiftLayoutAssociative(ai: seq<int>, bi: seq<int>, ci: seq<int>, na: int, nb: int)
    ensures (ai + Shift(bi, na)) + Shift(ci, na + nb) == ai + Shift(bi + Shift(ci, nb), na)
  {
    ShiftAppend(bi, Shift(ci, nb), na);
    ShiftShift(ci, nb, na);
  }

  /** Concatenation is associative, so a chain of concatenations does not
      depend on how it is grouped. */
  lemma ConcatAssociative<V>(a: Mesh<V>, b: Mesh<V>, c: Mesh<V>)
    ensures Concat(Concat(a, b), c) == Concat(a, Concat(b, c))
  {
    ShiftLayoutAssociative(a.indices, b.indices, c.indices, |a.vertices|, |b.vertices|);
  }
}

=== FILE: mesh_manipulator.dfy ===
/** `Scene.MeshManipulator`: the grid of nodes over a surface mesh, the
    8-neighbour graph between them, the boundary set, and `Adjust`, which
    builds all three and then asks an empty queue for its first node.

    Each grid cell gets its own `Node` object and `Node` does not override
    `Equals`, so dictionary and set keys are told apart by object; with one
    object per cell that is the cell's coordinates `(i, j)`, which is how
    nodes are keyed here. */
module MeshManipulator {
  import opened Outcomes
  import opened Int32
  import Linq
  import Arithmetic
  import Meshes
  import Manifolds

  /** Grid coordinates `(i, j)`: row (stack) `i`, column (slice) `j`. */
  type Coord = (int, int)

  /** A `Node`: its cell, its position, the direction it last moved in, and
      the `Visited` flag. */
  datatype Node<P> = Node(i: int, j: int, pos: P, direction: P, visited: bool)

  /** The `Node` constructor: direction `float3.zero`, not visited. */
  function NewNode<P>(i: int, j: int, pos: P, zero: P): (n: Node<P>)
    ensures n.i == i && n.j == j && n.pos == pos
    ensures n.direction == zero && !n.visited
  {
    Node(i, j, pos, zero, false)
  }

  /** `Node.GetHashCode`: `HashCode.Combine(i, j)`. The combiner is seeded
      per process, so it is a parameter. */
  function Hash<P>(n: Node<P>, combine: (int, int) -> int): int {
    combine(n.i, n.j)
  }

  /** The hash sees only the cell: position, direction and the visited
      flag can change without moving a node to another bucket. */
  lemma HashDependsOnCellOnly<P>(a: Node<P>, b: Node<P>, combine: (int, int) -> int)
    requires a.i == b.i && a.j == b.j
    ensures Hash(a, combine) == Hash(b, combine)
    ensures Hash(a.(pos := b.pos, direction := b.direction, visited := !a.visited), combine) == Hash(a, combine)
  {
  }

  // ---------------------------------------------------------------------
  // Graph<N>

  /** `Graph<N>`: a dictionary from node to its adjacency list. */
  type Graph = map<Coord, seq<Coord>>

  /** The indexer getter: the dictionary lookup, KeyNotFoundException for
      a node that was never given a list. */
  function Get(g: Graph, n: Coord): (r: Result<seq<Coord>>)
    ensures r.Ok? <==> n in g
    ensures r.Ok? ==> r.value == g[n]
    ensures r.Throws? ==> r.error == KeyNotFound
  {
    if n in g then Ok(g[n]) else Throws(KeyNotFound)
  }

  /** The indexer setter: adds or replaces the node's list. */
  function Put(g: Graph, n: Coord, adjacent: seq<Coord>): (r: Graph)
    ensures r.Keys == g.Keys + {n}
    ensures Get(r, n) == Ok(adjacent)
    ensures forall m :: m != n ==> Get(r, m) == Get(g, m)
  {
    g[n := adjacent]
  }

  /** `Graph.Clear`. */
  function Clear(g: Graph): (r: Graph)
    ensures forall n :: Get(r, n) == Throws(KeyNotFound)
  {
    map[]
  }

  // ---------------------------------------------------------------------
  // The grid

  /** The local function `IsValid(i, j)` of `Adjust`. */
  predicate IsValid(stacks: int, slices: int, c: Coord) {
    c.0 <= stacks && c.1 <= slices && c.0 >= 0 && c.1 >= 0
  }

  /** The in-bounds neighbour, as a list of zero or one nodes. */
  function Keep(stacks: int, slices: int, c: Coord): (r: seq<Coord>)
    ensures r == [] || r == [c]
    ensures r == [c] <==> IsValid(stacks, slices, c)
  {
    if IsValid(stacks, slices, c) then [c] else []
  }

  /** The adjacency list of node (i, j): the in-bounds cells among the eight
      around it, in the order `Adjust` tries them, counter-clockwise from
      (i + 1, j). */
  function Neighbours(stacks: int, slices: int, i: int, j: int): (r: seq<Coord>)
    ensures |r| <= 8
    ensures forall c :: c in r ==> IsValid(stacks, slices, c)
  {
    Keep(stacks, slices, (i + 1, j)) + Keep(stacks, slices, (i + 1, j + 1))
    + Keep(stacks, slices, (i, j + 1)) + Keep(stacks, slices, (i - 1, j + 1))
    + Keep(stacks, slices, (i - 1, j)) + Keep(stacks, slices, (i - 1, j - 1))
    + Keep(stacks, slices, (i, j - 1)) + Keep(stacks, slices, (i + 1, j - 1))
  }

  function Dist(a: int, b: int): nat {
    if a < b then b - a else a - b
  }

  /** Independent description of the adjacency: a cell is a neighbour of
      (i, j) exactly when it is inside the grid, differs from (i, j), and
      is at most one step away in each direction (king moves). */
  lemma NeighbourMembership(stacks: int, slices: int, i: int, j: int, c: Coord)
    ensures c in Neighbours(stacks, slices, i, j)
            <==> IsValid(stacks, slices, c) && c != (i, j) && Dist(c.0, i) <= 1 && Dist(c.1, j) <= 1
  {
    if c in Neighbours(stacks, slices, i, j) {
      NeighbourIsNear(stacks, slices, i, j, c);
    }
    if IsValid(stacks, slices, c) && c != (i, j) && Dist(c.0, i) <= 1 && Dist(c.1, j) <= 1 {
      NearIsNeighbour(stacks, slices, i, j, c);
    }
  }

  lemma NeighbourIsNear(stacks: int, slices: int, i: int, j: int, c: Coord)
    requires c in Neighbours(stacks, slices, i, j)
    ensures IsValid(stacks, slices, c) && c != (i, j) && Dist(c.0, i) <= 1 && Dist(c.1, j) <= 1
  {
    var k1, k2 := Keep(stacks, slices, (i + 1, j)), Keep(stacks, slices, (i + 1, j + 1));
    var k3, k4 := Keep(stacks, slices, (i, j + 1)), Keep(stacks, slices, (i - 1, j + 1));
    var k5, k6 := Keep(stacks, slices, (i - 1, j)), Keep(stacks, slices, (i - 1, j - 1));
    var k7, k8 := Keep(stacks, slices, (i, j - 1)), Keep(stacks, slices, (i + 1, j - 1));
    assert c in k1 || c in k2 || c in k3 || c in k4 || c in k5 || c in k6 || c in k7 || c in k8;
  }

  lemma NearIsNeighbour(stacks: int, slices: int, i: int, j: int, c: Coord)
    requires IsValid(stacks, slices, c) && c != (i, j) && Dist(c.0, i) <= 1 && Dist(c.1, j) <= 1
    ensures c in Neighbours(stacks, slices, i, j)
  {
    var (a, b) := c;
    if a == i + 1 && b == j { assert c in Keep(stacks, slices, (i + 1, j)); }
    else if a == i + 1 && b == j + 1 { assert c in Keep(stacks, slices, (i + 1, j + 1)); }
    else if a == i && b == j + 1 { assert c in Keep(stacks, slices, (i, j + 1)); }
    else if a == i - 1 && b == j + 1 { assert c in Keep(stacks, slices, (i - 1, j + 1)); }
    else if a == i - 1 && b == j { assert c in Keep(stacks, slices, (i - 1, j)); }
    else if a == i - 1 && b == j - 1 { assert c in Keep(stacks, slices, (i - 1, j - 1)); }
    else if a == i && b == j - 1 { assert c in Keep(stacks, slices, (i, j - 1)); }
    else { assert c in Keep(stacks, slices, (i + 1, j - 1)); }
  }

  /** Adjacency is symmetric and irreflexive. */
  lemma NeighboursSymmetric(stacks: int, slices: int, a: Coord, b: Coord)
    requires IsValid(stacks, slices, a) && IsValid(stacks, slices, b)
    ensures b in Neighbours(stacks, slices, a.0, a.1) <==> a in Neighbours(stacks, slices, b.0, b.1)
    ensures a !in Neighbours(stacks, slices, a.0, a.1)
  {
    NeighbourMembership(stacks, slices, a.0, a.1, b);
    NeighbourMembership(stacks, slices, b.0, b.1, a);
    NeighbourMembership(stacks, slices, a.0, a.1, a);
    DistSymmetric(a.0, b.0);
    DistSymmetric(a.1, b.1);
  }

  lemma DistSymmetric(x: int, y: int)
    ensures Dist(x, y) == Dist(y, x)
  {
  }

  /** How many of `x - 1`, `x`, `x + 1` lie in `0 .. bound`. */
  function Choices(x: int, bound: int): nat
    requires 0 <= x <= bound
  {
    (if x > 0 then 1 else 0) + 1 + (if x < bound then 1 else 0)
  }

  function Len(stacks: int, slices: int, c: Coord): nat {
    |Keep(stacks, slices, c)|
  }

  /** The adjacency list of a grid node has one entry per in-grid cell of
      its 3 x 3 block, less the node itself. */
  lemma NeighbourCount(stacks: int, slices: int, i: int, j: int)
    requires IsValid(stacks, slices, (i, j))
    ensures |Neighbours(stacks, slices, i, j)| == Choices(i, stacks) * Choices(j, slices) - 1
  {
    var up := if i < stacks then 1 else 0;
    var down := if i > 0 then 1 else 0;
    var right := if j < slices then 1 else 0;
    var left := if j > 0 then 1 else 0;
    assert Len(stacks, slices, (i + 1, j)) == up;
    assert Len(stacks, slices, (i + 1, j + 1)) == up * right;
    assert Len(stacks, slices, (i, j + 1)) == right;
    assert Len(stacks, slices, (i - 1, j + 1)) == down * right;
    assert Len(stacks, slices, (i - 1, j)) == down;
    assert Len(stacks, slices, (i - 1, j - 1)) == down * left;
    assert Len(stacks, slices, (i, j - 1)) == left;
    assert Len(stacks, slices, (i + 1, j - 1)) == up * left;
    assert (down + 1 + up) * (left + 1 + right) - 1
           == up + up * right + right + down * right + down + down * left + left + up * left;
  }

  /** A node on the boundary set: first or last row or column. */
  predicate OnBoundary(stacks: int, slices: int, c: Coord) {
    c.0 == 0 || c.1 == 0 || c.0 == stacks || c.1 == slices
  }

  /** On a grid of at least one cell each way, corners have 3 neighbours,
      the other boundary nodes 5 and interior nodes 8; so the boundary is
      exactly where a node has fewer than 8. */
  lemma NeighbourCountByPosition(stacks: int, slices: int, i: int, j: int)
    requires stacks >= 1 && slices >= 1 && IsValid(stacks, slices, (i, j))
    ensures var n := |Neighbours(stacks, slices, i, j)|;
            && ((i == 0 || i == stacks) && (j == 0 || j == slices) ==> n == 3)
            && ((i == 0 || i == stacks) != (j == 0 || j == slices) ==> n == 5)
            && (!OnBoundary(stacks, slices, (i, j)) ==> n == 8)
            && (OnBoundary(stacks, slices, (i, j)) <==> n < 8)
  {
    NeighbourCount(stacks, slices, i, j);
    var a, b := Choices(i, stacks), Choices(j, slices);
    assert a == 2 <==> (i == 0 || i == stacks);
    assert b == 2 <==> (j == 0 || j == slices);
    assert a == 2 || a == 3;
    assert b == 2 || b == 3;
  }

  /** The cells of the grid: rows `0 .. stacks`, columns `0 .. slices`. */
  function Cells(stacks: int, slices: int): (r: set<Coord>)
    ensures forall c :: c in r <==> IsValid(stacks, slices, c)
  {
    set i, j | 0 <= i <= stacks && 0 <= j <= slices :: (i, j)
  }

  /** The boundary set filled by the first loop. */
  function Boundary(stacks: int, slices: int): (r: set<Coord>)
    ensures forall c :: c in r <==> IsValid(stacks, slices, c) && OnBoundary(stacks, slices, c)
  {
    set c | c in Cells(stacks, slices) && OnBoundary(stacks, slices, c)
  }

  /** The second loop: every node gets a fresh list holding its
      neighbours. */
  function BuildGraph(stacks: int, slices: int): (g: Graph)
    ensures g.Keys == Cells(stacks, slices)
    ensures forall c :: c in Cells(stacks, slices) ==> Get(g, c) == Ok(Neighbours(stacks, slices, c.0, c.1))
  {
    map c | c in Cells(stacks, slices) :: Neighbours(stacks, slices, c.0, c.1)
  }

  /** Every adjacency list of the built graph names only nodes of the
      graph, so walking it never meets KeyNotFoundException. */
  lemma GraphClosed(stacks: int, slices: int, a: Coord, b: Coord)
    requires a in BuildGraph(stacks, slices) && b in BuildGraph(stacks, slices)[a]
    ensures b in BuildGraph(stacks, slices)
    ensures a in BuildGraph(stacks, slices)[b]
  {
    NeighbourMembership(stacks, slices, a.0, a.1, b);
    NeighboursSymmetric(stacks, slices, a, b);
  }

  // ---------------------------------------------------------------------
  // Adjust

  /** `mesh.Vertices[j + i * (slices + 1)]`, with `cols = slices + 1` and
      the int arithmetic unchecked. */
  function VertexIndex(cols: int32, i: int32, j: int32): int32 {
    Wrap(j + Wrap(i * cols))
  }

  /** Every read of the first loop is inside the vertex array. */
  predicate AllVerticesRead(rows: int32, cols: int32, count: nat) {
    forall i: int32, j: int32 :: 0 <= i < rows && 0 <= j < cols ==> 0 <= VertexIndex(cols, i, j) < count
  }

  /** When the grid has at most 2^31 cells the reads stay inside exactly
      when the mesh has at least `rows * cols` vertices. */
  lemma VertexReads(rows: int32, cols: int32, count: nat)
    requires 0 <= rows && 0 <= cols && rows * cols <= MaxValue + 1
    ensures AllVerticesRead(rows, cols, count) <==> rows * cols <= count
  {
    if rows * cols <= count {
      forall i: int32, j: int32 | 0 <= i < rows && 0 <= j < cols
        ensures 0 <= VertexIndex(cols, i, j) < count
      {
        VertexIndexNoWrap(rows, cols, i, j);
      }
    } else {
      assert rows > 0 && cols > 0;
      var i: int32, j: int32 := rows - 1, cols - 1;
      VertexIndexNoWrap(rows, cols, i, j);
      Arithmetic.MulSucc(cols, i);
      assert !(VertexIndex(cols, i, j) < count);
    }
  }

  /** On a grid of at most 2^31 cells the reads do not wrap: node (i, j)
      takes vertex `j + i * cols`, below `rows * cols`. */
  lemma VertexIndexNoWrap(rows: int32, cols: int32, i: int32, j: int32)
    requires 0 <= rows && 0 <= cols && rows * cols <= MaxValue + 1
    requires 0 <= i < rows && 0 <= j < cols
    ensures VertexIndex(cols, i, j) == Manifolds.GridIndex(cols - 1, i, j) == i * cols + j
    ensures i * cols + j < rows * cols
  {
    var p := i * cols;
    Arithmetic.MulMonotone(cols, i + 1, rows);
    Arithmetic.MulMonotone(cols, 0, i);
    assert cols * (i + 1) == p + cols;
    assert cols * rows == rows * cols;
    assert 0 <= p <= MaxValue;
    assert Wrap(p) == p;
    assert Wrap(j + p) == j + p;
  }

  /** Reads of two different grid nodes go to different vertices. */
  lemma VertexIndexInjective(cols: int32, a: Coord, b: Coord)
    requires cols > 0 && 0 <= a.0 && 0 <= b.0 && 0 <= a.1 < cols && 0 <= b.1 < cols
    requires a != b
    ensures Manifolds.GridIndex(cols - 1, a.0, a.1) != Manifolds.GridIndex(cols - 1, b.0, b.1)
  {
    Manifolds.GridCoordinates(cols, a.0, a.1);
    Manifolds.GridCoordinates(cols, b.0, b.1);
  }

  /** The node array: node (i, j) at the position of its vertex. */
  function Grid<P>(rows: int32, cols: int32, vertices: seq<P>, zero: P): (g: seq<seq<Node<P>>>)
    requires 0 <= rows && 0 <= cols && AllVerticesRead(rows, cols, |vertices|)
    ensures |g| == rows && forall i :: 0 <= i < rows ==> |g[i]| == cols
    ensures forall i: int32, j: int32 :: 0 <= i < rows && 0 <= j < cols ==>
              g[i][j].i == i && g[i][j].j == j && g[i][j].pos == vertices[VertexIndex(cols, i, j)]
  {
    seq(rows, (i: int) requires 0 <= i < rows =>
      seq(cols, (j: int) requires 0 <= j < cols => NewNode(i, j, vertices[VertexIndex(cols, i, j)], zero)))
  }

  /** What `Adjust` has built when it reaches the queue. */
  datatype Setup<P> = Setup(grid: seq<seq<Node<P>>>, boundary: set<Coord>, graph: Graph, queue: seq<Node<P>>)

  /** `Adjust` up to the queue: the node array (OverflowException for a
      negative dimension, after the unchecked `+ 1`), the first loop's
      vertex reads (IndexOutOfRangeException past the vertex array), the
      boundary set and the graph. Nothing is ever enqueued. */
  function AdjustSetup<P>(stacks: int32, slices: int32, vertices: seq<P>, zero: P): (r: Result<Setup<P>>)
    ensures r.Throws? ==> r.error == Overflow || r.error == IndexOutOfRange
    ensures r.Throws? && r.error == Overflow <==> Wrap(stacks + 1) < 0 || Wrap(slices + 1) < 0
    ensures r.Ok? ==> AllVerticesRead(stacks + 1, slices + 1, |vertices|)
    ensures Wrap(stacks + 1) >= 0 && Wrap(slices + 1) >= 0 ==>
              (r.Ok? <==> AllVerticesRead(Wrap(stacks + 1), Wrap(slices + 1), |vertices|))
    ensures r.Ok? ==> Wrap(stacks + 1) >= 0 && Wrap(slices + 1) >= 0
                      && AllVerticesRead(Wrap(stacks + 1), Wrap(slices + 1), |vertices|)
                      && r.value.grid == Grid(Wrap(stacks + 1), Wrap(slices + 1), vertices, zero)
    ensures r.Ok? ==> r.value.graph == BuildGraph(stacks, slices)
    ensures r.Ok? ==> r.value.boundary == Boundary(stacks, slices)
    ensures r.Ok? ==> r.value.queue == []
  {
    var rows, cols := Wrap(stacks + 1), Wrap(slices + 1);
    SuccessorWraps(stacks);
    SuccessorWraps(slices);
    if rows < 0 || cols < 0 then Throws(Overflow)
    else if !AllVerticesRead(rows, cols, |vertices|) then Throws(IndexOutOfRange)
    else Ok(Setup(Grid(rows, cols, vertices, zero), Boundary(stacks, slices), BuildGraph(stacks, slices), []))
  }

  /** `x + 1` wraps only at int.MaxValue, and then to a negative value. */
  lemma SuccessorWraps(x: int32)
    ensures x < MaxValue ==> Wrap(x + 1) == x + 1
    ensures x == MaxValue ==> Wrap(x + 1) == MinValue
  {
  }

  /** The start node `Adjust` looks for: first row, middle column. */
  function IsStart<P>(slices: int32): Node<P> -> bool {
    (n: Node<P>) => n.i == 0 && n.j == TruncDiv(Wrap(slices + 1), 2)
  }

  /** `MeshManipulator.Adjust`. The queue is never filled, so
      `queue.First(...)` always throws InvalidOperationException when the
      construction before it succeeds: the method never returns. */
  function Adjust<P>(stacks: int32, slices: int32, vertices: seq<P>, zero: P): (r: Result<seq<P>>)
    ensures r.Throws?
    ensures r.error in {Overflow, IndexOutOfRange, InvalidOperation}
    ensures r.error == Overflow <==> Wrap(stacks + 1) < 0 || Wrap(slices + 1) < 0
    ensures r.error == InvalidOperation <==> AdjustSetup(stacks, slices, vertices, zero).Ok?
  {
    var setup :- AdjustSetup(stacks, slices, vertices, zero);
    var start := Linq.First(setup.queue, IsStart(slices));
    if start.Throws? then Throws(start.error)
    else
      // `return null` after the traversal loop; never reached
      Ok([])
  }

  /** With grid dimensions that do not wrap, `Adjust` fails on the vertex
      reads exactly when the mesh has fewer than
      `(stacks + 1) * (slices + 1)` vertices, and otherwise on the empty
      queue. */
  lemma AdjustOutcome<P>(stacks: int32, slices: int32, vertices: seq<P>, zero: P)
    requires 0 <= stacks < MaxValue && 0 <= slices < MaxValue
    requires (stacks + 1) * (slices + 1) <= MaxValue + 1
    ensures Adjust(stacks, slices, vertices, zero).error == IndexOutOfRange
            <==> |vertices| < (stacks + 1) * (slices + 1)
    ensures Adjust(stacks, slices, vertices, zero).error == InvalidOperation
            <==> |vertices| >= (stacks + 1) * (slices + 1)
  {
    VertexReads(stacks + 1, slices + 1, |vertices|);
  }
}

=== FILE: outcomes.dfy ===
/** The way the modelled C# code fails.

    Every operation that can throw returns a `Result`: either the value the
    C# method returns, or the kind of .NET exception it raises. The model does
    not distinguish exception messages, only their kinds. */
module Outcomes {

  /** The .NET exception kinds raised by the modelled code. */
  datatype Exception =
    | ArgumentError        // System.ArgumentException (Math.Clamp with min > max, "Wrong topology.")
    | ArgumentOutOfRange   // System.ArgumentOutOfRangeException (List<T> indexer)
    | IndexOutOfRange      // System.IndexOutOfRangeException (array indexer)
    | InvalidOperation     // System.InvalidOperationException (First/Aggregate without a match)
    | NotImplemented       // System.NotImplementedException
    | DivideByZero         // System.DivideByZeroException
    | Overflow             // System.OverflowException (negative array size, int.MinValue / -1)
    | KeyNotFound          // System.Collections.Generic.KeyNotFoundException
    | NeverReturns         // a recursion that cannot return a value, not followed further

  /** Either the value returned or the exception raised. */
  datatype Result<+T> = Ok(value: T) | Throws(error: Exception) {

    predicate IsFailure() {
      Throws?
    }

    function PropagateFailure<U>(): Result<U>
      requires Throws?
    {
      Throws(error)
    }

    function Extract(): T
      requires Ok?
    {
      value
    }
  }
}

=== FILE: quadmesh.dfy ===
/** `Scene.Structs.QuadMesh<V>`: a `Mesh<V>` that also carries a
    rectangular face table (`int[,]`, one row per quad). */
module QuadMeshes {
  import Meshes

  /** A rectangular `int[,]`: `rows` rows of `cols` entries each. */
  datatype Table = Table(rows: nat, cols: nat, cells: seq<seq<int>>)

  predicate WellShaped(t: Table) {
    |t.cells| == t.rows && forall r :: 0 <= r < |t.cells| ==> |t.cells[r]| == t.cols
  }

  datatype QuadMesh<V> = QuadMesh(mesh: Meshes.Mesh<V>, faces: Table)

  /** The constructor: the vertices, indices and topology go to the base
      `Mesh` constructor (topology defaulting to Triangles) and the face
      table is stored as given. */
  function New<V>(vertices: seq<V>, indices: seq<int>, faces: Table,
                  topology: Meshes.Topology := Meshes.Triangles): (q: QuadMesh<V>)
    ensures q.mesh.vertices == vertices && q.mesh.indices == indices && q.mesh.topology == topology
    ensures q.faces == faces
  {
    QuadMesh(Meshes.Mesh(vertices, indices, topology), faces)
  }

  /** `Array.Clone` on the rectangular face table: same shape, same
      entries. */
  function CloneTable(t: Table): (r: Table)
    ensures r.rows == t.rows && r.cols == t.cols && |r.cells| == |t.cells|
    ensures forall i :: 0 <= i < |t.cells| ==> r.cells[i] == t.cells[i]
    ensures WellShaped(t) ==> WellShaped(r)
  {
    Table(t.rows, t.cols, seq(|t.cells|, i requires 0 <= i < |t.cells| => t.cells[i]))
  }

  /** `QuadMesh.Clone` (declared `new`): copies of the vertex, index and
      face arrays, with the same topology. */
  function Clone<V>(q: QuadMesh<V>): (r: QuadMesh<V>)
    ensures r.mesh.vertices == q.mesh.vertices && r.mesh.indices == q.mesh.indices
    ensures r.mesh.topology == q.mesh.topology
    ensures r.faces.rows == q.faces.rows && r.faces.cols == q.faces.cols
    ensures |r.faces.cells| == |q.faces.cells|
    ensures forall i :: 0 <= i < |q.faces.cells| ==> r.faces.cells[i] == q.faces.cells[i]
  {
    var vertices := Meshes.Clone(q.mesh).vertices;
    var indices := Meshes.Clone(q.mesh).indices;
    New(vertices, indices, CloneTable(q.faces), q.mesh.topology)
  }

  /** Immutable values make the copy indistinguishable from the original:
      cloning is the identity, hence idempotent. */
  lemma CloneIsCopy<V>(q: QuadMesh<V>)
    ensures Clone(q) == q
    ensures Clone(Clone(q)) == Clone(q)
  {
    assert CloneTable(q.faces).cells == q.faces.cells;
  }

  /** What a variable of static type `Mesh<V>` may refer to. */
  datatype MeshRef<V> = PlainRef(plain: Meshes.Mesh<V>) | QuadRef(quad: QuadMesh<V>)

  /** The base part of whatever the reference points to. */
  function BaseOf<V>(x: MeshRef<V>): Meshes.Mesh<V> {
    match x
    case PlainRef(m) => m
    case QuadRef(q) => q.mesh
  }

  /** `x.Clone()` through a reference of static type `Mesh<V>`. The
      QuadMesh method hides the base one instead of overriding it, so the
      call binds to `Mesh.Clone` whatever the object is: the result is a
      plain mesh, and a quad mesh's face table is lost. */
  function CloneThroughMesh<V>(x: MeshRef<V>): (r: MeshRef<V>)
    ensures r.PlainRef?
    ensures BaseOf(r) == BaseOf(x)
  {
    PlainRef(Meshes.Clone(BaseOf(x)))
  }

  /** `x.Clone()` through a reference of static type `QuadMesh<V>`: the
      hiding method runs and the face table is kept. */
  function CloneThroughQuadMesh<V>(q: QuadMesh<V>): (r: MeshRef<V>)
    ensures r.QuadRef? && r.quad.faces == q.faces
    ensures BaseOf(r) == q.mesh
  {
    CloneIsCopy(q);
    QuadRef(Clone(q))
  }

  /** The two static types give different results for the same quad mesh:
      only the `QuadMesh`-typed call keeps the faces. */
  lemma CloneDependsOnStaticType<V>(q: QuadMesh<V>)
    ensures CloneThroughMesh(QuadRef(q)) != CloneThroughQuadMesh(q)
    ensures BaseOf(CloneThroughMesh(QuadRef(q))) == BaseOf(CloneThroughQuadMesh(q))
  {
  }
}

=== FILE: scene_mesh_tools.dfy ===
/** `Renderer.Scene.MeshTools`: concatenation and joining, the
    reconstruction of quads and undirected edges from pairs of triangles,
    and the index side of Catmull-Clark subdivision. */
module SceneMeshTools {
  import opened Outcomes
  import opened Arithmetic
  import Linq
  import opened Meshes
  import Manifolds

  /** `MeshTools.Concat`: the same construction as the Rendering one, whose
      contract states the vertex and index layout. */
  function Concat<V>(m1: Mesh<V>, m2: Mesh<V>): (r: Mesh<V>)
    ensures r == Meshes.Concat(m1, m2)
  {
    Meshes.Concat(m1, m2)
  }

  /** `MeshTools.Join`: `Aggregate` of `Concat` over the meshes. */
  function Join<V>(meshes: seq<Mesh<V>>): (r: Result<Mesh<V>>)
    ensures r.Throws? <==> |meshes| == 0
    ensures r.Throws? ==> r.error == InvalidOperation
    ensures |meshes| == 1 ==> r == Ok(meshes[0])
  {
    Linq.Aggregate(meshes, (a: Mesh<V>, b: Mesh<V>) => Concat(a, b))
  }

  /** All vertex arrays, one after the other. */
  function AllVertices<V>(meshes: seq<Mesh<V>>): seq<V> {
    if |meshes| == 0 then [] else AllVertices(meshes[..|meshes| - 1]) + meshes[|meshes| - 1].vertices
  }

  /** All referenced vertices, mesh after mesh. */
  function AllReferenced<V>(meshes: seq<Mesh<V>>): seq<V>
    requires forall i :: 0 <= i < |meshes| ==> IndicesInRange(meshes[i])
  {
    if |meshes| == 0 then [] else AllReferenced(meshes[..|meshes| - 1]) + Referenced(meshes[|meshes| - 1])
  }

  /** Joining two or more meshes concatenates the last one onto the join
      of the others. */
  lemma JoinStep<V>(meshes: seq<Mesh<V>>)
    requires |meshes| >= 2
    ensures Join(meshes) == Ok(Concat(Join(meshes[..|meshes| - 1]).value, meshes[|meshes| - 1]))
  {
  }

  /** Joining two or more meshes lays their vertex arrays end to end and
      keeps every triangle on the same vertices it had; the topology is
      Triangles whatever the inputs carried. */
  lemma {:induction false} JoinConcatenates<V>(meshes: seq<Mesh<V>>)
    requires |meshes| >= 2
    requires forall i :: 0 <= i < |meshes| ==> IndicesInRange(meshes[i])
    ensures Join(meshes).Ok?
    ensures Join(meshes).value.vertices == AllVertices(meshes)
    ensures Join(meshes).value.topology == Triangles
    ensures IndicesInRange(Join(meshes).value)
    ensures Referenced(Join(meshes).value) == AllReferenced(meshes)
    decreases |meshes|
  {
    var init := meshes[..|meshes| - 1];
    var last := meshes[|meshes| - 1];
    JoinStep(meshes);
    if |init| == 1 {
      assert init[..0] == [];
      assert AllVertices(init) == init[0].vertices;
      assert AllReferenced(init) == Referenced(init[0]);
    } else {
      JoinConcatenates(init);
    }
    ConcatReferenced(Join(init).value, last);
  }

  // ---------------------------------------------------------------------
  // Quads from triangle pairs

  type Edge = (int, int)

  /** The same edge walked the other way. */
  function Reverse(e: Edge): Edge {
    (e.1, e.0)
  }

  /** The corners two triangles share: `HashSet.IntersectWith`. */
  function Shared(tris1: seq<int>, tris2: seq<int>): set<int> {
    set x | x in tris1 && x in tris2
  }

  lemma SharedSymmetric(tris1: seq<int>, tris2: seq<int>)
    ensures Shared(tris1, tris2) == Shared(tris2, tris1)
  {
  }

  /** The `First` predicate: not a shared corner. */
  function Unshared(shared: set<int>): int -> bool {
    j => j !in shared
  }

  /** Every corner of triangle `a` is a corner of `b`. */
  predicate CornersWithin(a: seq<int>, b: seq<int>)
    requires |a| == 3
  {
    forall k :: 0 <= k < 3 ==> a[k] in b
  }

  /** Position of the first corner of triangle `a` that `b` lacks; 3
      when `b` holds every corner of `a`. */
  function FirstOutside(a: seq<int>, b: seq<int>): (i: nat)
    requires |a| == 3
    ensures i <= 3 && (i < 3 ==> a[i] !in b)
    ensures forall k :: 0 <= k < i && k < 3 ==> a[k] in b
  {
    if a[0] !in b then 0 else if a[1] !in b then 1 else if a[2] !in b then 2 else 3
  }

  /** `First` over one triangle finds the first corner the other triangle
      lacks, and `IndexOf` finds that same position again. */
  lemma FirstUnshared(a: seq<int>, b: seq<int>)
    requires |a| == 3
    ensures var r := Linq.First(a, Unshared(Shared(a, b)));
            && (r.Ok? <==> FirstOutside(a, b) < 3)
            && (r.Throws? <==> CornersWithin(a, b))
            && (r.Throws? ==> r.error == InvalidOperation)
            && (r.Ok? ==> r.value == a[FirstOutside(a, b)] && Linq.IndexOf(a, r.value) == FirstOutside(a, b))
  {
    var shared := Shared(a, b);
    var r := Linq.First(a, Unshared(shared));
    assert forall k :: 0 <= k < 3 ==> (Unshared(shared)(a[k]) <==> a[k] !in b);
    if r.Ok? {
      var i0 :| 0 <= i0 < |a| && a[i0] == r.value && Unshared(shared)(a[i0])
                && forall j :: 0 <= j < i0 ==> !Unshared(shared)(a[j]);
      assert i0 == FirstOutside(a, b);
      var i := Linq.IndexOf(a, r.value);
      assert i == i0;
    } else {
      assert forall k :: 0 <= k < 3 ==> a[k] in b;
    }
  }

  /** The quad a pair of triangles describes: start at the first corner of
      the first triangle that the second lacks, walk the first triangle,
      and put the second triangle's first own corner between the walk's
      second and third corners. `First` throws InvalidOperationException
      when one triangle's corners all belong to the other. */
  function QuadOf(tris1: seq<int>, tris2: seq<int>): (r: Result<seq<int>>)
    requires |tris1| == 3 && |tris2| == 3
    ensures r.Throws? <==> CornersWithin(tris1, tris2) || CornersWithin(tris2, tris1)
    ensures r.Throws? ==> r.error == InvalidOperation
    ensures r.Ok? ==> FirstOutside(tris1, tris2) < 3 && FirstOutside(tris2, tris1) < 3
    ensures r.Ok? ==> var i := FirstOutside(tris1, tris2);
                      r.value == [tris1[i], tris1[(i + 1) % 3], tris2[FirstOutside(tris2, tris1)], tris1[(i + 2) % 3]]
  {
    var shared := Shared(tris1, tris2);
    SharedSymmetric(tris1, tris2);
    FirstUnshared(tris1, tris2);
    FirstUnshared(tris2, tris1);
    var p1 :- Linq.First(tris1, Unshared(shared));
    var p2 :- Linq.First(tris2, Unshared(shared));
    var index := Linq.IndexOf(tris1, p1);
    Ok([p1, tris1[(index + 1) % 3], p2, tris1[(index + 2) % 3]])
  }

  /** The two triangles of pair `p` of an index array. */
  function PairQuad(indices: seq<int>, p: nat): Result<seq<int>>
    requires 6 * p + 6 <= |indices|
  {
    QuadOf(indices[6 * p .. 6 * p + 3], indices[6 * p + 3 .. 6 * p + 6])
  }

  /** The position after `i` around a cycle of length `n`, written
      `(i + 1) % n` in the source. */
  function Succ(i: int, n: int): (k: int)
    requires 0 <= i < n
    ensures 0 <= k < n
    ensures k == if i + 1 == n then 0 else i + 1
  {
    (i + 1) % n
  }

  /** `MeshTools.EdgesOfFace`: the closed walk around a face, edge `i`
      leaving corner `i`. */
  function EdgesOfFace(face: seq<int>): (r: seq<Edge>)
    ensures |r| == |face|
    ensures forall i :: 0 <= i < |r| ==> r[i].0 == face[i]
    ensures forall i :: 0 <= i < |r| ==> r[i].1 == r[Succ(i, |r|)].0
  {
    var n := |face|;
    seq(n, i requires 0 <= i < n => (face[i], face[Succ(i, n)]))
  }

  /** No edge appears twice, in either orientation. */
  ghost predicate Undirected(edges: seq<Edge>) {
    forall i, j :: 0 <= i < j < |edges| ==> edges[i] != edges[j] && edges[i] != Reverse(edges[j])
  }

  /** The edge list holds `e` in one orientation or the other. */
  predicate Covers(edges: seq<Edge>, e: Edge) {
    e in edges || Reverse(e) in edges
  }

  /** One guarded `edges.Add`: the edge is added unless the set already
      holds it in either orientation. */
  function AddEdge(edges: seq<Edge>, e: Edge): (r: seq<Edge>)
    ensures Undirected(edges) ==> Undirected(r)
    ensures Covers(r, e)
    ensures edges <= r && forall x :: x in edges ==> x in r
    ensures forall x :: x in r ==> x in edges || x == e
    ensures Covers(edges, e) ==> r == edges
  {
    if e in edges || Reverse(e) in edges then edges else edges + [e]
  }

  /** The guarded additions for a list of edges, in order. */
  function AddEdges(edges: seq<Edge>, es: seq<Edge>): (r: seq<Edge>)
    ensures Undirected(edges) ==> Undirected(r)
    ensures forall i :: 0 <= i < |es| ==> Covers(r, es[i])
    ensures edges <= r && forall x :: x in edges ==> x in r
    ensures forall x :: x in r ==> x in edges || x in es
    decreases |es|
  {
    if |es| == 0 then edges
    else
      var r := AddEdges(AddEdge(edges, es[0]), es[1..]);
      assert forall i :: 1 <= i < |es| ==> es[i] == es[1..][i - 1];
      r
  }

  /** What `GetFacesAndEdges` returns: the quads and the undirected edges. */
  datatype FacesAndEdges = FacesAndEdges(faces: seq<seq<int>>, edges: seq<Edge>)

  /** Every edge of every face is in the edge list in one orientation. */
  ghost predicate CoversFaces(fe: FacesAndEdges) {
    forall f, k :: 0 <= f < |fe.faces| && 0 <= k < |fe.faces[f]| ==> Covers(fe.edges, EdgesOfFace(fe.faces[f])[k])
  }

  /** Every listed edge is an edge of some face. */
  ghost predicate FromFaces(fe: FacesAndEdges) {
    forall e :: e in fe.edges ==>
      exists f, k :: 0 <= f < |fe.faces| && 0 <= k < |fe.faces[f]| && e == EdgesOfFace(fe.faces[f])[k]
  }

  /** Adding a face's edges keeps the old faces' edges covered and covers
      the new face's. */
  lemma AddFaceCovers(acc: FacesAndEdges, face: seq<int>, r: FacesAndEdges)
    requires CoversFaces(acc)
    requires r == FacesAndEdges(acc.faces + [face], AddEdges(acc.edges, EdgesOfFace(face)))
    ensures CoversFaces(r)
  {
    var n := |r.faces|;
    forall f, k | 0 <= f < n && 0 <= k < |r.faces[f]|
      ensures Covers(r.edges, EdgesOfFace(r.faces[f])[k])
    {
      if f < n - 1 {
        assert r.faces[f] == acc.faces[f];
        assert Covers(acc.edges, EdgesOfFace(acc.faces[f])[k]);
      } else {
        assert r.faces[f] == face;
      }
    }
  }

  /** Adding a face's edges adds nothing but edges of that face. */
  lemma AddFaceFromFaces(acc: FacesAndEdges, face: seq<int>, r: FacesAndEdges)
    requires FromFaces(acc)
    requires r == FacesAndEdges(acc.faces + [face], AddEdges(acc.edges, EdgesOfFace(face)))
    ensures FromFaces(r)
  {
    forall e | e in r.edges
      ensures exists f, k :: 0 <= f < |r.faces| && 0 <= k < |r.faces[f]| && e == EdgesOfFace(r.faces[f])[k]
    {
      if e in acc.edges {
        OldEdgeFromFaces(acc, face, r, e);
      } else {
        var k :| 0 <= k < |face| && e == EdgesOfFace(face)[k];
        EdgeOfFaceAt(r.faces, |r.faces| - 1, k, e);
      }
    }
  }

  /** An edge already listed stays an edge of one of the faces. */
  lemma OldEdgeFromFaces(acc: FacesAndEdges, face: seq<int>, r: FacesAndEdges, e: Edge)
    requires FromFaces(acc) && e in acc.edges && r.faces == acc.faces + [face]
    ensures exists f, k :: 0 <= f < |r.faces| && 0 <= k < |r.faces[f]| && e == EdgesOfFace(r.faces[f])[k]
  {
    var f, k :| 0 <= f < |acc.faces| && 0 <= k < |acc.faces[f]| && e == EdgesOfFace(acc.faces[f])[k];
    assert r.faces[f] == acc.faces[f];
    EdgeOfFaceAt(r.faces, f, k, e);
  }

  /** Edge `k` of face `f` is an edge of some face of the list. */
  lemma EdgeOfFaceAt(faces: seq<seq<int>>, f: nat, k: nat, e: Edge)
    requires f < |faces| && k < |faces[f]| && e == EdgesOfFace(faces[f])[k]
    ensures exists f, k :: 0 <= f < |faces| && 0 <= k < |faces[f]| && e == EdgesOfFace(faces[f])[k]
  {
  }

  /** One more face and its guarded edge additions. */
  function AddFace(acc: FacesAndEdges, face: seq<int>): (r: FacesAndEdges)
    requires Undirected(acc.edges) && CoversFaces(acc) && FromFaces(acc)
    ensures r.faces == acc.faces + [face]
    ensures Undirected(r.edges) && CoversFaces(r) && FromFaces(r)
  {
    var r := FacesAndEdges(acc.faces + [face], AddEdges(acc.edges, EdgesOfFace(face)));
    AddFaceCovers(acc, face, r);
    AddFaceFromFaces(acc, face, r);
    r
  }

  /** The face list after pair `n - 1` still matches the pairs one by one. */
  lemma FacesExtend(indices: seq<int>, n: nat, prev: seq<seq<int>>, face: seq<int>, faces: seq<seq<int>>)
    requires 1 <= n && 6 * n <= |indices| && |prev| == n - 1
    requires forall p :: 0 <= p < n - 1 ==> PairQuad(indices, p) == Ok(prev[p])
    requires PairQuad(indices, n - 1) == Ok(face)
    requires faces == prev + [face]
    ensures forall p :: 0 <= p < n ==> PairQuad(indices, p) == Ok(faces[p])
  {
    forall p | 0 <= p < n ensures PairQuad(indices, p) == Ok(faces[p]) {
      if p < n - 1 {
        assert faces[p] == prev[p];
      } else {
        assert faces[p] == face;
      }
    }
  }

  /** The first `n` iterations of the loop of `GetFacesAndEdges`. */
  function FacesAndEdgesUpTo(indices: seq<int>, n: nat): (r: Result<FacesAndEdges>)
    requires 6 * n <= |indices|
    ensures r.Throws? <==> exists p :: 0 <= p < n && PairQuad(indices, p).Throws?
    ensures r.Throws? ==> r.error == InvalidOperation
    ensures r.Ok? ==> |r.value.faces| == n
    ensures r.Ok? ==> forall p :: 0 <= p < n ==> PairQuad(indices, p) == Ok(r.value.faces[p])
    ensures r.Ok? ==> Undirected(r.value.edges) && CoversFaces(r.value) && FromFaces(r.value)
  {
    if n == 0 then Ok(FacesAndEdges([], []))
    else
      var prev := FacesAndEdgesUpTo(indices, n - 1);
      if prev.Throws? then
        Throws(prev.error)
      else
        var q := PairQuad(indices, n - 1);
        if q.Throws? then
          Throws(q.error)
        else
          var r := AddFace(prev.value, q.value);
          FacesExtend(indices, n, prev.value.faces, q.value, r.faces);
          Ok(r)
  }

  /** `MeshTools.GetFacesAndEdges`: one quad per consecutive pair of
      triangles, and each quad edge once, in whichever orientation was met
      first. A trailing partial pair is ignored. */
  function GetFacesAndEdges<V>(m: Mesh<V>): (r: Result<FacesAndEdges>)
    ensures r.Throws? <==> exists p :: 0 <= p < |m.indices| / 6 && PairQuad(m.indices, p).Throws?
    ensures r.Throws? ==> r.error == InvalidOperation
    ensures r.Ok? ==> |r.value.faces| == |m.indices| / 6
    ensures r.Ok? ==> forall p :: 0 <= p < |m.indices| / 6 ==> PairQuad(m.indices, p) == Ok(r.value.faces[p])
    ensures r.Ok? ==> Undirected(r.value.edges) && CoversFaces(r.value) && FromFaces(r.value)
  {
    FacesAndEdgesUpTo(m.indices, |m.indices| / 6)
  }

  /** The quad of grid cell (i, j), walked from (i + 1, j) round to
      (i, j). */
  function CellQuad(slices: int, i: int, j: int): seq<int> {
    [Manifolds.GridIndex(slices, i + 1, j), Manifolds.GridIndex(slices, i + 1, j + 1),
     Manifolds.GridIndex(slices, i, j + 1), Manifolds.GridIndex(slices, i, j)]
  }

  /** The two triangles `Surface` emits for a cell give back the cell's
      quad, its corners in cyclic order. With one slice or more the four
      corners are distinct; with zero slices they are not. */
  lemma SurfacePairIsCellQuad(slices: int, i: int, j: int)
    requires slices >= 1
    ensures QuadOf(Manifolds.CellTriangles(slices, i, j)[..3], Manifolds.CellTriangles(slices, i, j)[3..])
            == Ok(CellQuad(slices, i, j))
  {
    var a := Manifolds.GridIndex(slices, i, j);
    var cell := Manifolds.CellTriangles(slices, i, j);
    assert Manifolds.GridIndex(slices, i, j + 1) == a + 1;
    assert Manifolds.GridIndex(slices, i + 1, j) == a + slices + 1;
    assert Manifolds.GridIndex(slices, i + 1, j + 1) == a + slices + 2;
    var t1, t2 := cell[..3], cell[3..];
    assert t1 == [a, a + slices + 1, a + slices + 2];
    assert t2 == [a, a + slices + 2, a + 1];
    assert FirstOutside(t1, t2) == 1;
    assert FirstOutside(t2, t1) == 2;
  }

  /** A pair laid out as a cell's two triangles reads back as the cell's
      quad. */
  lemma PairOfCell(indices: seq<int>, p: nat, slices: int, i: int, j: int)
    requires slices >= 1 && 6 * p + 6 <= |indices|
    requires Group(indices, 6, p) == Manifolds.CellTriangles(slices, i, j)
    ensures PairQuad(indices, p) == Ok(CellQuad(slices, i, j))
  {
    var g := Group(indices, 6, p);
    assert indices[6 * p .. 6 * p + 3] == g[..3];
    assert indices[6 * p + 3 .. 6 * p + 6] == g[3..];
    SurfacePairIsCellQuad(slices, i, j);
  }

  /** On a grid built by `Surface` with at least one slice and one stack,
      `GetFacesAndEdges` succeeds and recovers every cell's quad, cell by
      cell in row order. */
  lemma SurfaceFaces<V>(slices: int, stacks: int, vertexAt: (int, int) -> V, dflt: V)
    requires slices >= 1 && stacks >= 1
    ensures Manifolds.Surface(slices, stacks, vertexAt, dflt).Ok?
    ensures var fe := GetFacesAndEdges(Manifolds.Surface(slices, stacks, vertexAt, dflt).value);
            fe.Ok? && |fe.value.faces| == slices * stacks
            && forall i, j :: 0 <= i < stacks && 0 <= j < slices ==>
                 fe.value.faces[Manifolds.CellNumber(slices, i, j)] == CellQuad(slices, i, j)
  {
    MulMonotone(slices, 1, stacks);
    var m := Manifolds.Surface(slices, stacks, vertexAt, dflt).value;
    var n := |m.indices| / 6;
    assert n == slices * stacks;
    forall i, j | 0 <= i < stacks && 0 <= j < slices
      ensures 0 <= Manifolds.CellNumber(slices, i, j) < n
      ensures PairQuad(m.indices, Manifolds.CellNumber(slices, i, j)) == Ok(CellQuad(slices, i, j))
    {
      Manifolds.CellNumberInGrid(slices, stacks, i, j);
      PairOfCell(m.indices, Manifolds.CellNumber(slices, i, j), slices, i, j);
    }
    forall p | 0 <= p < n ensures PairQuad(m.indices, p).Ok? {
      Manifolds.CellOfNumber(slices, stacks, p);
    }
  }

  /** `MeshTools.FacesInvolvingPoint`: the faces with corner `i`, in order. */
  function FacesInvolvingPoint(i: int, faces: seq<seq<int>>): (r: seq<seq<int>>)
    ensures forall k :: 0 <= k < |r| ==> r[k] in faces && i in r[k]
    ensures forall k :: 0 <= k < |faces| && i in faces[k] ==> faces[k] in r
  {
    Linq.Where(faces, (quad: seq<int>) => i in quad)
  }

  /** `MeshTools.EdgesInvolvingPoint`: the edges with end `i`, in order. */
  function EdgesInvolvingPoint(i: int, edges: seq<Edge>): (r: seq<Edge>)
    ensures forall k :: 0 <= k < |r| ==> r[k] in edges && (r[k].0 == i || r[k].1 == i)
    ensures forall k :: 0 <= k < |edges| && (edges[k].0 == i || edges[k].1 == i) ==> edges[k] in r
  {
    Linq.Where(edges, (e: Edge) => e.0 == i || e.1 == i)
  }

  /** Both filters keep the order of the list they filter: filtering a
      concatenation concatenates the filtered parts. */
  lemma InvolvingPointKeepsOrder(i: int, f1: seq<seq<int>>, f2: seq<seq<int>>, e1: seq<Edge>, e2: seq<Edge>)
    ensures FacesInvolvingPoint(i, f1 + f2) == FacesInvolvingPoint(i, f1) + FacesInvolvingPoint(i, f2)
    ensures EdgesInvolvingPoint(i, e1 + e2) == EdgesInvolvingPoint(i, e1) + EdgesInvolvingPoint(i, e2)
  {
    Linq.WhereAppend(f1, f2, (quad: seq<int>) => i in quad);
    Linq.WhereAppend(e1, e2, (e: Edge) => e.0 == i || e.1 == i);
  }

  // ---------------------------------------------------------------------
  // Catmull-Clark subdivision, index side

  /** The faces holding both ends of an edge: the `Intersect` of the two
      `FacesInvolvingPoint` lists. Faces are distinct arrays, so two equal
      quads still count as two faces. */
  function FacesOfEdge(e: Edge, faces: seq<seq<int>>): (r: seq<seq<int>>)
    ensures forall k :: 0 <= k < |r| ==> r[k] in faces && e.0 in r[k] && e.1 in r[k]
    ensures forall k :: 0 <= k < |faces| && e.0 in faces[k] && e.1 in faces[k] ==> faces[k] in r
  {
    Linq.Where(FacesInvolvingPoint(e.0, faces), (quad: seq<int>) => e.1 in quad)
  }

  /** `FacesOfEdge` is an order-preserving filter: it distributes over
      concatenation and keeps a single face exactly when the face holds
      both ends. So each face holding the edge is counted once per
      occurrence in the face list, and in face-list order. */
  lemma FacesOfEdgeKeepsOrder(e: Edge, f1: seq<seq<int>>, f2: seq<seq<int>>, q: seq<int>)
    ensures FacesOfEdge(e, f1 + f2) == FacesOfEdge(e, f1) + FacesOfEdge(e, f2)
    ensures FacesOfEdge(e, [q]) == if e.0 in q && e.1 in q then [q] else []
  {
    InvolvingPointKeepsOrder(e.0, f1, f2, [], []);
    Linq.WhereAppend(FacesInvolvingPoint(e.0, f1), FacesInvolvingPoint(e.0, f2), (quad: seq<int>) => e.1 in quad);
    Linq.WhereSingleton(q, (quad: seq<int>) => e.0 in quad);
    Linq.WhereSingleton(q, (quad: seq<int>) => e.1 in quad);
  }

  /** The face-point pass reads `mesh.Vertices[i]` for every corner of
      every face: some corner lies outside the vertex array. */
  predicate CornerOutside(nv: int, fe: FacesAndEdges) {
    exists f, k :: 0 <= f < |fe.faces| && 0 <= k < |fe.faces[f]| && !(0 <= fe.faces[f][k] < nv)
  }

  /** The edge-point pass reads `correctFaces[1]`: some edge lies on fewer
      than two faces. */
  predicate LonelyEdge(fe: FacesAndEdges) {
    exists e :: 0 <= e < |fe.edges| && |FacesOfEdge(fe.edges[e], fe.faces)| < 2
  }

  /** The vertex-point pass averages over the faces and over the edges at
      vertex `x`; `Aggregate` on either empty list throws. */
  predicate Unaveraged(x: int, fe: FacesAndEdges) {
    |FacesInvolvingPoint(x, fe.faces)| == 0 || |EdgesInvolvingPoint(x, fe.edges)| == 0
  }

  /** The new-vertex pass fails at index value `x`: `visited[x]` is out of
      range, or one of the two averages around `x` is empty. */
  predicate VertexFails(nv: int, fe: FacesAndEdges, x: int) {
    !(0 <= x < nv) || Unaveraged(x, fe)
  }

  /** The new-vertex pass as the predicate `First` searches with. */
  function VertexCheck(nv: int, fe: FacesAndEdges): int -> bool {
    x => VertexFails(nv, fe, x)
  }

  /** Position `k` is where the new-vertex pass, walking `mesh.Indices` in
      order, first fails. */
  predicate FirstVertexFailure<V>(m: Mesh<V>, fe: FacesAndEdges, k: int) {
    0 <= k < |m.indices| && VertexFails(|m.vertices|, fe, m.indices[k])
    && forall j :: 0 <= j < k ==> !VertexFails(|m.vertices|, fe, m.indices[j])
  }

  /** Every pass of a subdivision step succeeds on the recovered faces and
      edges: each corner is a vertex, each edge lies on two faces, and each
      index is a vertex with a face and an edge around it. */
  predicate Subdividable<V>(m: Mesh<V>, fe: FacesAndEdges) {
    !CornerOutside(|m.vertices|, fe) && !LonelyEdge(fe)
    && forall k :: 0 <= k < |m.indices| ==> !VertexFails(|m.vertices|, fe, m.indices[k])
  }

  /** The search for the first failing index: none exactly when every index
      passes, and otherwise the index at the first failing position. */
  lemma VertexPass<V>(m: Mesh<V>, fe: FacesAndEdges)
    ensures Linq.First(m.indices, VertexCheck(|m.vertices|, fe)).Throws?
            <==> forall k :: 0 <= k < |m.indices| ==> !VertexFails(|m.vertices|, fe, m.indices[k])
    ensures forall k :: FirstVertexFailure(m, fe, k) ==>
              Linq.First(m.indices, VertexCheck(|m.vertices|, fe)) == Ok(m.indices[k])
  {
    var p := VertexCheck(|m.vertices|, fe);
    assert forall x :: p(x) == VertexFails(|m.vertices|, fe, x);
  }

  /** The 24 indices a face emits when its nine new vertices start at
      `base`: four sub-quads, each a pair of triangles, over the nine
      vertices laid out as the 3 x 3 grid p0 e01 p1 / e30 o e12 / p3 e23 p2. */
  function SubIndices(base: int): (r: seq<int>)
    ensures |r| == 24
    ensures forall k :: 0 <= k < 24 ==> base <= r[k] <= base + 8
  {
    [base + 0, base + 1, base + 3, base + 4, base + 3, base + 1,
     base + 1, base + 2, base + 4, base + 5, base + 4, base + 2,
     base + 3, base + 4, base + 6, base + 7, base + 6, base + 4,
     base + 4, base + 5, base + 7, base + 8, base + 7, base + 5]
  }

  function IndexBlock(): nat -> seq<int> {
    f => SubIndices(9 * f)
  }

  /** The nine vertices emitted for a face. The positions are floating
      point averages of the current mesh, so they are left to `point`,
      which receives the mesh, the face and the slot 0..8. */
  function VertexBlock<V>(m: Mesh<V>, faces: seq<seq<int>>, point: (Mesh<V>, seq<int>, int) -> V): nat -> seq<V> {
    (f: nat) => var face := if f < |faces| then faces[f] else []; seq(9, s => point(m, face, s))
  }

  /** The emission loop: nine vertices and 24 indices per face, every index
      of face `f` inside the face's own block `9 f .. 9 f + 8`. */
  function Emit<V>(m: Mesh<V>, faces: seq<seq<int>>, point: (Mesh<V>, seq<int>, int) -> V): (r: Mesh<V>)
    ensures |r.vertices| == 9 * |faces| && |r.indices| == 24 * |faces| && r.topology == Triangles
    ensures forall f :: 0 <= f < |faces| ==>
              Group(r.indices, 24, f) == SubIndices(9 * f)
              && forall k :: 0 <= k < 24 ==> 9 * f <= Group(r.indices, 24, f)[k] <= 9 * f + 8
    ensures forall f, s :: 0 <= f < |faces| && 0 <= s < 9 ==> Group(r.vertices, 9, f)[s] == point(m, faces[f], s)
    ensures IndicesInRange(r)
  {
    var r := Mesh(Blocks(|faces|, 9, VertexBlock(m, faces, point)), Blocks(|faces|, 24, IndexBlock()));
    forall f | 0 <= f < |faces|
      ensures Group(r.indices, 24, f) == SubIndices(9 * f)
      ensures Group(r.vertices, 9, f) == seq(9, s => point(m, faces[f], s))
    {
      BlocksGroup(|faces|, 24, IndexBlock(), f);
      BlocksGroup(|faces|, 9, VertexBlock(m, faces, point), f);
    }
    forall k | 0 <= k < |r.indices| ensures 0 <= r.indices[k] < |r.vertices| {
      EmittedIndexInRange(|faces|, k);
    }
    r
  }

  /** Entry `k` of the emitted index array lies in its face's block. */
  lemma EmittedIndexInRange(count: nat, k: nat)
    requires k < 24 * count
    ensures 0 <= Blocks(count, 24, IndexBlock())[k] < 9 * count
  {
    BlocksEntry(count, 24, IndexBlock(), k);
    MulMonotone(9, k / 24 + 1, count);
  }

  /** When no index fails the vertex pass, every index is in range. */
  lemma PassedVertexCheck<V>(m: Mesh<V>, fe: FacesAndEdges)
    requires Linq.First(m.indices, VertexCheck(|m.vertices|, fe)).Throws?
    ensures IndicesInRange(m)
  {
    forall k | 0 <= k < |m.indices| ensures 0 <= m.indices[k] < |m.vertices| {
      assert !VertexCheck(|m.vertices|, fe)(m.indices[k]);
    }
  }

  /** Emission followed by `Weld`: the emitted indices are in range, so the
      weld succeeds and keeps the index count. */
  function EmitAndWeld<V, K(==)>(m: Mesh<V>, faces: seq<seq<int>>, key: V -> K,
                                 point: (Mesh<V>, seq<int>, int) -> V): (r: Result<Mesh<V>>)
    ensures r.Ok? && |r.value.indices| == 24 * |faces| && |r.value.vertices| <= 9 * |faces|
    ensures IndicesInRange(r.value) && r.value.topology == Triangles && DistinctKeys(r.value.vertices, key)
  {
    Weld(Emit(m, faces, point), key)
  }

  /** The four sub-quads of a face over its nine new vertices, each
      walked in the same direction as the face. */
  const SubQuads: seq<seq<int>> := [[0, 1, 4, 3], [1, 2, 5, 4], [3, 4, 7, 6], [4, 5, 8, 7]]

  /** Two triangles `a b c` and `d c b` on the diagonal `b c` form the
      quad `a b d c`. */
  lemma DiagonalPair(a: int, b: int, c: int, d: int)
    requires a != b && a != c && a != d && b != c && b != d && c != d
    ensures QuadOf([a, b, c], [d, c, b]) == Ok([a, b, d, c])
  {
    assert FirstOutside([a, b, c], [d, c, b]) == 0;
    assert FirstOutside([d, c, b], [a, b, c]) == 0;
  }

  /** Sub-quad `q` of a face whose nine new vertices start at `base`. */
  function SubQuad(base: int, q: nat): seq<int>
    requires q < 4
  {
    Shift(SubQuads[q], base)
  }

  /** The emitted triangle pairs read back, through the pairing of
      `GetFacesAndEdges`, as the four sub-quads. */
  lemma SubPairIsSubQuad(base: int, q: nat)
    requires q < 4
    ensures QuadOf(SubIndices(base)[6 * q .. 6 * q + 3], SubIndices(base)[6 * q + 3 .. 6 * q + 6])
            == Ok(SubQuad(base, q))
  {
    var s := SubIndices(base);
    var a, b, c, d := base + 4, base + 5, base + 7, base + 8;
    if q == 0 {
      a, b, c, d := base, base + 1, base + 3, base + 4;
      assert s[0 .. 3] == [a, b, c] && s[3 .. 6] == [d, c, b];
    } else if q == 1 {
      a, b, c, d := base + 1, base + 2, base + 4, base + 5;
      assert s[6 .. 9] == [a, b, c] && s[9 .. 12] == [d, c, b];
    } else if q == 2 {
      a, b, c, d := base + 3, base + 4, base + 6, base + 7;
      assert s[12 .. 15] == [a, b, c] && s[15 .. 18] == [d, c, b];
    } else {
      assert s[18 .. 21] == [a, b, c] && s[21 .. 24] == [d, c, b];
    }
    assert SubQuad(base, q) == [a, b, d, c];
    DiagonalPair(a, b, c, d);
  }

  /** Pair `4 f + q` of an index array whose `f`-th block of 24 is `block`
      is pair `q` of that block. */
  lemma PairInBlock(e: seq<int>, f: nat, q: nat, block: seq<int>)
    requires q < 4 && 24 * f + 24 <= |e| && |block| == 24
    requires Group(e, 24, f) == block
    ensures 6 * (4 * f + q) + 6 <= |e|
    ensures e[6 * (4 * f + q) .. 6 * (4 * f + q) + 3] == block[6 * q .. 6 * q + 3]
    ensures e[6 * (4 * f + q) + 3 .. 6 * (4 * f + q) + 6] == block[6 * q + 3 .. 6 * q + 6]
  {
    var o := 24 * f;
    assert 6 * (4 * f + q) == o + 6 * q;
    assert forall k :: 0 <= k < 24 ==> e[o + k] == block[k];
  }

  /** In an index array laid out as emitted blocks, pair `4 f + q` reads
      back as sub-quad `q` of face `f`. */
  lemma EmittedPair(e: seq<int>, count: nat, f: nat, q: nat)
    requires |e| == 24 * count && f < count && q < 4
    requires forall f :: 0 <= f < count ==> Group(e, 24, f) == SubIndices(9 * f)
    ensures 6 * (4 * f + q) + 6 <= |e|
    ensures PairQuad(e, 4 * f + q) == Ok(SubQuad(9 * f, q))
  {
    MulMonotone(24, f + 1, count);
    PairInBlock(e, f, q, SubIndices(9 * f));
    SubPairIsSubQuad(9 * f, q);
  }

  /** Subdivision keeps the mesh a quad mesh: `GetFacesAndEdges` on the
      emitted mesh finds four faces for every old face, in emission order,
      each a sub-quad over that face's nine new vertices. */
  lemma EmitFaces<V>(m: Mesh<V>, faces: seq<seq<int>>, point: (Mesh<V>, seq<int>, int) -> V)
    ensures var fe := GetFacesAndEdges(Emit(m, faces, point));
            fe.Ok? && |fe.value.faces| == 4 * |faces|
            && forall p :: 0 <= p < 4 * |faces| ==> fe.value.faces[p] == SubQuad(9 * (p / 4), p % 4)
  {
    var e := Emit(m, faces, point);
    EmittedPairs(e.indices, |faces|);
    assert |e.indices| / 6 == 4 * |faces|;
  }

  /** Every pair of an index array laid out as emitted blocks reads back
      as a sub-quad. */
  lemma EmittedPairs(e: seq<int>, count: nat)
    requires |e| == 24 * count
    requires forall f :: 0 <= f < count ==> Group(e, 24, f) == SubIndices(9 * f)
    ensures forall p :: 0 <= p < 4 * count ==> PairQuad(e, p) == Ok(SubQuad(9 * (p / 4), p % 4))
  {
    forall p | 0 <= p < 4 * count ensures PairQuad(e, p) == Ok(SubQuad(9 * (p / 4), p % 4)) {
      var f, q := p / 4, p % 4;
      assert p == 4 * f + q;
      EmittedPair(e, count, f, q);
    }
  }

  /** One subdivision step, up to the weld: the face-point, edge-point and
      vertex-point passes with the exceptions they raise, then emission
      and `Weld`. */
  function Subdivide<V, K(==)>(m: Mesh<V>, key: V -> K, point: (Mesh<V>, seq<int>, int) -> V): (r: Result<Mesh<V>>)
    ensures GetFacesAndEdges(m).Throws? ==> r == Throws(InvalidOperation)
    ensures GetFacesAndEdges(m).Ok? && CornerOutside(|m.vertices|, GetFacesAndEdges(m).value) ==>
              r == Throws(IndexOutOfRange)
    ensures GetFacesAndEdges(m).Ok? && LonelyEdge(GetFacesAndEdges(m).value) ==> r == Throws(IndexOutOfRange)
    ensures r.Ok? <==> GetFacesAndEdges(m).Ok? && Subdividable(m, GetFacesAndEdges(m).value)
    ensures GetFacesAndEdges(m).Ok? && !CornerOutside(|m.vertices|, GetFacesAndEdges(m).value)
            && !LonelyEdge(GetFacesAndEdges(m).value) ==>
              forall k :: FirstVertexFailure(m, GetFacesAndEdges(m).value, k) ==>
                r == Throws(if 0 <= m.indices[k] < |m.vertices| then InvalidOperation else IndexOutOfRange)
    ensures r == Throws(InvalidOperation) ==>
              GetFacesAndEdges(m).Throws?
              || exists k :: 0 <= k < |m.indices| && 0 <= m.indices[k] < |m.vertices|
                             && Unaveraged(m.indices[k], GetFacesAndEdges(m).value)
    ensures r.Throws? ==> r.error == InvalidOperation || r.error == IndexOutOfRange
    ensures r.Ok? ==> IndicesInRange(m) && GetFacesAndEdges(m).Ok?
    ensures r.Ok? ==> var fe := GetFacesAndEdges(m).value;
                      forall e :: e in fe.edges ==> |FacesOfEdge(e, fe.faces)| >= 2
    ensures r.Ok? ==> |r.value.indices| == 24 * (|m.indices| / 6) && |r.value.vertices| <= 9 * (|m.indices| / 6)
    ensures r.Ok? ==> IndicesInRange(r.value) && r.value.topology == Triangles && DistinctKeys(r.value.vertices, key)
  {
    var fe :- GetFacesAndEdges(m);
    VertexPass(m, fe);
    if CornerOutside(|m.vertices|, fe) then
      Throws(IndexOutOfRange)
    else if LonelyEdge(fe) then
      Throws(IndexOutOfRange)
    else
      var bad := Linq.First(m.indices, VertexCheck(|m.vertices|, fe));
      if bad.Ok? then
        // `visited[index]`, then the two averages
        if !(0 <= bad.value < |m.vertices|) then Throws(IndexOutOfRange) else Throws(InvalidOperation)
      else
        // Emission looks up `edgePoints[(face[i], face[i + 1])]`, which
        // cannot miss: `GetFacesAndEdges` lists every face edge
        // (`CoversFaces`) and the edge pass stores both orientations.
        PassedVertexCheck(m, fe);
        EmitAndWeld(m, fe.faces, key, point)
  }

  function Pow4(n: nat): nat {
    if n == 0 then 1 else 4 * Pow4(n - 1)
  }

  /** `MeshTools.CatmullClark`: `iterations` subdivision steps, each
      welding its output. Zero iterations return the mesh itself. With a
      negative count the counter only reaches zero again after wrapping
      around 2^32, so no value comes back: a later step throws or the
      stack runs out. The model takes the first step and then stops with
      `NeverReturns`; which of those ends the call is not followed. */
  function CatmullClark<V, K(==)>(m: Mesh<V>, iterations: int, key: V -> K,
                                  point: (Mesh<V>, seq<int>, int) -> V): (r: Result<Mesh<V>>)
    ensures iterations == 0 ==> r == Ok(m)
    ensures iterations == 1 ==> r == Subdivide(m, key, point)
    ensures iterations != 0 && Subdivide(m, key, point).Throws? ==> r == Subdivide(m, key, point)
    ensures iterations < 0 ==> r.Throws?
    ensures iterations != 0 && GetFacesAndEdges(m).Throws? ==> r == Throws(InvalidOperation)
    ensures r.Throws? ==> r.error in {InvalidOperation, IndexOutOfRange, NeverReturns}
    ensures r.Ok? && iterations > 0 ==>
              IndicesInRange(r.value) && r.value.topology == Triangles
              && |r.value.indices| == Pow4(iterations) * (6 * (|m.indices| / 6))
    decreases if iterations > 0 then iterations else 0
  {
    if iterations == 0 then Ok(m)
    else
      var next :- Subdivide(m, key, point);
      if iterations < 0 then Throws(NeverReturns)
      else
        var r := CatmullClark(next, iterations - 1, key, point);
        if r.Ok? then
          SubdividedCount(|m.indices|, |next.indices|, iterations, |r.value.indices|);
          r
        else r
  }

  /** The index count after `n` steps: each step keeps the triangles of
      whole pairs and turns each pair into 24 indices. */
  lemma SubdividedCount(len: nat, next: nat, n: nat, result: nat)
    requires n >= 1 && next == 24 * (len / 6)
    requires n == 1 ==> result == next
    requires n > 1 ==> result == Pow4(n - 1) * (6 * (next / 6))
    ensures result == Pow4(n) * (6 * (len / 6))
  {
    var q := len / 6;
    assert next / 6 == 4 * q;
    assert 6 * (next / 6) == 4 * (6 * q);
    if n > 1 {
      assert Pow4(n - 1) * (4 * (6 * q)) == (4 * Pow4(n - 1)) * (6 * q);
    }
  }
}
